=== FILE: README.md ===
# agenticAI core in Dafny

This project models the core of agenticAI, a coding agent. The agent sends a task
to a text-generation service, turns each reply into actions, runs the actions through
a tool registry and feeds the results back. The loop stops on a `finish` action, on
an empty reply, on an exception or at an iteration cap.

The model covers:

- the tool base: parameters, schemas, the registry, `execute_tool` and `from_function`;
- the action records and the action generator;
- the agent loop, with its context window and result summaries;
- the MCP request/response records, the MCP server's dispatch, and the MCP client's
  request ids and result extraction, together with the client wired to the server;
- the file tools (read, write, edit, list) over a file system held as a map;
- the keyword search and `find_files`;
- the nsys profiling tool up to the profiler run, and its suggestion rules.

Python values are the `Json.Value` datatype. An exception is `Outcome.Raised`.
Everything outside the core is a function-typed parameter ("oracle"):

- the generation service and the action executor;
- `json.loads`, `shlex.split` and `fnmatch`;
- `pathlib` joins, parents and stems;
- directory walks (`iterdir`, `rglob`) and the `repr` of containers.

Sorting (`sorted`, `list.sort`) is a stable insertion sort on integer-sequence keys
compared lexicographically. It is proved sorted, a permutation of its input, and
stable.

Modules, one per source concern:

- `Common`, `Json`, `Text` and `Sorting` are shared foundations.
- `ToolBase` covers `agenticAI/tools/base.py`.
- `Actions` covers `agenticAI/actions/action.py`; `Generator` covers `agenticAI/actions/generator.py`.
- `Agent` covers `agenticAI/agent.py`.
- `McpProtocol`, `McpServer` and `McpClient` cover `agenticAI/mcp/`; `McpLoopback` wires the client to the server.
- `FileSystem` and `FileTools` cover `agenticAI/tools/file_tools.py`.
- `SearchTools` and `ProfilingTools` cover the tools of the same names.

## Model

| member | source | states |
|---|---|---|
| ToolBase.NewParameter | agenticAI/tools/base.py:10-16 | A parameter is required by default and has no default value. |
| ToolBase.Properties | agenticAI/tools/base.py:35-44 | `properties` has a key exactly for each parameter name. When a name repeats, the last parameter with that name decides its entry. |
| ToolBase.Required | agenticAI/tools/base.py:45-46 | A name is in `required` exactly when some parameter of that name is required. |
| ToolBase.RequiredAppend | agenticAI/tools/base.py:38-46 | `required` keeps declaration order: it distributes over concatenating parameter lists. |
| ToolBase.GetSchema | agenticAI/tools/base.py:33-56 | The schema keeps the tool's name and description. Its properties and required names are exactly those of the parameters. |
| ToolBase.SchemaEntryOfParameter | agenticAI/tools/base.py:39-44 | A parameter's schema entry has its type and description. It has a `"default"` exactly when the default is not None. |
| ToolBase.Get | agenticAI/tools/base.py:112-114 | `get` finds a tool exactly for a registered name, and the tool it returns has that name. |
| ToolBase.Register | agenticAI/tools/base.py:108-110 | After `register(t)`, `get(t.name)` is `t` and every other name is unaffected. A new name goes last; re-registering keeps the name's place. Names stay unique. |
| ToolBase.ListTools | agenticAI/tools/base.py:116-122 | One schema per registered tool, in registration order. |
| ToolBase.ListToolsOnePerName | agenticAI/tools/base.py:106-118 | The listed schemas cover exactly the registered names, each once. |
| ToolBase.RegisterAllUnique | agenticAI/tools/base.py:108-110 | From a registry with unique names, any sequence of registrations keeps names unique, and each name then holds the last tool registered under it. |
| ToolBase.RegisterAllKeeps | agenticAI/tools/base.py:106-110 | Registrations under other names leave a name's tool unchanged. |
| ToolBase.ExecuteTool | agenticAI/tools/base.py:124-133 | An unknown name gives the not-found dict. A dict without `"success"` can only be the registered tool's own return value. |
| ToolBase.ExecuteRegistered | agenticAI/tools/base.py:124-133 | A freshly registered tool's return value is passed through. Its exception becomes "Tool execution failed: …". |
| ToolBase.ExecuteOther | agenticAI/tools/base.py:108-114 | Registering a tool does not change how other names dispatch. |
| ToolBase.ExecuteOnEmpty | agenticAI/tools/base.py:127-128 | On an empty registry every call fails with "Tool '<name>' not found". |
| ToolBase.TypeTag | agenticAI/tools/base.py:65-74 | Each JSON type name corresponds exactly to its annotations: int to integer, float to number, bool to boolean, list or List to array, anything else to string. |
| ToolBase.FunctionToolExecute | agenticAI/tools/base.py:92-97 | The wrapper never raises. A return is reported as success with the value; an exception is reported as failure with its message. |
| ToolBase.FromFunction | agenticAI/tools/base.py:59-99 | The tool's name and description fall back as `name or func.__name__` and then `description or __doc__ or "Tool: …"`. Parameters keep order, name and type, and are required exactly when they have no default. Execution is the wrapper. (Corrected description text; see Findings.) |
| ToolBase.FromFunctionAsWritten | agenticAI/tools/base.py:76-82 | As written, every parameter gets the same description, the `inspect.Parameter` class docstring. |
| ToolBase.ParameterDescriptionsCollide | agenticAI/tools/base.py:79 | Two parameters `a` and `b` get equal descriptions as written, and different ones when corrected. |
| ToolBase.FunctionToolThroughRegistry | agenticAI/tools/base.py:92-97 | A function tool reached through `execute_tool` reports the function's value or its exception message. |
| Actions.ParseActionType | agenticAI/actions/action.py:9-16 | `ActionType(s)` succeeds exactly for the six enum values. |
| Actions.ActionTypesAreSix | agenticAI/actions/action.py:9-16 | There are six types with distinct values. Parsing and the value are inverse both ways. |
| Actions.NewAction | agenticAI/actions/action.py:19-25 | Parameters and metadata default to empty, and the description to None. |
| Actions.ValidateAction | agenticAI/actions/action.py:19-25 | A validated action's type and name are the dict's. A dict missing either does not validate. |
| Actions.ValidateActionToValue | agenticAI/actions/action.py:19-25 | `Action(**action.dict())` gives the action back. |
| Actions.ValidateMinimal | agenticAI/actions/action.py:21-25 | A dict with only `type` and `name` validates with every other field at its default. |
| Actions.SuccessResult | agenticAI/actions/action.py:35-42 | A success result carries the value and no error. Metadata is the argument or `{}`. |
| Actions.ErrorResult | agenticAI/actions/action.py:44-51 | An error result carries the message and no value. Metadata is the argument or `{}`. |
| Actions.BareResultNotExclusive | agenticAI/actions/action.py:28-33 | The record alone does not keep `result` and `error` exclusive. |
| Generator.ParseFunctionArgs | agenticAI/actions/generator.py:50-55 | A decode error gives `{}`. A decoded value is returned as is, even if it is not a dict. A non-string argument raises. |
| Generator.ParseActionFromContent | agenticAI/actions/generator.py:57-68 | An action is returned only when the stripped content opens with `{` or `[`, decodes to a dict with `"type"`, and validates. |
| Generator.GenerateAction | agenticAI/actions/generator.py:40-46 | Plain content becomes a `generate` action carrying the content. |
| Generator.FunctionCallAction | agenticAI/actions/generator.py:24-31 | Building the action raises exactly when the call is not a dict with a string `name`, or its `arguments` (default `"{}"`) raise on decoding or decode to something other than a dict. Otherwise the result is a `tool_call` action. It is named after the call, its parameters are the decoded arguments, its description is "Call tool: <name>", and it has no metadata. |
| Generator.GenerateFromResponse | agenticAI/actions/generator.py:16-48 | At most one action. With a function call, the list is exactly the action built from the call, and the call raises exactly when building that action raises. Without one, the list is empty exactly when the content is empty. Otherwise it holds the JSON action the content parses to, or else the `generate` echo. |
| Generator.FunctionCallWins | agenticAI/actions/generator.py:24-34 | With a function call, the content has no influence. |
| Generator.ArgumentsDefaultToEmpty | agenticAI/actions/generator.py:29 | Missing arguments give empty parameters. |
| Generator.WhitespaceContentIsEchoed | agenticAI/actions/generator.py:34-46 | Whitespace-only content still yields a `generate` action. |
| Generator.JsonContentBecomesAction | agenticAI/actions/generator.py:61-65 | A JSON object with `"type"` that validates is the action returned. |
| Generator.JsonArrayFallsThrough | agenticAI/actions/generator.py:62-68 | A top-level JSON array is echoed verbatim as content. |
| Generator.GenerateToolAction | agenticAI/actions/generator.py:70-77 | A `tool_call` action with the keyword arguments as parameters. |
| Generator.GenerateMcpAction | agenticAI/actions/generator.py:79-86 | An `mcp_request` action named after the method. |
| Agent.Window | agenticAI/agent.py:201 | The window holds five entries, or all of them when there are fewer. |
| Agent.WindowIsNewest | agenticAI/agent.py:201 | The window is `history[-5:]`: it is the newest entries of the history, ending with the last one. |
| Agent.RenderJoinIsJoin | agenticAI/agent.py:196-206 | The context is the rendered `ROLE: content` entries joined by blank lines. |
| Agent.ContextEmptyIff | agenticAI/agent.py:196-206 | The context is empty exactly when the history is. |
| Agent.ContextIgnoresOlder | agenticAI/agent.py:201 | Entries older than the last five never reach the context. |
| Agent.ContextAppend | agenticAI/agent.py:196-206 | Below five entries, a new entry extends the context by one blank-line-separated block. |
| Agent.FormatLine | agenticAI/agent.py:211-223 | A success line is "Action '<name>' completed successfully. Result: " followed by the first 200 characters of `str(result)`. A failure line is "Action '<name>' failed: " followed by the error. `ActionResult.dict()` always carries both keys (`actions/action.py:28-33`), so the `get` defaults never apply. A missing value shows as "None". |
| Agent.FormatResultsAppend | agenticAI/agent.py:208-225 | The summary of two batches is the two summaries joined by a newline. |
| Agent.FormatLineBounded | agenticAI/agent.py:218 | A success line is never longer than its fixed text plus 200 characters. |
| Agent.ExecuteBatch | agenticAI/agent.py:146-172 | A completed batch ran every action. A finished batch ran a non-empty prefix. |
| Agent.ExecuteBatchInOrder | agenticAI/agent.py:146-172 | Actions run in order with consecutive call numbers. A completed batch held no `finish`. A finished batch stops right after the first `finish`. |
| Agent.EffectiveMax | agenticAI/agent.py:103 | `max_iterations or configured`: a missing or zero argument falls back to the configured cap. |
| Agent.Stop | agenticAI/agent.py:189-194 | The final report is a success exactly below the cap. Its message is "Reached max iterations" exactly at or above it. |
| Agent.Fail | agenticAI/agent.py:179-187 | An exception adds exactly one error record, numbered by the iteration, and ends the loop. |
| Agent.FinishReturnsBatch | agenticAI/agent.py:163-172 | A batch that runs a `finish` returns at once. Its results are the results so far plus that batch up to the `finish`. Its final message is the reply's text, and the reply is the newest history entry. |
| Agent.CompletedBatchContinues | agenticAI/agent.py:145-177 | A batch without `finish` appends its results and the reply. The next task is the batch's summary, and the call count moves past the batch. |
| Agent.NoActionsStops | agenticAI/agent.py:135-194 | A reply that yields no action is recorded and ends the loop. The results are unchanged, and the report is that of the return after the loop. |
| Agent.BatchErrorDropsPartialResults | agenticAI/agent.py:174-187 | When the executor raises mid-batch, that batch's finished actions are dropped and only the error record is added. |
| Agent.LoopCounts | agenticAI/agent.py:116-135 | One prompt per iteration. At most one assistant reply per iteration, appended to the history. The iteration count never exceeds the cap (at least one). |
| Agent.LoopPrompts | agenticAI/agent.py:125-132 | The first prompt is the task. Every later prompt is the context built from the history at that point. |
| Agent.LoopReplies | agenticAI/agent.py:125-135 | Each history entry the loop appends is the service's reply to the prompt sent in that iteration, in iteration order. |
| Agent.LoopEnding | agenticAI/agent.py:140-194 | A run ends in one of three ways. A `finish` return carries the results so far plus that batch, and its final message is the reply to the last prompt. The other two are an error record and the return after the loop. |
| Agent.RunShape | agenticAI/agent.py:92-194 | `run` keeps all of the above, starting from the task appended as a user entry. After the earlier history and the task, the history holds exactly the service's replies to the prompts sent, in order. A `finish` return's final message is the reply of its last iteration. |
| McpProtocol.NewRequest | agenticAI/mcp/protocol.py:8-13 | `jsonrpc` defaults to "2.0" and params to `{}`. |
| McpProtocol.ParseRequest | agenticAI/mcp/protocol.py:8-13 | `method` is required. A missing `id`, `params` or `jsonrpc` takes its default. |
| McpProtocol.ParseRequestToValue | agenticAI/mcp/protocol.py:8-13 | Validating a request's `.dict()` gives the request back. |
| McpProtocol.ResultResponse | agenticAI/mcp/protocol.py:16-21 | A result response has no error. |
| McpProtocol.ErrorResponse | agenticAI/mcp/protocol.py:16-21 | An error response has `result` None and error `{"code", "message"}`. |
| McpProtocol.DefaultResponseNotWellFormed | agenticAI/mcp/protocol.py:16-21 | The record allows neither or both of result and error. Both factories produce exactly one of them. |
| McpProtocol.ParseResponse | agenticAI/mcp/protocol.py:16-21 | A missing result or error is None. An explicit null error is no error. |
| McpProtocol.ParseResponseToValue | agenticAI/mcp/protocol.py:16-21 | Responses survive `.dict()` and validation. |
| McpProtocol.NewResource | agenticAI/mcp/protocol.py:24-29 | Description and MIME type default to None. |
| McpProtocol.ParseResource | agenticAI/mcp/protocol.py:24-29 | `uri` and `name` are required and read back. |
| McpProtocol.ParseResourceToValue | agenticAI/mcp/protocol.py:24-29 | Resources survive `.dict()` and validation. |
| McpProtocol.NewTool | agenticAI/mcp/protocol.py:32-36 | The input schema defaults to `{}`. |
| McpProtocol.ParseTool | agenticAI/mcp/protocol.py:32-36 | `name` and `description` are required. A missing input schema is `{}`. |
| McpProtocol.ParseToolToValue | agenticAI/mcp/protocol.py:32-36 | Tools survive `.dict()` and validation. |
| McpServer.NewServer | agenticAI/mcp/server.py:11-14 | A new server has no resources and no tools. |
| McpServer.RegisterResource | agenticAI/mcp/server.py:16-18 | The resource is appended and nothing else changes. |
| McpServer.RegisterTool | agenticAI/mcp/server.py:20-22 | The tool is appended and nothing else changes. |
| McpServer.ResourceList | agenticAI/mcp/server.py:43-47 | One dict per resource, in order. |
| McpServer.ToolList | agenticAI/mcp/server.py:48-52 | One dict per tool, in order. |
| McpServer.CallRegistry | agenticAI/mcp/server.py:66-76 | `execute_tool(name, **arguments)` raises exactly when the arguments are not a dict, carry a `self` or `name` key (colliding with the method's own parameters), or the name is unhashable. A string name dispatches through the registry. Any other name is reported as not found under its `str()`. |
| McpServer.HandleToolCall | agenticAI/mcp/server.py:64-90 | Without a registry: -32603 "Tool registry not available". Otherwise the response is well formed and echoes the id. |
| McpServer.HandleRequest | agenticAI/mcp/server.py:24-62 | Only `tools/call` can raise. Every response has exactly one of result and error and echoes the id. The code is -32601 exactly for the methods the server does not handle. |
| McpServer.ReadIsNotFound | agenticAI/mcp/server.py:55-62 | `resources/read` is answered with "Method not found: resources/read". |
| McpServer.InitializeAnnouncesVersion | agenticAI/mcp/server.py:28-42 | `initialize` answers protocol version 2024-11-05. |
| McpServer.RegisterResources | agenticAI/mcp/server.py:16-18 | Registering resources keeps the registry and the tools. |
| McpServer.RegisterResourcesAppends | agenticAI/mcp/server.py:16-18 | Registered resources accumulate in registration order. |
| McpServer.ListedInRegistrationOrder | agenticAI/mcp/server.py:43-47 | `resources/list` returns the resources in registration order. |
| McpServer.MissingArgumentsAreEmpty | agenticAI/mcp/server.py:68 | A call without `arguments` runs the tool with `{}`. |
| McpServer.ToolCallThroughServer | agenticAI/mcp/server.py:76-90 | A call to a registered tool raises exactly when its arguments carry `self` or `name`. Otherwise a success returns one text item holding `str(result)`, and a failure returns internal error -32603 carrying the tool's error, or "Tool execution failed" when there is none. |
| McpServer.FloatNameNotFound | agenticAI/mcp/server.py:66-90 | A float tool name is never registered: the reply is -32603 "Tool '<str(name)>' not found". |
| McpServer.SelfArgumentRaises | agenticAI/mcp/server.py:76 | Arguments carrying `self` make the call raise. |
| McpClient.NewClient | agenticAI/mcp/client.py:20-22 | The counter starts at 0. |
| McpClient.NextId | agenticAI/mcp/client.py:92-95 | The id is the decimal of the counter plus one, and the counter advances. |
| McpClient.SendRequest | agenticAI/mcp/client.py:81-90 | A transport takes precedence. A non-empty URL gives the placeholder. With neither, the call raises. |
| McpClient.GetAttr | agenticAI/mcp/client.py:47 | `.get` works on a dict and raises on anything else. |
| McpClient.RequestFor | agenticAI/mcp/client.py:24-79 | Each wrapper sends its own method with its own params. `initialize` asks for protocol 2024-11-05. |
| McpClient.Extract | agenticAI/mcp/client.py:40-79 | `initialize` returns the whole response. The other calls read `result` (then `resources`/`tools`) with `{}`/`[]` defaults, and raise on a non-dict. |
| McpClient.Perform | agenticAI/mcp/client.py:24-79 | A call uses the next id, sends the request, and extracts from the reply or passes on the exception. |
| McpClient.Session | agenticAI/mcp/client.py:92-95 | One exchange per call. |
| McpClient.SessionChained | agenticAI/mcp/client.py:92-95 | A session is its calls made one after another: each call runs on the client the previous call left. |
| McpClient.SessionIds | agenticAI/mcp/client.py:92-95 | The k-th request of a session has id counter + k + 1, and the call leaves the counter there. |
| McpClient.CountedIds | agenticAI/mcp/client.py:92-95 | Ids drawn from successive counter values parse back to those values, and no two are equal. |
| McpClient.SessionIdsDistinct | agenticAI/mcp/client.py:92-95 | Within one client's session every id parses to its counter value, and no id is reused. |
| McpClient.FreshSessionIds | agenticAI/mcp/client.py:92-95 | From a fresh client the ids are "1", "2", "3", … in call order. |
| McpClient.UnconfiguredRaises | agenticAI/mcp/client.py:89-90 | Without transport or URL every call raises, yet still consumes an id. |
| McpClient.PlaceholderResults | agenticAI/mcp/client.py:85-88 | With only a URL: the list calls raise (a None result has no `.get`), read and call return None, and initialize returns the placeholder. |
| McpLoopback.ServerSeesClientRequest | agenticAI/mcp/client.py:83-84 | The server receives exactly the request the client built. |
| McpLoopback.LoopbackPerform | agenticAI/mcp/client.py:24-95 | Any wrapper call over the loopback is the server's handling of the exact request the wrapper built, passed through the wrapper's extraction; a server exception passes through. |
| McpLoopback.PerformRelayed | agenticAI/mcp/client.py:24-84 | Whatever a transport answers, the wrapper raises what it raised or extracts from the response dict. |
| McpLoopback.Connected | agenticAI/mcp/client.py:20-22 | A client wired to the server has a transport and the given counter. |
| McpLoopback.InitializeRoundTrip | agenticAI/mcp/server.py:28-42 | Initialize echoes the client's id, has no error, and agrees with the client on the protocol version. |
| McpLoopback.ListToolsRoundTrip | agenticAI/mcp/client.py:59-66 | `list_tools` returns the server's tools in registration order. |
| McpLoopback.ListResourcesRoundTrip | agenticAI/mcp/client.py:40-47 | `list_resources` returns the server's resources in registration order. |
| McpLoopback.ReadResourceRoundTrip | agenticAI/mcp/client.py:49-57 | `read_resource` against this server returns None. |
| McpLoopback.CallToolWithoutRegistry | agenticAI/mcp/server.py:70-74 | `call_tool` against a server without a registry returns None. |
| FileSystem.Resolve | agenticAI/tools/file_tools.py:43-47 | Absolute paths stay. Relative paths go under the workspace. |
| FileSystem.ReplyToDict | agenticAI/tools/file_tools.py:64-73 | A reply has `success` and exactly one of `result` and `error`. |
| FileSystem.Translated | agenticAI/tools/file_tools.py:55 | A text-mode read is never longer than the stored text and holds no carriage return. |
| FileSystem.TranslatedIdentity | agenticAI/tools/file_tools.py:55 | Text reads back unchanged exactly when it holds no carriage return. |
| FileSystem.LineEndsTranslated | agenticAI/tools/file_tools.py:55 | `\r\n` and a lone `\r` each read as `\n`. |
| FileSystem.TranslatedIdempotent | agenticAI/tools/file_tools.py:55 | Reading back what a read produced changes nothing more. |
| FileTools.SliceLines | agenticAI/tools/file_tools.py:56-62 | Without offset and limit the whole text is returned. |
| FileTools.LineCount | agenticAI/tools/file_tools.py:69 | `lines` is 0 exactly for empty content. |
| FileTools.ZeroMeansAbsent | agenticAI/tools/file_tools.py:58-59 | Offset 0 or 1 and limit 0 mean "from the start" and "to the end". |
| FileTools.WindowOfLines | agenticAI/tools/file_tools.py:56-60 | Offset o and limit l give lines o to o+l-1 (1-based) of the file. |
| FileTools.LineCountOfLines | agenticAI/tools/file_tools.py:69 | `lines` is the newline count plus one, for non-empty content. |
| FileTools.ReadFile | agenticAI/tools/file_tools.py:41-73 | A missing path fails with "File not found"; a directory with "Path is not a file". Success happens exactly for files. The file is read in text mode, so the lines are cut from the newline-translated text. Without offset and limit the content is the whole translated text. |
| FileTools.CrlfReadsTranslated | agenticAI/tools/file_tools.py:55-69 | A file holding `a\r\nb` reads as `a\nb`, 2 lines. |
| FileTools.Utf8Length | agenticAI/tools/file_tools.py:116 | The byte count is between 1 and 4 bytes per character. |
| FileTools.Utf8LengthAscii | agenticAI/tools/file_tools.py:116 | The byte count equals the character count exactly for ASCII text. |
| FileTools.Utf8LengthAppend | agenticAI/tools/file_tools.py:116 | The byte count adds up over concatenation. |
| FileTools.WriteFile | agenticAI/tools/file_tools.py:99-120 | Success happens exactly when the parent is not a file and the path is not a directory. The file then holds the content; other paths are unchanged except the created parent. |
| FileTools.WriteThenRead | agenticAI/tools/file_tools.py:99-120 | What was written reads back whole, with its line count, as its newline translation. Text without a carriage return reads back exactly. |
| FileTools.EditText | agenticAI/tools/file_tools.py:172-182 | Failure happens exactly when the text is absent, or occurs twice or more without replace_all. On success every occurrence is replaced and the count is the occurrence count. |
| FileTools.EditReplacesEveryOccurrence | agenticAI/tools/file_tools.py:175-177 | The edit splits on the old text and rejoins with the new. The count is the number of pieces minus one. |
| FileTools.EditToSameIsIdentity | agenticAI/tools/file_tools.py:175-182 | Replacing a text by itself leaves the file unchanged. |
| FileTools.EditFile | agenticAI/tools/file_tools.py:159-195 | A missing file fails with "File not found". The edit works on the newline-translated text. A failed text edit is reported with its message, and any failure leaves the file system unchanged. On success only the file changes, to the edited text, and the reply gives the path and the count. |
| FileTools.CarriageReturnNeverFound | agenticAI/tools/file_tools.py:169-173 | An `old_string` holding a carriage return is never found: the text searched has none. |
| FileTools.EditWritesNewlineEnds | agenticAI/tools/file_tools.py:169-185 | A successful edit whose `new_string` has no carriage return leaves a file without any. |
| FileTools.Kept | agenticAI/tools/file_tools.py:236-252 | Kept entries are not hidden and match no ignore pattern. |
| FileTools.KeptComplete | agenticAI/tools/file_tools.py:237-246 | Every entry that is not skipped is kept. |
| FileTools.ListingOrder | agenticAI/tools/file_tools.py:258 | The listing is a permutation of the kept entries. Directories come first, and names ascend within each kind. |
| FileTools.ListDirectory | agenticAI/tools/file_tools.py:223-262 | A missing path fails with "Directory not found"; a file with "Path is not a directory". Success happens exactly for directories. |
| Sorting.SortByKeySorted | agenticAI/tools/file_tools.py:258 | The sort's result is ordered by the key. |
| Sorting.SortByKeyPermutes | agenticAI/tools/search_tools.py:71 | The sort's result is a permutation of its input. |
| Sorting.SortByKeyStable | agenticAI/tools/search_tools.py:72 | Elements with equal keys keep their relative order. |
| SearchTools.LongWords | agenticAI/tools/search_tools.py:48 | Keywords are lower-case and longer than three characters. There are never more keywords than words. |
| SearchTools.Keywords | agenticAI/tools/search_tools.py:48 | Every keyword is lower-case and longer than three characters. |
| SearchTools.KeywordsOfWords | agenticAI/tools/search_tools.py:48 | For a query of space-separated words, the keywords are its long words, in order. |
| SearchTools.RepeatedWordTwice | agenticAI/tools/search_tools.py:65 | A repeated word counts twice. |
| SearchTools.Relevance | agenticAI/tools/search_tools.py:62-65 | Relevance is at most the keyword count, and positive exactly when some keyword occurs. |
| SearchTools.Hits | agenticAI/tools/search_tools.py:57-68 | Every hit has relevance between 1 and the keyword count. |
| SearchTools.HitsAppend | agenticAI/tools/search_tools.py:57-68 | Hits are found file by file, in discovery order. |
| SearchTools.HitInPlace | agenticAI/tools/search_tools.py:62-66 | A file contributes its hit in place exactly when some keyword occurs in its lower-cased text. |
| SearchTools.NoKeywordsNoHits | agenticAI/tools/search_tools.py:62 | Without keywords nothing is a hit. |
| SearchTools.SearchDirs | agenticAI/tools/search_tools.py:50 | Missing or empty targets mean the workspace root. |
| SearchTools.Discover | agenticAI/tools/search_tools.py:53-68 | Discovered hits have relevance within bounds. |
| SearchTools.DiscoverAppend | agenticAI/tools/search_tools.py:53 | Directories are searched in order. |
| SearchTools.MissingDirectorySkipped | agenticAI/tools/search_tools.py:54-55 | A directory that does not exist changes nothing. |
| SearchTools.RankedDescending | agenticAI/tools/search_tools.py:71-72 | Results are discovered hits in descending relevance. Their number follows `results[:max_results]`, including negative `max_results`. |
| SearchTools.RankedStable | agenticAI/tools/search_tools.py:71 | Equal relevance keeps discovery order. |
| SearchTools.SemanticSearch | agenticAI/tools/search_tools.py:40-83 | The search succeeds with exactly `query`, `results` and `count`. There are as many results as `results[:max_results]` keeps, and `count` is their number. Each is the record of a discovered hit, with relevance between 1 and the keyword count, in descending relevance. Read back, they are the discovered hits ranked and cut. |
| SearchTools.SearchKeepsDiscoveryOrder | agenticAI/tools/search_tools.py:71-79 | When `max_results` cuts nothing, the hits of each relevance are returned in the order they were discovered. |
| SearchTools.NoKeywordsNoResults | agenticAI/tools/search_tools.py:48-79 | A query without a word longer than three characters returns count 0. |
| SearchTools.EmptyDiscover | agenticAI/tools/search_tools.py:53-68 | Without keywords no directory yields a hit. |
| SearchTools.FilesOnly | agenticAI/tools/search_tools.py:119 | Only matches that are files are listed. |
| SearchTools.FilesOnlyMembers | agenticAI/tools/search_tools.py:119-125 | A name is listed exactly when some file match shows it. |
| SearchTools.FilesOnlyAppend | agenticAI/tools/search_tools.py:118-119 | File matches keep the order in which they were matched. |
| SearchTools.FindFiles | agenticAI/tools/search_tools.py:110-130 | The search directory is the workspace or `workspace / directory`. A missing directory fails with "Directory not found: <dir>", and an exception from the walk fails with its message. Success happens exactly otherwise, with exactly `pattern`, `files` and `count`: the pattern, the file matches in order, and their number. |
| SearchTools.WalkErrorReported | agenticAI/tools/search_tools.py:118-130 | A walk that raises, as `rglob` does for an absolute pattern, gives a failure reply carrying the exception's message. |
| ProfilingTools.DefaultRequest | agenticAI/tools/profiling_tools.py:90-101 | The defaults are no output name, the python launcher and one process. |
| ProfilingTools.SplitIfAny | agenticAI/tools/profiling_tools.py:141-142 | An empty argument string adds nothing; a non-empty one is shell-split. |
| ProfilingTools.NprocAtLeastOne | agenticAI/tools/profiling_tools.py:150 | The torchrun flag always requests a positive process count, exactly n when n is positive. |
| ProfilingTools.LauncherCmd | agenticAI/tools/profiling_tools.py:145-152 | A blank launcher is python. python and python3 stand alone. torchrun gets the process flag. Any other stripped launcher gives exactly the shell split of that text, a raise included. |
| ProfilingTools.Assemble | agenticAI/tools/profiling_tools.py:135-162 | The command starts `nsys profile --output <report>`. It ends with the script followed by its arguments. |
| ProfilingTools.Command | agenticAI/tools/profiling_tools.py:135-162 | The command is built exactly when every split succeeds, and its pieces come in order. |
| ProfilingTools.Stringified | agenticAI/tools/profiling_tools.py:172 | Every `env_vars` entry is present, its value passed through `str()`. |
| ProfilingTools.Environment | agenticAI/tools/profiling_tools.py:165-176 | The environment is refused exactly for a non-empty `env_vars` that is not a JSON object. The object's entries win; CUDA_VISIBLE_DEVICES is set when given; inherited variables pass through; nothing else appears. |
| ProfilingTools.Prepare | agenticAI/tools/profiling_tools.py:109-176 | Checks come in order: a missing script ("Script not found"), no nsys, a split failure ("Profiling failed: …"), then a bad `env_vars`. The run is prepared exactly when all pass. It then carries the built command, the environment, the script, and the report and database paths. |
| ProfilingTools.OutputBesideScript | agenticAI/tools/profiling_tools.py:120-125 | Report and database sit beside the script, named after `output_name` or the script's stem. The command writes the report and runs the script. |
| ProfilingTools.DefaultInvocation | agenticAI/tools/profiling_tools.py:90-162 | The defaults give `nsys profile --output <report> --trace=cuda,nvtx,osrt python <script>` with the inherited environment. |
| ProfilingTools.DefaultCommand | agenticAI/tools/profiling_tools.py:135-162 | With every argument at its default, the command is `nsys profile --output <report> --trace=cuda,nvtx,osrt python <script>`. |
| ProfilingTools.KernelRule | agenticAI/tools/profiling_tools.py:499-507 | The first kernel fires exactly when it lasts over 100 ms. |
| ProfilingTools.CommRule | agenticAI/tools/profiling_tools.py:510-518 | The first communication operation fires exactly when it lasts over 50 ms. |
| ProfilingTools.OverlapRule | agenticAI/tools/profiling_tools.py:521-545 | An empty overlap list always fires. A missing or unrecognised overlap entry never fires. |
| ProfilingTools.Fired | agenticAI/tools/profiling_tools.py:495-546 | At most three rules fire. |
| ProfilingTools.Render | agenticAI/tools/profiling_tools.py:503-545 | No rule's message is the all-clear message. |
| ProfilingTools.Suggestions | agenticAI/tools/profiling_tools.py:548-551 | The list is never empty and has one entry per fired rule. The all-clear message stands alone exactly when no rule fired. |

## Left out

- The generation service and `actions/executor.py`. The service is a parameter returning the `LLMResponse` shape of `agenticAI/llm/base.py:9-15`. `actions/executor.py` is not part of this model: the executor is an opaque parameter from an action to a result or an exception.
- The LLM providers and their factory (`llm/openai_provider.py`, `llm/gemini_provider.py`, `llm/factory.py`): network clients.
- `get_system_prompt` and the schemas passed to the generation service. They do not affect what the loop does with the reply.
- Printing, `config`, `asyncio`, and the agent's `__init__`, `_register_tools` and `add_mcp_client`. They are I/O or wiring; `add_mcp_client` discards the tools it fetches.
- `MCPPrompt` (`mcp/protocol.py:39-43`): nothing in the core uses it.
- `code_tools.py` (`SearchCodeTool`, `AnalyzeCodeTool`): it rests on Python's `re` engine.
- `DeleteFileTool` and the `register_all` helpers.
- The SQLite analysis queries of `AnalyzeNsysSqliteTool`.
- The profiler runs themselves: `nsys profile`, `nsys export` and the checks on their output files. `nsys --version` is a boolean.
- `json.loads`, `shlex.split`, `fnmatch`, `rglob`, `iterdir` and `pathlib`: supplied as parameters, not interpreted.
- Pydantic coercion: validation is strict (a field must already have its type). The messages of CPython and Pydantic exceptions are placeholders.
- Text.Lower: lower-cases ASCII letters only, because Unicode case mapping is not modelled.
- FileTools.WriteFile: text-mode writes are taken as on a platform whose line separator is `\n`, so the text is stored as given. On Windows each `\n` would be stored as `\r\n`.
- FileTools.EditFile: writes the edited text back in text mode under the same assumption that the line separator is `\n`.
- Json.Value: a Python float is an exact real. NaN and the infinities are not modelled, and the text `str()` gives for a float comes from the `repr` parameter.
- Python default arguments (`offset=None`, `replace_all=False`, `directory_path="."`, `max_results=10`, the profiling tool's defaults) are explicit parameters. The defaults themselves are stated where the model states them, as in ProfilingTools.DefaultRequest.
- FileTools.WriteFile: creates only the immediate parent directory, because deeper missing ancestors belong to `mkdir(parents=True)` on a real file system.
- SearchTools.FindFiles: the glob parameter supplies the shown names and decides when `rglob`, `is_file` or `relative_to` raises; which patterns and paths make them raise is not modelled.
- ProfilingTools.Suggestions: durations are exact reals. The float formatting (`:.2f`, `:.1f`) is a parameter. Only which rules fire and the messages' fixed text are modelled.
- Only one Python-level exception path per tool is kept: the outer `except Exception` of each tool turns every raise into a failure reply, and the model returns those replies directly.

## Findings

| source | as written | input that shows it | evidently intended | confidence | as-written member | corrected member |
|---|---|---|---|---|---|---|
| agenticAI/tools/base.py:79 | `description=param.__doc__ or f"Parameter {param_name}"`. Here `param` is an `inspect.Parameter`, whose `__doc__` is the class docstring, so it is never empty. | `def f(a, b)`: both parameters get the same `inspect.Parameter` docstring as description. | Each parameter is described as "Parameter <name>". | not executed | ToolBase.FromFunctionAsWritten | ToolBase.FromFunction |

=== FILE: actions.dfy ===
/** The action model: what the agent may do next (`Action`) and what happened
    (`ActionResult`). */
module Actions {
  import opened Common
  import opened Json

  // ---------------------------------------------------------------- action types

  datatype ActionType = ToolCall | LlmGenerate | McpRequest | Conditional | Loop | Finish

  /** The enum's string value. */
  function TypeValue(t: ActionType): string
  {
    match t
    case ToolCall => "tool_call"
    case LlmGenerate => "llm_generate"
    case McpRequest => "mcp_request"
    case Conditional => "conditional"
    case Loop => "loop"
    case Finish => "finish"
  }

  /** `ActionType(s)`: the member whose value is `s`, if any. */
  function ParseActionType(s: string): (r: Option<ActionType>)
    ensures r.Some? <==> s in {"tool_call", "llm_generate", "mcp_request", "conditional", "loop", "finish"}
  {
    if s == "tool_call" then Some(ToolCall)
    else if s == "llm_generate" then Some(LlmGenerate)
    else if s == "mcp_request" then Some(McpRequest)
    else if s == "conditional" then Some(Conditional)
    else if s == "loop" then Some(Loop)
    else if s == "finish" then Some(Finish)
    else None
  }

  const AllActionTypes: seq<ActionType> := [ToolCall, LlmGenerate, McpRequest, Conditional, Loop, Finish]

  /** Exactly six action types, with six distinct values, each read back to itself. */
  lemma ActionTypesAreSix()
    ensures |AllActionTypes| == 6
    ensures forall t: ActionType :: t in AllActionTypes
    ensures forall i, j :: 0 <= i < j < 6 ==> TypeValue(AllActionTypes[i]) != TypeValue(AllActionTypes[j])
    ensures forall t: ActionType :: ParseActionType(TypeValue(t)) == Some(t)
    ensures forall s :: ParseActionType(s).Some? ==> TypeValue(ParseActionType(s).value) == s
  {
    forall t: ActionType ensures t in AllActionTypes {
      match t
      case ToolCall => assert AllActionTypes[0] == t;
      case LlmGenerate => assert AllActionTypes[1] == t;
      case McpRequest => assert AllActionTypes[2] == t;
      case Conditional => assert AllActionTypes[3] == t;
      case Loop => assert AllActionTypes[4] == t;
      case Finish => assert AllActionTypes[5] == t;
    }
    forall t: ActionType ensures ParseActionType(TypeValue(t)) == Some(t) {
      TypeValueParses(t);
    }
    forall i, j | 0 <= i < j < 6 ensures TypeValue(AllActionTypes[i]) != TypeValue(AllActionTypes[j]) {
      TypeValueParses(AllActionTypes[i]);
      TypeValueParses(AllActionTypes[j]);
    }
  }

  /** A type's value parses back to that type. */
  lemma TypeValueParses(t: ActionType)
    ensures ParseActionType(TypeValue(t)) == Some(t)
  {
  }

  // ---------------------------------------------------------------- actions

  datatype Action = Action(
    kind: ActionType,
    name: string,
    parameters: Dict,
    description: Option<string>,
    metadata: Dict)

  /** `Action(type=kind, name=name)`, every other field at its default. */
  function NewAction(kind: ActionType, name: string): (a: Action)
    ensures a.kind == kind && a.name == name
    ensures a.parameters == map[] && a.description.None? && a.metadata == map[]
  {
    Action(kind, name, map[], None, map[])
  }

  /** `action.dict()`. */
  function ActionToValue(a: Action): Dict
  {
    map[
      "type" := Str(TypeValue(a.kind)),
      "name" := Str(a.name),
      "parameters" := Obj(a.parameters),
      "description" := (if a.description.Some? then Str(a.description.value) else Null),
      "metadata" := Obj(a.metadata)]
  }

  /** `Action(**data)`: validation of a dict into an action. A field must already
      have its declared type; absent optional fields take their defaults and unknown
      keys are ignored. */
  function ValidateAction(d: Dict): (r: Option<Action>)
    ensures r.Some? ==> "type" in d && d["type"] == Str(TypeValue(r.value.kind))
    ensures r.Some? ==> "name" in d && d["name"] == Str(r.value.name)
    ensures "type" !in d || "name" !in d ==> r.None?
  {
    var kind := if "type" in d && d["type"].Str? then ParseActionType(d["type"].s) else None;
    var parameters := Get(d, "parameters", Obj(map[]));
    var description := Get(d, "description", Null);
    var metadata := Get(d, "metadata", Obj(map[]));
    if kind.Some? && "name" in d && d["name"].Str? && parameters.Obj?
       && (description.Null? || description.Str?) && metadata.Obj?
    then
      Some(Action(kind.value, d["name"].s, parameters.fields,
        if description.Str? then Some(description.s) else None, metadata.fields))
    else None
  }

  /** Validation reads back what `.dict()` wrote. */
  lemma ValidateActionToValue(a: Action)
    ensures ValidateAction(ActionToValue(a)) == Some(a)
  {
    ActionTypesAreSix();
  }

  /** A dict with only `type` and `name` validates to an action with defaults. */
  lemma ValidateMinimal(kind: ActionType, name: string)
    ensures ValidateAction(map["type" := Str(TypeValue(kind)), "name" := Str(name)]) == Some(NewAction(kind, name))
  {
    ActionTypesAreSix();
  }

  // ---------------------------------------------------------------- results

  datatype ActionResult = ActionResult(
    success: bool,
    result: Value,
    error: Option<string>,
    metadata: Dict)

  /** Only one of `result` and `error` carries meaning, selected by `success`. */
  predicate Exclusive(r: ActionResult)
  {
    (r.success ==> r.error.None?) && (!r.success ==> r.result == Null && r.error.Some?)
  }

  /** `ActionResult.success_result(result, metadata)`. */
  function SuccessResult(result: Value, metadata: Option<Dict>): (r: ActionResult)
    ensures Exclusive(r) && r.success
    ensures r.result == result
    ensures r.metadata == (if metadata.Some? then metadata.value else map[])
  {
    ActionResult(true, result, None, metadata.GetOr(map[]))
  }

  /** `ActionResult.error_result(error, metadata)`. */
  function ErrorResult(error: string, metadata: Option<Dict>): (r: ActionResult)
    ensures Exclusive(r) && !r.success
    ensures r.error == Some(error)
    ensures r.metadata == (if metadata.Some? then metadata.value else map[])
  {
    ActionResult(false, Null, Some(error), metadata.GetOr(map[]))
  }

  /** The record itself does not enforce exclusivity: only the two factories do. */
  lemma BareResultNotExclusive()
    ensures !Exclusive(ActionResult(true, Int(1), Some("boom"), map[]))
    ensures !Exclusive(ActionResult(false, Int(1), None, map[]))
  {
  }
}

=== FILE: agent.dfy ===
/** The agent's control loop: prompt the generator, turn its reply into actions, run
    them through the executor and repeat until an exit. The generation service and the
    action executor are oracles indexed by the iteration and by the running call count. */
module Agent {
  import opened Common
  import opened Json
  import opened Actions
  import opened Generator
  import Text

  // ---------------------------------------------------------------- history and context

  datatype Role = User | Assistant

  /** `role.upper()`. */
  function RoleLabel(r: Role): string
  {
    match r
    case User => "USER"
    case Assistant => "ASSISTANT"
  }

  datatype Message = Message(role: Role, content: string)

  /** `conversation_history[-5:]`. */
  function Window(h: seq<Message>): (w: seq<Message>)
    ensures |w| == (if |h| < 5 then |h| else 5)
  {
    if |h| < 5 then h else h[|h| - 5..]
  }

  /** The window is the newest entries of the history, at most five of them. */
  lemma WindowIsNewest(h: seq<Message>)
    ensures Window(h) == h[|h| - |Window(h)|..]
    ensures |Window(h)| == (if |h| < 5 then |h| else 5)
  {
  }

  function Render(m: Message): string
  {
    RoleLabel(m.role) + ": " + m.content
  }

  /** The rendered entries joined by blank lines (`"\n\n".join(...)`). */
  function RenderJoin(ms: seq<Message>): string
    decreases |ms|
  {
    if |ms| == 0 then ""
    else if |ms| == 1 then Render(ms[0])
    else Render(ms[0]) + "\n\n" + RenderJoin(ms[1..])
  }

  /** `_build_context`: the last five entries rendered as `ROLE: content`, separated
      by blank lines. */
  function BuildContext(h: seq<Message>): string
  {
    RenderJoin(Window(h))
  }

  /** The rendering agrees with joining the rendered entries. */
  lemma {:induction false} RenderJoinIsJoin(ms: seq<Message>)
    decreases |ms|
    ensures RenderJoin(ms) == Text.Join("\n\n", seq(|ms|, i requires 0 <= i < |ms| => Render(ms[i])))
  {
    var parts := seq(|ms|, i requires 0 <= i < |ms| => Render(ms[i]));
    if |ms| > 1 {
      RenderJoinIsJoin(ms[1..]);
      var rest := seq(|ms| - 1, i requires 0 <= i < |ms| - 1 => Render(ms[1..][i]));
      assert parts == [Render(ms[0])] + rest;
      Text.JoinCons("\n\n", Render(ms[0]), rest);
    }
  }

  /** The context is empty exactly when the history is. */
  lemma ContextEmptyIff(h: seq<Message>)
    ensures BuildContext(h) == "" <==> h == []
  {
    var w := Window(h);
    if |w| > 1 {
      assert |RenderJoin(w)| >= |Render(w[0])|;
    }
  }

  /** Entries older than the last five do not reach the context. */
  lemma ContextIgnoresOlder(older: seq<Message>, recent: seq<Message>)
    requires |recent| >= 5
    ensures BuildContext(older + recent) == BuildContext(recent)
  {
    var h := older + recent;
    assert h[|h| - 5..] == recent[|recent| - 5..];
  }

  lemma {:induction false} RenderJoinAppend(ms: seq<Message>, m: Message)
    requires |ms| >= 1
    decreases |ms|
    ensures RenderJoin(ms + [m]) == RenderJoin(ms) + "\n\n" + Render(m)
  {
    var sep, last := "\n\n", Render(m);
    if |ms| > 1 {
      var head, tail := Render(ms[0]), ms[1..];
      assert (ms + [m])[1..] == tail + [m];
      assert RenderJoin(ms + [m]) == head + sep + RenderJoin(tail + [m]);
      RenderJoinAppend(tail, m);
      assert RenderJoin(ms) == head + sep + RenderJoin(tail);
      assert head + sep + (RenderJoin(tail) + sep + last) == head + sep + RenderJoin(tail) + sep + last;
    } else {
      assert (ms + [m])[1..] == [m];
      assert RenderJoin(ms + [m]) == Render(ms[0]) + sep + RenderJoin([m]);
    }
  }

  /** While the history is shorter than five entries, each new entry is one more
      paragraph at the end of the context. */
  lemma ContextAppend(h: seq<Message>, m: Message)
    requires 1 <= |h| < 5
    ensures BuildContext(h + [m]) == BuildContext(h) + "\n\n" + Render(m)
  {
    RenderJoinAppend(h, m);
  }

  // ---------------------------------------------------------------- result summary

  /** The fixed text around an action's name in a result line. */
  const ActionOpen := "Action '"
  const CompletedText := "' completed successfully. Result: "
  const FailedText := "' failed: "

  /** One line of `_format_results_for_llm`. The summary of a success is the first
      200 characters of `str(result)`; a failure shows its error (`None` when absent). */
  function FormatLine(step: Step, repr: Value -> string): (line: string)
    ensures step.result.success ==>
      var prefix := ActionOpen + step.action.name + CompletedText;
      var shown := PyStr(step.result.result, repr);
      && Text.StartsWith(line, prefix)
      && line == prefix + shown[..if |shown| < 200 then |shown| else 200]
    ensures !step.result.success ==>
      line == ActionOpen + step.action.name + FailedText
        + (if step.result.error.Some? then step.result.error.value else "None")
  {
    if step.result.success then
      var shown := PyStr(step.result.result, repr);
      Text.PrefixSlice(shown, 200);
      ActionOpen + step.action.name + CompletedText + Text.PySlice(shown, 0, 200)
    else
      ActionOpen + step.action.name + FailedText
        + (if step.result.error.Some? then step.result.error.value else "None")
  }

  function FormatLines(steps: seq<Step>, repr: Value -> string): (r: seq<string>)
    ensures |r| == |steps|
    ensures forall i :: 0 <= i < |steps| ==> r[i] == FormatLine(steps[i], repr)
  {
    seq(|steps|, i requires 0 <= i < |steps| => FormatLine(steps[i], repr))
  }

  /** `_format_results_for_llm`: one line per result, in order, joined by newlines. */
  function FormatResults(steps: seq<Step>, repr: Value -> string): string
  {
    Text.Join("\n", FormatLines(steps, repr))
  }

  /** The summary of two batches is the two summaries one line apart. */
  lemma FormatResultsAppend(a: seq<Step>, b: seq<Step>, repr: Value -> string)
    requires |a| >= 1 && |b| >= 1
    ensures FormatResults(a + b, repr) == FormatResults(a, repr) + "\n" + FormatResults(b, repr)
  {
    FormatLinesAppend(a, b, repr);
    Text.JoinAppend("\n", FormatLines(a, repr), FormatLines(b, repr));
  }

  lemma FormatLinesAppend(a: seq<Step>, b: seq<Step>, repr: Value -> string)
    ensures FormatLines(a + b, repr) == FormatLines(a, repr) + FormatLines(b, repr)
  {
    var l, la, lb := FormatLines(a + b, repr), FormatLines(a, repr), FormatLines(b, repr);
    forall i | 0 <= i < |l| ensures l[i] == (la + lb)[i] {
      if i < |a| {
        assert (a + b)[i] == a[i];
      } else {
        assert (a + b)[i] == b[i - |a|];
      }
    }
  }

  /** A success line never carries more than 200 characters of the result. */
  lemma FormatLineBounded(step: Step, repr: Value -> string)
    requires step.result.success
    ensures |FormatLine(step, repr)| <= |ActionOpen + step.action.name + CompletedText| + 200
  {
  }

  // ---------------------------------------------------------------- one batch

  /** The generation service: iteration number and prompt to a response, or an exception. */
  type Llm = (nat, string) -> Outcome<LlmResponse>

  /** The action generator applied to a response (`GenerateFromResponse` in `run`). */
  type Generate = LlmResponse -> Outcome<seq<Action>>

  /** The action executor: running call number and action to a result, or an exception. */
  type Executor = (nat, Action) -> Outcome<ActionResult>

  datatype Step = Step(action: Action, result: ActionResult)

  /** An entry of the returned `results`: an executed action, or the record of the
      exception that ended the run. */
  datatype Record = Done(step: Step) | Failure(error: string, iteration: nat)

  datatype Batch = BatchRaised(message: string) | BatchFinished(steps: seq<Step>) | BatchCompleted(steps: seq<Step>)

  /** `steps` are the first actions run in order, call numbers counting up from `calls`. */
  ghost predicate RanInOrder(exec: Executor, calls: nat, actions: seq<Action>, steps: seq<Step>)
  {
    && |steps| <= |actions|
    && forall i :: 0 <= i < |steps| ==>
         steps[i].action == actions[i] && exec(calls + i, actions[i]) == Returned(steps[i].result)
  }

  /** The inner `for action in actions` loop: stops after running the first FINISH,
      and at the first exception. */
  function ExecuteBatch(exec: Executor, calls: nat, actions: seq<Action>): (b: Batch)
    decreases |actions|
    ensures b.BatchCompleted? ==> |b.steps| == |actions|
    ensures b.BatchFinished? ==> 1 <= |b.steps| <= |actions|
  {
    if actions == [] then BatchCompleted([])
    else match exec(calls, actions[0])
      case Raised(m) => BatchRaised(m)
      case Returned(res) =>
        var step := Step(actions[0], res);
        if actions[0].kind == Finish then BatchFinished([step])
        else Cons(step, ExecuteBatch(exec, calls + 1, actions[1..]))
  }

  /** `step` run ahead of the batch `b`; an exception in `b` still ends the batch. */
  function Cons(step: Step, b: Batch): (r: Batch)
    ensures r.BatchRaised? == b.BatchRaised?
    ensures !b.BatchRaised? ==> r.steps == [step] + b.steps
  {
    match b
    case BatchRaised(m) => BatchRaised(m)
    case BatchFinished(steps) => BatchFinished([step] + steps)
    case BatchCompleted(steps) => BatchCompleted([step] + steps)
  }

  /** A completed batch ran every action in order and held no FINISH; a finished batch
      ran the actions up to and including the first FINISH and nothing after it. */
  ghost predicate InOrder(exec: Executor, calls: nat, actions: seq<Action>, b: Batch)
  {
    && (b.BatchCompleted? ==>
          && RanInOrder(exec, calls, actions, b.steps) && |b.steps| == |actions|
          && forall i :: 0 <= i < |actions| ==> actions[i].kind != Finish)
    && (b.BatchFinished? ==>
          && RanInOrder(exec, calls, actions, b.steps) && 1 <= |b.steps|
          && actions[|b.steps| - 1].kind == Finish
          && forall i :: 0 <= i < |b.steps| - 1 ==> actions[i].kind != Finish)
  }

  lemma {:induction false} ExecuteBatchInOrder(exec: Executor, calls: nat, actions: seq<Action>)
    decreases |actions|
    ensures InOrder(exec, calls, actions, ExecuteBatch(exec, calls, actions))
  {
    if actions != [] {
      match exec(calls, actions[0])
      case Raised(m) =>
      case Returned(res) =>
        if actions[0].kind != Finish {
          var rest := actions[1..];
          ExecuteBatchInOrder(exec, calls + 1, rest);
          InOrderCons(exec, calls, actions, res, ExecuteBatch(exec, calls + 1, rest));
        }
    }
  }

  /** Running a non-FINISH action ahead of a batch keeps the batch in order. */
  lemma InOrderCons(exec: Executor, calls: nat, actions: seq<Action>, res: ActionResult, b: Batch)
    requires actions != [] && actions[0].kind != Finish
    requires exec(calls, actions[0]) == Returned(res)
    requires InOrder(exec, calls + 1, actions[1..], b)
    ensures InOrder(exec, calls, actions, Cons(Step(actions[0], res), b))
  {
    var rest := actions[1..];
    if !b.BatchRaised? {
      var steps := [Step(actions[0], res)] + b.steps;
      forall i | 0 <= i < |steps|
        ensures steps[i].action == actions[i] && exec(calls + i, actions[i]) == Returned(steps[i].result)
      {
        if i > 0 {
          assert steps[i] == b.steps[i - 1] && actions[i] == rest[i - 1];
          assert calls + i == calls + 1 + (i - 1);
        }
      }
      forall i | 0 <= i < |actions| && (b.BatchCompleted? || i < |steps| - 1)
        ensures actions[i].kind != Finish
      {
        if i > 0 { assert actions[i] == rest[i - 1]; }
      }
    }
  }

  function Wrap(steps: seq<Step>): (r: seq<Record>)
    ensures |r| == |steps|
    ensures forall i :: 0 <= i < |steps| ==> r[i] == Done(steps[i])
  {
    seq(|steps|, i requires 0 <= i < |steps| => Done(steps[i]))
  }

  // ---------------------------------------------------------------- the loop

  /** The loop's variables other than the iteration count. */
  datatype State = State(
    results: seq<Record>,
    history: seq<Message>,
    task: string,
    prompts: seq<string>,
    calls: nat)

  /** The dictionary `run` returns: the FINISH return, or the exit after the loop. */
  datatype Report =
    | Finished(iterations: nat, results: seq<Record>, finalMessage: string)
    | Ended(success: bool, iterations: nat, results: seq<Record>, message: string)

  /** A run's report with the conversation history it leaves and the prompts it sent. */
  datatype Trace = Trace(report: Report, history: seq<Message>, prompts: seq<string>)

  /** What one pass of the loop body leads to: a return, or the state for the next pass. */
  datatype Turn = Exit(trace: Trace) | Continue(next: State)

  /** `max_iterations or config.agent.max_iterations`. */
  function EffectiveMax(maxArg: Option<int>, configured: int): (m: int)
    ensures maxArg.None? || maxArg == Some(0) ==> m == configured
    ensures maxArg.Some? && maxArg.value != 0 ==> m == maxArg.value
  {
    if maxArg.Some? && maxArg.value != 0 then maxArg.value else configured
  }

  function ErrorText(n: nat, message: string): string
  {
    "Error in iteration " + Text.IntToString(n) + ": " + message
  }

  /** The return after the loop, after `n` iterations. */
  function Stop(n: nat, s: State, max: int): (t: Trace)
    ensures t.report.Ended? && t.report.iterations == n && t.report.results == s.results
    ensures t.report.success <==> n < max
    ensures t.report.message == "Reached max iterations" <==> n >= max
    ensures t.history == s.history && t.prompts == s.prompts
  {
    Trace(
      Ended(n < max, n, s.results, if n >= max then "Reached max iterations" else "Task completed"),
      s.history, s.prompts)
  }

  /** The `except` branch of iteration `n`: one error record, then the return after
      the loop. */
  function Fail(n: nat, s: State, max: int, message: string): (t: Trace)
    ensures t.report.Ended? && t.report.iterations == n
    ensures t.report.results == s.results + [Failure(ErrorText(n, message), n)]
    ensures t.history == s.history && t.prompts == s.prompts
  {
    Stop(n, s.(results := s.results + [Failure(ErrorText(n, message), n)]), max)
  }

  /** The prompt of iteration `n`: the task on the first, the context afterwards. */
  function PromptFor(n: nat, s: State): string
  {
    if n == 1 then s.task else BuildContext(s.history)
  }

  /** The prompt of iteration `n` recorded as sent. */
  function Sent(n: nat, s: State): State
  {
    s.(prompts := s.prompts + [PromptFor(n, s)])
  }

  /** `Sent`, then the reply appended to the history as an assistant entry. */
  function Replied(n: nat, s: State, content: string): State
  {
    Sent(n, s).(history := s.history + [Message(Assistant, content)])
  }

  /** Iteration `n` of the loop body (the body after `iterations += 1`). */
  function Iterate(llm: Llm, exec: Executor, gen: Generate, repr: Value -> string, max: int, n: nat, s: State): Turn
  {
    match llm(n, PromptFor(n, s))
    case Raised(m) => Exit(Fail(n, Sent(n, s), max, m))
    case Returned(resp) => AfterReply(exec, gen, repr, max, n, Replied(n, s, resp.content), resp)
  }

  /** The rest of iteration `n` once the reply is in the history. */
  function AfterReply(exec: Executor, gen: Generate, repr: Value -> string, max: int, n: nat, s: State, resp: LlmResponse): Turn
  {
    match gen(resp)
    case Raised(m) => Exit(Fail(n, s, max, m))
    case Returned(actions) =>
      if actions == [] then Exit(Stop(n, s, max))
      else AfterBatch(repr, max, n, s, resp.content, ExecuteBatch(exec, s.calls, actions))
  }

  /** The end of iteration `n`, once its batch has run. */
  function AfterBatch(repr: Value -> string, max: int, n: nat, s: State, content: string, b: Batch): Turn
  {
    match b
    case BatchRaised(m) => Exit(Fail(n, s, max, m))
    case BatchFinished(steps) => Exit(Trace(Finished(n, s.results + Wrap(steps), content), s.history, s.prompts))
    case BatchCompleted(steps) =>
      Continue(s.(results := s.results + Wrap(steps), task := FormatResults(steps, repr), calls := s.calls + |steps|))
  }

  /** The `while iterations < max_iterations` loop after `n` iterations, running
      `body(n + 1, ·)` as the next pass. */
  function Loop(body: (nat, State) -> Turn, max: int, n: nat, s: State): Trace
    decreases max - n
  {
    if n >= max then Stop(n, s, max)
    else match body(n + 1, s)
      case Exit(t) => t
      case Continue(next) => Loop(body, max, n + 1, next)
  }

  /** The state on entry to the loop: the task appended to the history as a user entry. */
  function InitialState(task: string, h0: seq<Message>): State
  {
    State([], h0 + [Message(User, task)], task, [], 0)
  }

  /** The loop body of `run`. */
  function Body(llm: Llm, exec: Executor, decode: Decoder, repr: Value -> string, max: int): (nat, State) -> Turn
  {
    (n: nat, s: State) => Iterate(llm, exec, (resp: LlmResponse) => GenerateFromResponse(resp, decode), repr, max, n, s)
  }

  /** `run(task, max_iterations)` on an agent whose history is `h0`. */
  function Run(llm: Llm, exec: Executor, decode: Decoder, repr: Value -> string,
               task: string, maxArg: Option<int>, configured: int, h0: seq<Message>): Trace
  {
    var max := EffectiveMax(maxArg, configured);
    Loop(Body(llm, exec, decode, repr, max), max, 0, InitialState(task, h0))
  }

  // ---------------------------------------------------------------- one pass

  /** `m` is the assistant entry recording the reply of the generation service to
      `prompt` on iteration `n`. */
  ghost predicate RepliedWith(llm: Llm, n: nat, prompt: string, m: Message)
  {
    llm(n, prompt).Returned? && m == Message(Assistant, llm(n, prompt).value.content)
  }

  /** `h` is the history of `s` followed by, at most, the reply to the prompt of
      iteration `n`. */
  ghost predicate AddsReply(llm: Llm, n: nat, s: State, h: seq<Message>)
  {
    || h == s.history
    || (&& |h| == |s.history| + 1 && h[..|s.history|] == s.history
        && RepliedWith(llm, n, PromptFor(n, s), h[|s.history|]))
  }

  /** A pass that continues sent one prompt and added its reply. */
  ghost predicate ContinueShape(llm: Llm, n: nat, s: State, next: State)
  {
    && next.prompts == s.prompts + [PromptFor(n, s)]
    && |next.history| == |s.history| + 1 && AddsReply(llm, n, s, next.history)
  }

  /** A pass that returns sent one prompt and added at most its reply, and its report
      counts `n` iterations. */
  ghost predicate ExitShape(llm: Llm, n: nat, s: State, t: Trace)
  {
    && t.report.iterations == n
    && t.prompts == s.prompts + [PromptFor(n, s)]
    && AddsReply(llm, n, s, t.history)
  }

  /** How a pass that returns ends. A FINISH return carries this pass's batch up to the
      FINISH and the reply's text; any other return is the exit after the loop, with at
      most one error record, numbered with this pass. */
  ghost predicate ExitReport(n: nat, s: State, t: Trace, max: int)
  {
    var rs := t.report.results;
    && s.results <= rs
    && (t.report.Ended? ==>
          && (t.report.success <==> n < max)
          && (t.report.message == "Reached max iterations" <==> n >= max)
          && |rs| <= |s.results| + 1
          && (|rs| == |s.results| + 1 ==>
                && rs[|s.results|].Failure? && rs[|s.results|].iteration == n
                && Text.StartsWith(rs[|s.results|].error, "Error in iteration " + Text.IntToString(n) + ": ")))
    && (t.report.Finished? ==>
          && |s.results| < |rs|
          && (forall i :: |s.results| <= i < |rs| ==> rs[i].Done?)
          && rs[|rs| - 1].step.action.kind == Finish
          && |t.history| == |s.history| + 1 && t.report.finalMessage == t.history[|s.history|].content)
  }

  /** The bookkeeping of one pass: prompts and history. */
  ghost predicate TurnShape(llm: Llm, n: nat, s: State, u: Turn)
  {
    && (u.Continue? ==> ContinueShape(llm, n, s, u.next))
    && (u.Exit? ==> ExitShape(llm, n, s, u.trace))
  }

  /** The results of one pass: a pass that continues adds only executed actions. */
  ghost predicate TurnReport(n: nat, s: State, u: Turn, max: int)
  {
    && (u.Continue? ==>
          && s.results <= u.next.results
          && forall i :: |s.results| <= i < |u.next.results| ==> u.next.results[i].Done?)
    && (u.Exit? ==> ExitReport(n, s, u.trace, max))
  }

  ghost predicate TurnOk(llm: Llm, n: nat, s: State, u: Turn, max: int)
  {
    TurnShape(llm, n, s, u) && TurnReport(n, s, u, max)
  }

  /** Every pass the loop may run keeps its bookkeeping as `TurnShape` says, with the
      replies of `llm`. */
  ghost predicate BodyShapeOk(llm: Llm, body: (nat, State) -> Turn, max: int)
  {
    forall n: nat, s: State {:trigger TurnShape(llm, n, s, body(n, s))} :: 1 <= n <= max ==> TurnShape(llm, n, s, body(n, s))
  }

  /** Every pass the loop may run reports as `TurnReport` says. */
  ghost predicate BodyReportOk(body: (nat, State) -> Turn, max: int)
  {
    forall n: nat, s: State {:trigger TurnReport(n, s, body(n, s), max)} :: 1 <= n <= max ==> TurnReport(n, s, body(n, s), max)
  }

  lemma FailOk(llm: Llm, n: nat, s: State, max: int, message: string)
    ensures ExitShape(llm, n, s, Fail(n, Sent(n, s), max, message))
    ensures ExitReport(n, s, Fail(n, Sent(n, s), max, message), max)
  {
    var e := ErrorText(n, message);
    assert Text.StartsWith(e, "Error in iteration " + Text.IntToString(n) + ": ");
  }

  lemma FailRepliedOk(llm: Llm, n: nat, s: State, max: int, resp: LlmResponse, message: string)
    requires llm(n, PromptFor(n, s)) == Returned(resp)
    ensures ExitShape(llm, n, s, Fail(n, Replied(n, s, resp.content), max, message))
    ensures ExitReport(n, s, Fail(n, Replied(n, s, resp.content), max, message), max)
  {
    var e := ErrorText(n, message);
    assert Text.StartsWith(e, "Error in iteration " + Text.IntToString(n) + ": ");
    assert (s.history + [Message(Assistant, resp.content)])[..|s.history|] == s.history;
  }

  /** The end of a pass: an exception in the batch adds only the error record, dropping
      the steps of the batch that did run; a finished batch is returned with the reply. */
  lemma AfterBatchOk(llm: Llm, repr: Value -> string, max: int, n: nat, s: State, resp: LlmResponse, b: Batch)
    requires llm(n, PromptFor(n, s)) == Returned(resp)
    requires b.BatchFinished? ==> 1 <= |b.steps| && b.steps[|b.steps| - 1].action.kind == Finish
    ensures TurnOk(llm, n, s, AfterBatch(repr, max, n, Replied(n, s, resp.content), resp.content, b), max)
  {
    var s1 := Replied(n, s, resp.content);
    assert s1.history[..|s.history|] == s.history;
    match b
    case BatchRaised(m) => FailRepliedOk(llm, n, s, max, resp, m);
    case BatchFinished(steps) =>
    case BatchCompleted(steps) =>
  }

  lemma AfterReplyOk(llm: Llm, exec: Executor, gen: Generate, repr: Value -> string, max: int, n: nat, s: State, resp: LlmResponse)
    requires llm(n, PromptFor(n, s)) == Returned(resp)
    ensures TurnOk(llm, n, s, AfterReply(exec, gen, repr, max, n, Replied(n, s, resp.content), resp), max)
  {
    var s1 := Replied(n, s, resp.content);
    assert s1.history[..|s.history|] == s.history;
    match gen(resp)
    case Raised(m) => FailRepliedOk(llm, n, s, max, resp, m);
    case Returned(actions) =>
      if actions != [] {
        ExecuteBatchInOrder(exec, s.calls, actions);
        AfterBatchOk(llm, repr, max, n, s, resp, ExecuteBatch(exec, s.calls, actions));
      }
  }

  /** One pass of `run`'s loop body keeps `TurnOk`. */
  lemma IterateOk(llm: Llm, exec: Executor, gen: Generate, repr: Value -> string, max: int, n: nat, s: State)
    ensures TurnOk(llm, n, s, Iterate(llm, exec, gen, repr, max, n, s), max)
  {
    match llm(n, PromptFor(n, s))
    case Raised(m) => FailOk(llm, n, s, max, m);
    case Returned(resp) => AfterReplyOk(llm, exec, gen, repr, max, n, s, resp);
  }

  /** `run`'s loop body keeps `TurnOk` on every pass. */
  lemma BodyIsOk(llm: Llm, exec: Executor, decode: Decoder, repr: Value -> string, max: int)
    ensures BodyShapeOk(llm, Body(llm, exec, decode, repr, max), max)
    ensures BodyReportOk(Body(llm, exec, decode, repr, max), max)
  {
    var gen := (resp: LlmResponse) => GenerateFromResponse(resp, decode);
    var body := Body(llm, exec, decode, repr, max);
    forall n: nat, s: State | 1 <= n <= max
      ensures TurnShape(llm, n, s, body(n, s)) && TurnReport(n, s, body(n, s), max)
    {
      IterateOk(llm, exec, gen, repr, max, n, s);
    }
  }

  /** An exception in the middle of a batch drops the results of that batch: only the
      error record is added. */
  lemma BatchErrorDropsPartialResults(llm: Llm, exec: Executor, gen: Generate, repr: Value -> string,
                                      max: int, n: nat, s: State, resp: LlmResponse, actions: seq<Action>, message: string)
    requires llm(n, PromptFor(n, s)) == Returned(resp)
    requires gen(resp) == Returned(actions) && actions != []
    requires ExecuteBatch(exec, s.calls, actions) == BatchRaised(message)
    ensures Iterate(llm, exec, gen, repr, max, n, s).trace.report.results == s.results + [Failure(ErrorText(n, message), n)]
  {
  }

  /** A batch that runs a FINISH returns at once: the results so far followed by the
      batch up to and including the FINISH, the reply's text as the final message, and
      the reply as the newest history entry. */
  lemma FinishReturnsBatch(llm: Llm, exec: Executor, gen: Generate, repr: Value -> string,
                           max: int, n: nat, s: State, resp: LlmResponse, actions: seq<Action>, steps: seq<Step>)
    requires llm(n, PromptFor(n, s)) == Returned(resp)
    requires gen(resp) == Returned(actions) && actions != []
    requires ExecuteBatch(exec, s.calls, actions) == BatchFinished(steps)
    ensures Iterate(llm, exec, gen, repr, max, n, s)
      == Exit(Trace(Finished(n, s.results + Wrap(steps), resp.content),
                    s.history + [Message(Assistant, resp.content)],
                    s.prompts + [PromptFor(n, s)]))
  {
  }

  /** A batch that runs to its end without a FINISH continues the loop: its steps are
      appended to the results, the reply to the history, the summary of the batch is
      the new task and the call count moves past the batch. */
  lemma CompletedBatchContinues(llm: Llm, exec: Executor, gen: Generate, repr: Value -> string,
                                max: int, n: nat, s: State, resp: LlmResponse, actions: seq<Action>, steps: seq<Step>)
    requires llm(n, PromptFor(n, s)) == Returned(resp)
    requires gen(resp) == Returned(actions) && actions != []
    requires ExecuteBatch(exec, s.calls, actions) == BatchCompleted(steps)
    ensures Iterate(llm, exec, gen, repr, max, n, s)
      == Continue(State(s.results + Wrap(steps), s.history + [Message(Assistant, resp.content)],
                        FormatResults(steps, repr), s.prompts + [PromptFor(n, s)], s.calls + |actions|))
  {
  }

  /** A reply from which the generator makes no action ends the run after the loop,
      with the reply recorded and the results unchanged. */
  lemma NoActionsStops(llm: Llm, exec: Executor, gen: Generate, repr: Value -> string,
                       max: int, n: nat, s: State, resp: LlmResponse)
    requires llm(n, PromptFor(n, s)) == Returned(resp)
    requires gen(resp) == Returned([])
    ensures Iterate(llm, exec, gen, repr, max, n, s)
      == Exit(Trace(Ended(n < max, n, s.results, if n >= max then "Reached max iterations" else "Task completed"),
                    s.history + [Message(Assistant, resp.content)], s.prompts + [PromptFor(n, s)]))
  {
  }

  // ---------------------------------------------------------------- properties of the loop

  /** The loop counts from iteration `n` and state `s` to the trace `t`: one prompt per
      iteration, at most one assistant reply per prompt and no other history entries,
      and the cap is never passed. */
  ghost predicate Counted(n: nat, s: State, max: int, t: Trace)
  {
    && s.prompts <= t.prompts && s.history <= t.history
    && n <= t.report.iterations
    && (n <= max ==> t.report.iterations <= max)
    && |t.prompts| - |s.prompts| == t.report.iterations - n
    && |t.history| - |s.history| <= |t.prompts| - |s.prompts| <= |t.history| - |s.history| + 1
    && (forall i :: |s.history| <= i < |t.history| ==> t.history[i].role == Assistant)
  }

  lemma {:induction false} LoopCounts(llm: Llm, body: (nat, State) -> Turn, max: int, n: nat, s: State)
    requires BodyShapeOk(llm, body, max)
    decreases max - n
    ensures Counted(n, s, max, Loop(body, max, n, s))
  {
    if n < max {
      assert TurnShape(llm, n + 1, s, body(n + 1, s));
      match body(n + 1, s)
      case Exit(t1) =>
        ExitCounted(llm, n, s, max, t1);
      case Continue(next) =>
        LoopCounts(llm, body, max, n + 1, next);
        ContinueCounted(llm, n, s, max, next, Loop(body, max, n + 1, next));
    }
  }

  /** A pass that returns counts as one iteration. */
  lemma ExitCounted(llm: Llm, n: nat, s: State, max: int, t: Trace)
    requires n < max && ExitShape(llm, n + 1, s, t)
    ensures Counted(n, s, max, t)
  {
    assert t.prompts[..|s.prompts|] == s.prompts;
  }

  /** A pass that continues adds one iteration to what the rest of the loop counts. */
  lemma ContinueCounted(llm: Llm, n: nat, s: State, max: int, next: State, t: Trace)
    requires n < max && ContinueShape(llm, n + 1, s, next) && Counted(n + 1, next, max, t)
    ensures Counted(n, s, max, t)
  {
    assert next.prompts[..|s.prompts|] == s.prompts;
    assert t.history[..|s.history|] == s.history by {
      assert t.history[..|next.history|] == next.history;
      assert next.history[..|s.history|] == s.history;
    }
    assert t.prompts[..|s.prompts|] == s.prompts by {
      assert t.prompts[..|next.prompts|] == next.prompts;
    }
    forall i | |s.history| <= i < |t.history| ensures t.history[i].role == Assistant {
      if i < |next.history| {
        assert t.history[i] == next.history[i];
      }
    }
  }

  /** Each prompt sent from iteration `n` and state `s` on is the task on the first
      iteration, and afterwards the context of the history as it stood before that
      iteration. */
  ghost predicate Prompted(n: nat, s: State, t: Trace)
  {
    forall k :: |s.prompts| <= k < |t.prompts| ==>
      && |s.history| + (k - |s.prompts|) <= |t.history|
      && t.prompts[k] == (if n + (k - |s.prompts|) == 0 then s.task
                          else BuildContext(t.history[..|s.history| + (k - |s.prompts|)]))
  }

  lemma {:induction false} LoopPrompts(llm: Llm, body: (nat, State) -> Turn, max: int, n: nat, s: State)
    requires BodyShapeOk(llm, body, max)
    decreases max - n
    ensures Prompted(n, s, Loop(body, max, n, s))
  {
    if n < max {
      assert TurnShape(llm, n + 1, s, body(n + 1, s));
      match body(n + 1, s)
      case Exit(t1) =>
        ExitPrompted(llm, n, s, t1);
      case Continue(next) =>
        var t := Loop(body, max, n + 1, next);
        LoopCounts(llm, body, max, n + 1, next);
        LoopPrompts(llm, body, max, n + 1, next);
        ContinuePrompted(llm, n, s, max, next, t);
    }
  }

  /** A pass that returns sent the prompt its iteration calls for. */
  lemma ExitPrompted(llm: Llm, n: nat, s: State, t: Trace)
    requires ExitShape(llm, n + 1, s, t)
    ensures Prompted(n, s, t)
  {
    assert |t.prompts| == |s.prompts| + 1;
    assert t.history[..|s.history|] == s.history;
    assert t.prompts[|s.prompts|] == PromptFor(n + 1, s);
  }

  /** A pass that continues sent its prompt ahead of those the rest of the loop sends. */
  lemma ContinuePrompted(llm: Llm, n: nat, s: State, max: int, next: State, t: Trace)
    requires ContinueShape(llm, n + 1, s, next) && Counted(n + 1, next, max, t) && Prompted(n + 1, next, t)
    ensures Prompted(n, s, t)
  {
    assert t.history[..|s.history|] == s.history by {
      assert t.history[..|next.history|] == next.history;
      assert next.history[..|s.history|] == s.history;
    }
    assert t.prompts[|s.prompts|] == next.prompts[|s.prompts|] == PromptFor(n + 1, s);
    forall k | |s.prompts| <= k < |t.prompts|
      ensures |s.history| + (k - |s.prompts|) <= |t.history|
      ensures t.prompts[k] == (if n + (k - |s.prompts|) == 0 then s.task
                               else BuildContext(t.history[..|s.history| + (k - |s.prompts|)]))
    {
      if k > |s.prompts| {
        assert |next.prompts| <= k;
        assert |next.history| + (k - |next.prompts|) == |s.history| + (k - |s.prompts|);
      }
    }
  }

  /** Every history entry added from iteration `n` and state `s` on is the reply of the
      generation service to the prompt sent on that entry's iteration. */
  ghost predicate Answered(llm: Llm, n: nat, s: State, t: Trace)
  {
    forall i :: |s.history| <= i < |t.history| ==>
      && |s.prompts| + (i - |s.history|) < |t.prompts|
      && RepliedWith(llm, n + 1 + (i - |s.history|), t.prompts[|s.prompts| + (i - |s.history|)], t.history[i])
  }

  lemma {:induction false} LoopReplies(llm: Llm, body: (nat, State) -> Turn, max: int, n: nat, s: State)
    requires BodyShapeOk(llm, body, max)
    decreases max - n
    ensures Answered(llm, n, s, Loop(body, max, n, s))
  {
    if n < max {
      assert TurnShape(llm, n + 1, s, body(n + 1, s));
      match body(n + 1, s)
      case Exit(t1) =>
        ExitAnswered(llm, n, s, t1);
      case Continue(next) =>
        var t := Loop(body, max, n + 1, next);
        LoopCounts(llm, body, max, n + 1, next);
        LoopReplies(llm, body, max, n + 1, next);
        ContinueAnswered(llm, n, s, max, next, t);
    }
  }

  /** A pass that returns added at most the reply to its own prompt. */
  lemma ExitAnswered(llm: Llm, n: nat, s: State, t: Trace)
    requires ExitShape(llm, n + 1, s, t)
    ensures Answered(llm, n, s, t)
  {
    if t.history != s.history {
      var i := |s.history|;
      assert t.prompts[|s.prompts|] == PromptFor(n + 1, s);
      assert RepliedWith(llm, n + 1, PromptFor(n + 1, s), t.history[i]);
      forall j | |s.history| <= j < |t.history|
        ensures |s.prompts| + (j - |s.history|) < |t.prompts|
        ensures RepliedWith(llm, n + 1 + (j - |s.history|), t.prompts[|s.prompts| + (j - |s.history|)], t.history[j])
      {
        assert j == i;
      }
    }
  }

  /** A pass that continues added the reply to its prompt ahead of the replies the rest
      of the loop adds. */
  lemma ContinueAnswered(llm: Llm, n: nat, s: State, max: int, next: State, t: Trace)
    requires ContinueShape(llm, n + 1, s, next) && Counted(n + 1, next, max, t) && Answered(llm, n + 1, next, t)
    ensures Answered(llm, n, s, t)
  {
    assert t.history[|s.history|] == next.history[|s.history|] by {
      assert t.history[..|next.history|] == next.history;
    }
    assert t.prompts[|s.prompts|] == next.prompts[|s.prompts|] == PromptFor(n + 1, s) by {
      assert t.prompts[..|next.prompts|] == next.prompts;
    }
    forall i | |s.history| < i < |t.history|
      ensures |s.prompts| + (i - |s.history|) < |t.prompts|
      ensures RepliedWith(llm, n + 1 + (i - |s.history|), t.prompts[|s.prompts| + (i - |s.history|)], t.history[i])
    {
      assert |next.history| <= i;
      assert n + 1 + (i - |s.history|) == n + 1 + 1 + (i - |next.history|);
      assert |s.prompts| + (i - |s.history|) == |next.prompts| + (i - |next.history|);
    }
  }

  /** How the loop returns, from state `s` to the trace `t`: an exit after the loop
      reports success exactly when the cap was not reached; a FINISH return ends with
      the FINISH step, and its final message is the text of the last reply, the one to
      the last prompt sent. Every record added is an executed action except possibly
      the last, which may be the error record of the exception that ended the run,
      numbered with its iteration. */
  ghost predicate Ending(llm: Llm, s: State, max: int, t: Trace)
  {
    var rs := t.report.results;
    && s.results <= rs
    && (forall i :: |s.results| <= i < |rs| - 1 ==> rs[i].Done?)
    && (t.report.Ended? ==>
          && (t.report.success <==> t.report.iterations < max)
          && (t.report.message == "Reached max iterations" <==> t.report.iterations >= max)
          && (|rs| > |s.results| && rs[|rs| - 1].Failure? ==>
                && rs[|rs| - 1].iteration == t.report.iterations
                && Text.StartsWith(rs[|rs| - 1].error, "Error in iteration " + Text.IntToString(t.report.iterations) + ": ")))
    && (t.report.Finished? ==>
          && |s.results| < |rs| && rs[|rs| - 1].Done? && rs[|rs| - 1].step.action.kind == Finish
          && |t.history| >= 1 && t.report.finalMessage == t.history[|t.history| - 1].content
          && |t.prompts| >= 1
          && RepliedWith(llm, t.report.iterations, t.prompts[|t.prompts| - 1], Message(Assistant, t.report.finalMessage)))
  }

  lemma {:induction false} LoopEnding(llm: Llm, body: (nat, State) -> Turn, max: int, n: nat, s: State)
    requires BodyShapeOk(llm, body, max) && BodyReportOk(body, max)
    decreases max - n
    ensures Ending(llm, s, max, Loop(body, max, n, s))
  {
    if n < max {
      assert TurnShape(llm, n + 1, s, body(n + 1, s));
      assert TurnReport(n + 1, s, body(n + 1, s), max);
      match body(n + 1, s)
      case Exit(t1) =>
        ExitEnding(llm, n, s, max, t1);
      case Continue(next) =>
        LoopEnding(llm, body, max, n + 1, next);
        ContinueEnding(llm, s, max, next, Loop(body, max, n + 1, next));
    }
  }

  /** A pass that returns ends the loop as `Ending` says. */
  lemma ExitEnding(llm: Llm, n: nat, s: State, max: int, t: Trace)
    requires ExitShape(llm, n + 1, s, t) && ExitReport(n + 1, s, t, max)
    ensures Ending(llm, s, max, t)
  {
    if t.report.Finished? {
      assert |s.history| < |t.history|;
      assert t.prompts[|t.prompts| - 1] == PromptFor(n + 1, s);
    }
  }

  /** A pass that continues adds only executed actions ahead of the rest of the loop. */
  lemma ContinueEnding(llm: Llm, s: State, max: int, next: State, t: Trace)
    requires s.results <= next.results
    requires forall i :: |s.results| <= i < |next.results| ==> next.results[i].Done?
    requires Ending(llm, next, max, t)
    ensures Ending(llm, s, max, t)
  {
    var rs := t.report.results;
    assert rs[..|s.results|] == s.results by {
      assert rs[..|next.results|] == next.results;
      assert next.results[..|s.results|] == s.results;
    }
    forall i | |s.results| <= i < |rs| - 1 ensures rs[i].Done? {
      if i < |next.results| {
        assert rs[i] == next.results[i];
      }
    }
  }

  /** What a whole run promises, for the run's trace `t` with cap `max`. The history
      gains the task as one user entry and then only assistant replies; the first
      prompt is the task and every later prompt is the context of the history before
      that iteration, so the result summary computed after a batch is never sent. The
      assistant entry after the task and `k` replies is the reply to the prompt of
      iteration `k + 1`, and the final message of a FINISH return is the reply to the
      last prompt. The iteration count never passes a positive cap, and an exit after
      the loop reports success exactly when the cap was not reached. */
  ghost predicate RunOk(llm: Llm, t: Trace, max: int, task: string, h0: seq<Message>)
  {
    RunCore(t, max, task, h0) && RunReplies(llm, t, h0)
  }

  /** The history, prompt and cap part of `RunOk`. */
  ghost predicate RunCore(t: Trace, max: int, task: string, h0: seq<Message>)
  {
    && |t.history| >= |h0| + 1 && t.history[..|h0|] == h0 && t.history[|h0|] == Message(User, task)
    && (forall i :: |h0| < i < |t.history| ==> t.history[i].role == Assistant)
    && |t.prompts| == t.report.iterations
    && |h0| + |t.prompts| <= |t.history| <= |h0| + 1 + |t.prompts|
    && (max > 0 ==> t.report.iterations <= max)
    && (|t.prompts| >= 1 ==> t.prompts[0] == task)
    && (forall k :: 1 <= k < |t.prompts| ==> t.prompts[k] == BuildContext(t.history[..|h0| + 1 + k]))
    && (t.report.Ended? ==>
          (t.report.success <==> t.report.iterations < max)
          && (t.report.message == "Reached max iterations" <==> t.report.iterations >= max))
  }

  /** The replies part of `RunOk`: after the `h0` entries and the task come the
      replies to the prompts in the order they were sent, and a FINISH return's final
      message is the reply to the prompt of its last iteration. */
  ghost predicate RunReplies(llm: Llm, t: Trace, h0: seq<Message>)
  {
    && (forall k :: 0 <= k < |t.history| - |h0| - 1 ==>
          k < |t.prompts| && RepliedWith(llm, k + 1, t.prompts[k], t.history[|h0| + 1 + k]))
    && (t.report.Finished? ==>
          && 1 <= t.report.iterations <= |t.prompts|
          && RepliedWith(llm, t.report.iterations, t.prompts[t.report.iterations - 1], Message(Assistant, t.report.finalMessage)))
  }

  /** The replies of a loop entered with no prompt sent yet, as `RunReplies` states them. */
  lemma RepliesFromStart(llm: Llm, s: State, max: int, t: Trace, h0: seq<Message>)
    requires |s.history| == |h0| + 1 && s.prompts == []
    requires Counted(0, s, max, t) && Answered(llm, 0, s, t) && Ending(llm, s, max, t)
    ensures RunReplies(llm, t, h0)
  {
    forall k | 0 <= k < |t.history| - |h0| - 1
      ensures k < |t.prompts| && RepliedWith(llm, k + 1, t.prompts[k], t.history[|h0| + 1 + k])
    {
      assert |s.history| <= |h0| + 1 + k < |t.history|;
    }
  }

  /** The loop entered with the task as the newest history entry, for any body that
      keeps `TurnShape` and `TurnReport`. */
  lemma FromStart(llm: Llm, body: (nat, State) -> Turn, max: int, task: string, h0: seq<Message>)
    requires BodyShapeOk(llm, body, max) && BodyReportOk(body, max)
    ensures RunCore(Loop(body, max, 0, InitialState(task, h0)), max, task, h0)
  {
    var s := InitialState(task, h0);
    LoopCounts(llm, body, max, 0, s);
    LoopPrompts(llm, body, max, 0, s);
    LoopEnding(llm, body, max, 0, s);
    CoreFromStart(llm, max, task, h0, Loop(body, max, 0, s));
  }

  /** `RunCore` of any trace the loop may leave when entered with the task. */
  lemma CoreFromStart(llm: Llm, max: int, task: string, h0: seq<Message>, t: Trace)
    requires var s := InitialState(task, h0);
      Counted(0, s, max, t) && Prompted(0, s, t) && Ending(llm, s, max, t)
    ensures RunCore(t, max, task, h0)
  {
    var s := InitialState(task, h0);
    var h := s.history;
    assert t.history[..|h|] == h;
    assert t.history[..|h0|] == h0 by { assert t.history[..|h0|] == t.history[..|h|][..|h0|]; }
    assert t.history[|h0|] == h[|h0|];
    forall k | 1 <= k < |t.prompts| ensures t.prompts[k] == BuildContext(t.history[..|h0| + 1 + k]) {
      assert |s.prompts| <= k;
    }
  }

  /** The loop entered with the task as the newest history entry records the replies
      of `llm`, for any body that keeps `TurnShape` and `TurnReport` with them. */
  lemma RepliesOfRun(llm: Llm, body: (nat, State) -> Turn, max: int, task: string, h0: seq<Message>)
    requires BodyShapeOk(llm, body, max) && BodyReportOk(body, max)
    ensures RunReplies(llm, Loop(body, max, 0, InitialState(task, h0)), h0)
  {
    var s := InitialState(task, h0);
    var t := Loop(body, max, 0, s);
    LoopCounts(llm, body, max, 0, s);
    LoopEnding(llm, body, max, 0, s);
    LoopReplies(llm, body, max, 0, s);
    RepliesFromStart(llm, s, max, t, h0);
  }

  /** `run` keeps every promise of `RunOk`. */
  lemma RunShape(llm: Llm, exec: Executor, decode: Decoder, repr: Value -> string,
                 task: string, maxArg: Option<int>, configured: int, h0: seq<Message>)
    ensures RunOk(llm, Run(llm, exec, decode, repr, task, maxArg, configured, h0), EffectiveMax(maxArg, configured), task, h0)
  {
    var max := EffectiveMax(maxArg, configured);
    BodyIsOk(llm, exec, decode, repr, max);
    FromStart(llm, Body(llm, exec, decode, repr, max), max, task, h0);
    RepliesOfRun(llm, Body(llm, exec, decode, repr, max), max, task, h0);
  }
}

=== FILE: common.dfy ===
/** Shared wrappers: Python's `Optional` and the raise-or-return shape of a call. */
module Common {

  /** An optional value; `None` plays Python's `None` where a field is `Optional[...]`. */
  datatype Option<+T> = None | Some(value: T) {

    /** The value, or `default` when absent. */
    function GetOr(default: T): T
    {
      match this
      case Some(v) => v
      case None => default
    }
  }

  /** The outcome of a Python call that may raise: either the returned value or the
      message of the exception that escaped. */
  datatype Outcome<+T> = Returned(value: T) | Raised(message: string)
}

=== FILE: file_tools.dfy ===
/** The decision logic of the file tools: which lines `read_file` returns and how it
    counts them, what `write_file` reports, the replacement rules of `edit_file`, and
    how `list_directory` filters and orders a directory. */
module FileTools {
  import opened Common
  import opened Json
  import opened FileSystem
  import Text
  import Sorting

  // ---------------------------------------------------------------- read_file

  /** The text `read_file` returns: the whole file when neither `offset` nor `limit`
      is given, otherwise the selected window of its `readlines()` lines. */
  function SliceLines(text: string, offset: Option<int>, limit: Option<int>): (r: string)
    ensures offset.None? && limit.None? ==> r == text
  {
    if offset.None? && limit.None? then text
    else Window(Text.SplitLines(text), offset, limit)
  }

  /** First line index read: a falsy `offset` starts at the first line. */
  function Start(offset: Option<int>): int {
    if offset.Some? && offset.value != 0 then offset.value - 1 else 0
  }

  /** Index past the last line read: a falsy `limit` runs to the end. */
  function End(start: int, limit: Option<int>, n: nat): int {
    if limit.Some? && limit.value != 0 then start + limit.value else n
  }

  /** `''.join(lines[start:end])`. */
  function Window(lines: seq<string>, offset: Option<int>, limit: Option<int>): string {
    var start := Start(offset);
    Text.Join("", Text.PySlice(lines, start, End(start, limit, |lines|)))
  }

  /** The reported `lines`: one more than the number of newlines, or 0 for no text. */
  function LineCount(content: string): (n: nat)
    ensures n == 0 <==> content == ""
  {
    if content == "" then 0 else Text.CountOcc(content, "\n") + 1
  }

  /** An `offset` or `limit` of 0 counts as absent, and starting at line 1 with no
      limit reads everything. */
  lemma ZeroMeansAbsent(text: string)
    ensures SliceLines(text, Some(0), Some(0)) == text
    ensures SliceLines(text, Some(0), None) == text
    ensures SliceLines(text, Some(1), None) == text
  {
    var lines := Text.SplitLines(text);
    assert Start(Some(0)) == 0 && Start(Some(1)) == 0;
    assert End(0, Some(0), |lines|) == |lines| && End(0, None, |lines|) == |lines|;
    assert Text.PySlice(lines, 0, |lines|) == lines;
    Text.ConcatSplitLines(text);
  }

  /** With `offset = o >= 1` and `limit = l >= 1` the result is lines `o` to
      `o + l - 1` (1-based), cut short at the end of the file. */
  lemma WindowOfLines(text: string, o: int, l: int)
    requires o >= 1 && l >= 1 && o - 1 <= |Text.SplitLines(text)|
    ensures var lines := Text.SplitLines(text);
      SliceLines(text, Some(o), Some(l)) ==
        Text.Join("", lines[o - 1..if o - 1 + l < |lines| then o - 1 + l else |lines|])
  {
    var lines := Text.SplitLines(text);
    LinesWindow(lines, o, l);
  }

  /** `lines[o - 1:o - 1 + l]` for a positive `offset` and `limit`. */
  lemma LinesWindow(lines: seq<string>, o: int, l: int)
    requires o >= 1 && l >= 1
    ensures Window(lines, Some(o), Some(l)) == Text.Join("", Text.PySlice(lines, o - 1, o - 1 + l))
  {
    assert Start(Some(o)) == o - 1;
    assert End(o - 1, Some(l), |lines|) == o - 1 + l;
  }

  /** The reported count is the number of `readlines()` lines, plus one when the text
      ends with a newline (the empty last "line" is counted). */
  lemma LineCountOfLines(content: string)
    ensures LineCount(content) ==
      |Text.SplitLines(content)| + (if content != "" && content[|content| - 1] == '\n' then 1 else 0)
  {
    Text.SplitLinesCount(content);
  }

  /** The result dict of a successful read. */
  function ReadResult(path: string, content: string): Dict
  {
    map["content" := Str(content), "file_path" := Str(path), "lines" := Int(LineCount(content))]
  }

  /** `read_file(file_path, offset, limit)`: the file is read in text mode, so the
      lines are cut from the newline-translated text. */
  function ReadFile(fs: Fs, ops: PathOps, workspace: string, filePath: string, offset: Option<int>, limit: Option<int>): (r: Reply)
    ensures var path := Resolve(ops, workspace, filePath);
      && (path !in fs ==> r == Failure("File not found: " + filePath))
      && (path in fs && fs[path].Directory? ==> r == Failure("Path is not a file: " + filePath))
      && (r.Success? <==> path in fs && fs[path].File?)
      && (r.Success? ==> r.result == ReadResult(path, SliceLines(Translated(fs[path].content), offset, limit)))
      && (r.Success? && offset.None? && limit.None? ==> r.result["content"] == Str(Translated(fs[path].content)))
  {
    var path := Resolve(ops, workspace, filePath);
    if path !in fs then Failure("File not found: " + filePath)
    else match fs[path]
      case Directory => Failure("Path is not a file: " + filePath)
      case File(content) => Success(ReadResult(path, SliceLines(Translated(content), offset, limit)))
  }

  /** A file with Windows line ends reads back with `\n` line ends, and its line count
      is that of the translated text. */
  lemma CrlfReadsTranslated(fs: Fs, ops: PathOps, workspace: string, filePath: string)
    requires Resolve(ops, workspace, filePath) in fs
    requires fs[Resolve(ops, workspace, filePath)] == File("a\r\nb")
    ensures ReadFile(fs, ops, workspace, filePath, None, None).result["content"] == Str("a\nb")
    ensures ReadFile(fs, ops, workspace, filePath, None, None).result["lines"] == Int(2)
  {
    LineEndsTranslated();
    assert Text.CountOcc("a\nb", "\n") == 1 by {
      assert "a\nb"[..1] != "\n" && "a\nb"[1..] == "\nb";
      assert "\nb"[..1] == "\n" && "\nb"[1..] == "b";
    }
  }

  // ---------------------------------------------------------------- write_file

  /** Bytes in the UTF-8 encoding of one character. */
  function Utf8Width(c: char): (n: nat)
    ensures 1 <= n <= 4
    ensures n == 1 <==> (c as int) < 0x80
  {
    if (c as int) < 0x80 then 1 else if (c as int) < 0x800 then 2 else if (c as int) < 0x1_0000 then 3 else 4
  }

  /** `len(s.encode('utf-8'))`. */
  function Utf8Length(s: string): (n: nat)
    ensures |s| <= n <= 4 * |s|
    decreases |s|
  {
    if s == "" then 0 else Utf8Width(s[0]) + Utf8Length(s[1..])
  }

  predicate Ascii(s: string)
  {
    forall i :: 0 <= i < |s| ==> (s[i] as int) < 0x80
  }

  /** The byte count equals the character count exactly for ASCII text. */
  lemma {:induction false} Utf8LengthAscii(s: string)
    ensures Utf8Length(s) == |s| <==> Ascii(s)
    decreases |s|
  {
    if s != "" {
      Utf8LengthAscii(s[1..]);
      assert Ascii(s) <==> (s[0] as int) < 0x80 && Ascii(s[1..]) by {
        if Ascii(s) {
          forall i | 0 <= i < |s[1..]| ensures (s[1..][i] as int) < 0x80 {
            assert s[1..][i] == s[i + 1];
          }
        }
        if (s[0] as int) < 0x80 && Ascii(s[1..]) {
          forall i | 0 <= i < |s| ensures (s[i] as int) < 0x80 {
            if i > 0 {
              assert s[i] == s[1..][i - 1];
            }
          }
        }
      }
    }
  }

  /** Writing two pieces costs the bytes of each. */
  lemma {:induction false} Utf8LengthAppend(a: string, b: string)
    ensures Utf8Length(a + b) == Utf8Length(a) + Utf8Length(b)
    decreases |a|
  {
    if a != "" {
      assert (a + b)[0] == a[0] && (a + b)[1..] == a[1..] + b;
      Utf8LengthAppend(a[1..], b);
    } else {
      assert a + b == b;
    }
  }

  /** `write_file(file_path, content)`: creates the parent directory if needed (an
      existing file there makes `mkdir` raise), then writes the file (a directory at
      the path makes `open` raise). Returns the new file system with the reply. */
  function WriteFile(fs: Fs, ops: PathOps, workspace: string, filePath: string, content: string): (r: (Fs, Reply))
    ensures var path := Resolve(ops, workspace, filePath);
      var dir := ops.parent(path);
      && (r.1.Success? ==>
            && path in r.0 && r.0[path] == File(content)
            && r.1.result == map["file_path" := Str(path), "bytes_written" := Int(Utf8Length(content))]
            && (forall p :: p in fs && p != path ==> p in r.0 && r.0[p] == fs[p])
            && (forall p :: p in r.0 ==> p in fs || p == path || p == dir))
      && (r.1.Success? <==> !(dir in fs && fs[dir].File?) && !(path in fs && fs[path].Directory?) && path != dir)
      && (dir in fs && fs[dir].File? ==> r.0 == fs)
  {
    var path := Resolve(ops, workspace, filePath);
    var dir := ops.parent(path);
    if dir in fs && fs[dir].File? then (fs, Failure("[Errno 17] File exists: '" + dir + "'"))
    else
      var fs1 := if dir in fs then fs else fs[dir := Directory];
      if path in fs1 && fs1[path].Directory? then (fs1, Failure("[Errno 21] Is a directory: '" + path + "'"))
      else (fs1[path := File(content)], Success(map["file_path" := Str(path), "bytes_written" := Int(Utf8Length(content))]))
  }

  /** What was written reads back whole, with its line count, as its newline
      translation: text without a carriage return reads back exactly. */
  lemma WriteThenRead(fs: Fs, ops: PathOps, workspace: string, filePath: string, content: string)
    requires WriteFile(fs, ops, workspace, filePath, content).1.Success?
    ensures var path := Resolve(ops, workspace, filePath);
      ReadFile(WriteFile(fs, ops, workspace, filePath, content).0, ops, workspace, filePath, None, None)
        == Success(ReadResult(path, Translated(content)))
    ensures NoCarriageReturn(content) ==>
      var path := Resolve(ops, workspace, filePath);
      ReadFile(WriteFile(fs, ops, workspace, filePath, content).0, ops, workspace, filePath, None, None)
        == Success(ReadResult(path, content))
  {
    var written := WriteFile(fs, ops, workspace, filePath, content).0;
    WrittenIsStored(fs, ops, workspace, filePath, content);
    ReadStored(written, ops, workspace, filePath, content);
    if NoCarriageReturn(content) {
      TranslatedIdentity(content);
    }
  }

  /** A successful write leaves the text at the resolved path. */
  lemma WrittenIsStored(fs: Fs, ops: PathOps, workspace: string, filePath: string, content: string)
    requires WriteFile(fs, ops, workspace, filePath, content).1.Success?
    ensures var path := Resolve(ops, workspace, filePath);
      path in WriteFile(fs, ops, workspace, filePath, content).0
      && WriteFile(fs, ops, workspace, filePath, content).0[path] == File(content)
  {
  }

  /** A stored file read whole gives its translated text. */
  lemma ReadStored(fs: Fs, ops: PathOps, workspace: string, filePath: string, content: string)
    requires Resolve(ops, workspace, filePath) in fs && fs[Resolve(ops, workspace, filePath)] == File(content)
    ensures ReadFile(fs, ops, workspace, filePath, None, None)
         == Success(ReadResult(Resolve(ops, workspace, filePath), Translated(content)))
  {
  }

  // ---------------------------------------------------------------- edit_file

  const NotFoundInFile: string := "old_string not found in file"
  const AppearsMultipleTimes: string := "old_string appears multiple times. Use replace_all=true or provide more context"

  /** The replacement on the text alone: the new text and the reported count, or the
      error. */
  function EditText(content: string, target: string, replacement: string, replaceAll: bool): (r: Outcome<(string, nat)>)
    ensures r.Raised? <==> !Text.Contains(content, target) || (!replaceAll && Text.CountOcc(content, target) > 1)
    ensures !Text.Contains(content, target) ==> r == Raised(NotFoundInFile)
    ensures Text.Contains(content, target) && !replaceAll && Text.CountOcc(content, target) > 1 ==> r == Raised(AppearsMultipleTimes)
    ensures r.Returned? ==> r.value.1 == Text.CountOcc(content, target) >= 1
    ensures r.Returned? ==> r.value.0 == Text.ReplaceAll(content, target, replacement)
  {
    Text.ContainsIffCounted(content, target);
    if !Text.Contains(content, target) then Raised(NotFoundInFile)
    else if replaceAll then Returned((Text.ReplaceAll(content, target, replacement), Text.CountOcc(content, target)))
    else if Text.CountOcc(content, target) > 1 then Raised(AppearsMultipleTimes)
    else
      Text.ReplaceFirstSingle(content, target, replacement);
      Returned((Text.ReplaceFirst(content, target, replacement), 1))
  }

  /** For a non-empty `old_string`, a successful edit puts `new_string` exactly where
      each occurrence was and changes nothing else. */
  lemma EditReplacesEveryOccurrence(content: string, target: string, replacement: string, replaceAll: bool)
    requires target != ""
    requires EditText(content, target, replacement, replaceAll).Returned?
    ensures EditText(content, target, replacement, replaceAll).value.0 == Text.Join(replacement, Text.SplitOn(content, target))
    ensures content == Text.Join(target, Text.SplitOn(content, target))
    ensures EditText(content, target, replacement, replaceAll).value.1 + 1 == |Text.SplitOn(content, target)|
  {
    Text.ReplaceAllIsJoinOfSplit(content, target, replacement);
    Text.JoinSplitOn(content, target);
    Text.SplitOnCount(content, target);
  }

  /** Replacing a text by itself leaves the file's text as it was. */
  lemma EditToSameIsIdentity(content: string, target: string, replaceAll: bool)
    requires target != ""
    requires EditText(content, target, target, replaceAll).Returned?
    ensures EditText(content, target, target, replaceAll).value.0 == content
  {
    EditReplacesEveryOccurrence(content, target, target, replaceAll);
  }

  /** `edit_file(file_path, old_string, new_string, replace_all)`: the file system
      afterwards and the reply. The edit works on the text as a text-mode read gives
      it, so the file is written back with `\n` line ends. */
  function EditFile(fs: Fs, ops: PathOps, workspace: string, filePath: string, target: string, replacement: string, replaceAll: bool): (r: (Fs, Reply))
    ensures var path := Resolve(ops, workspace, filePath);
      && (path !in fs ==> r == (fs, Failure("File not found: " + filePath)))
      && (r.1.Failure? ==> r.0 == fs)
      && (path in fs && fs[path].File? && EditText(Translated(fs[path].content), target, replacement, replaceAll).Raised? ==>
            r.1 == Failure(EditText(Translated(fs[path].content), target, replacement, replaceAll).message))
      && (r.1.Success? <==> path in fs && fs[path].File? && EditText(Translated(fs[path].content), target, replacement, replaceAll).Returned?)
      && (r.1.Success? ==>
            var e := EditText(Translated(fs[path].content), target, replacement, replaceAll).value;
            && r.0 == fs[path := File(e.0)]
            && r.1.result == map["file_path" := Str(path), "replacements" := Int(e.1)])
  {
    var path := Resolve(ops, workspace, filePath);
    if path !in fs then (fs, Failure("File not found: " + filePath))
    else match fs[path]
      case Directory => (fs, Failure("[Errno 21] Is a directory: '" + path + "'"))
      case File(stored) =>
        match EditText(Translated(stored), target, replacement, replaceAll)
        case Raised(m) => (fs, Failure(m))
        case Returned(e) => (fs[path := File(e.0)], Success(map["file_path" := Str(path), "replacements" := Int(e.1)]))
  }

  /** An `old_string` holding a carriage return is never found: the text it is looked
      for in has been newline-translated. */
  lemma CarriageReturnNeverFound(fs: Fs, ops: PathOps, workspace: string, filePath: string,
                                 target: string, replacement: string, replaceAll: bool)
    requires Resolve(ops, workspace, filePath) in fs && fs[Resolve(ops, workspace, filePath)].File?
    requires !NoCarriageReturn(target)
    ensures EditFile(fs, ops, workspace, filePath, target, replacement, replaceAll)
      == (fs, Failure(NotFoundInFile))
  {
    var text := Translated(fs[Resolve(ops, workspace, filePath)].content);
    Text.ContainsIff(text, target);
    var j :| 0 <= j < |target| && target[j] == '\r';
    assert forall i :: !Text.OccursAt(text, target, i);
  }

  /** A successful edit with a `new_string` free of carriage returns leaves a file
      free of them. */
  lemma EditWritesNewlineEnds(fs: Fs, ops: PathOps, workspace: string, filePath: string,
                              target: string, replacement: string, replaceAll: bool)
    requires NoCarriageReturn(replacement)
    requires EditFile(fs, ops, workspace, filePath, target, replacement, replaceAll).1.Success?
    ensures var path := Resolve(ops, workspace, filePath);
      var after := EditFile(fs, ops, workspace, filePath, target, replacement, replaceAll).0[path];
      after.File? && NoCarriageReturn(after.content)
  {
    var path := Resolve(ops, workspace, filePath);
    var text := Translated(fs[path].content);
    if target == "" {
      InsertKeepsNoCarriageReturn(text, replacement);
    } else {
      EditReplacesEveryOccurrence(text, target, replacement, replaceAll);
      SplitOnKeepsNoCarriageReturn(text, target);
      JoinKeepsNoCarriageReturn(replacement, Text.SplitOn(text, target));
    }
  }

  /** `s.replace("", n)` puts `n` around every character of `s`. */
  lemma {:induction false} InsertKeepsNoCarriageReturn(s: string, n: string)
    requires NoCarriageReturn(s) && NoCarriageReturn(n)
    ensures NoCarriageReturn(Text.ReplaceAll(s, "", n))
    decreases |s|
  {
    if s != "" {
      assert NoCarriageReturn(s[1..]) by {
        forall i | 0 <= i < |s[1..]| ensures s[1..][i] != '\r' { assert s[1..][i] == s[1 + i]; }
      }
      InsertKeepsNoCarriageReturn(s[1..], n);
      NoCarriageReturnAppend(n, [s[0]]);
      NoCarriageReturnAppend(n + [s[0]], Text.ReplaceAll(s[1..], "", n));
    }
  }

  predicate NoCarriageReturn(s: string)
  {
    forall i :: 0 <= i < |s| ==> s[i] != '\r'
  }

  lemma NoCarriageReturnAppend(a: string, b: string)
    requires NoCarriageReturn(a) && NoCarriageReturn(b)
    ensures NoCarriageReturn(a + b)
  {
    forall i | 0 <= i < |a + b| ensures (a + b)[i] != '\r' {
      if i >= |a| { assert (a + b)[i] == b[i - |a|]; }
    }
  }

  lemma {:induction false} SplitOnKeepsNoCarriageReturn(s: string, p: string)
    requires p != [] && NoCarriageReturn(s)
    ensures forall k :: 0 <= k < |Text.SplitOn(s, p)| ==> NoCarriageReturn(Text.SplitOn(s, p)[k])
    decreases |s|
  {
    var r := Text.SplitOn(s, p);
    if |s| < |p| {
    } else if s[..|p|] == p {
      assert NoCarriageReturn(s[|p|..]) by {
        forall i | 0 <= i < |s[|p|..]| ensures s[|p|..][i] != '\r' { assert s[|p|..][i] == s[|p| + i]; }
      }
      SplitOnKeepsNoCarriageReturn(s[|p|..], p);
      forall k | 0 <= k < |r| ensures NoCarriageReturn(r[k]) {
        if k > 0 { assert r[k] == Text.SplitOn(s[|p|..], p)[k - 1]; }
      }
    } else {
      assert NoCarriageReturn(s[1..]) by {
        forall i | 0 <= i < |s[1..]| ensures s[1..][i] != '\r' { assert s[1..][i] == s[1 + i]; }
      }
      SplitOnKeepsNoCarriageReturn(s[1..], p);
      var rest := Text.SplitOn(s[1..], p);
      NoCarriageReturnAppend([s[0]], rest[0]);
      forall k | 0 <= k < |r| ensures NoCarriageReturn(r[k]) {
        if k > 0 { assert r[k] == rest[k]; }
      }
    }
  }

  lemma {:induction false} JoinKeepsNoCarriageReturn(sep: string, parts: seq<string>)
    requires NoCarriageReturn(sep)
    requires forall k :: 0 <= k < |parts| ==> NoCarriageReturn(parts[k])
    ensures NoCarriageReturn(Text.Join(sep, parts))
    decreases |parts|
  {
    if |parts| > 1 {
      JoinKeepsNoCarriageReturn(sep, parts[1..]);
      NoCarriageReturnAppend(parts[0], sep);
      NoCarriageReturnAppend(parts[0] + sep, Text.Join(sep, parts[1..]));
    }
  }

  // ---------------------------------------------------------------- list_directory

  /** One entry of the listing. */
  datatype Item = Item(name: string, isDir: bool, path: string)

  function ItemToValue(it: Item): Value
  {
    Obj(map["name" := Str(it.name), "type" := Str(if it.isDir then "directory" else "file"), "path" := Str(it.path)])
  }

  /** The sort key `(type == "file", name)`. */
  function ItemKey(it: Item): seq<int>
  {
    [if it.isDir then 0 else 1] + Sorting.CodePoints(it.name)
  }

  /** `fnmatch.fnmatch(name, pattern)`. */
  type Matcher = (string, string) -> bool

  /** The entry is skipped: a dot-name, or a name matching an ignore pattern. */
  predicate Skipped(name: string, ignore: Option<seq<string>>, fnmatch: Matcher)
  {
    Text.StartsWith(name, ".")
    || (ignore.Some? && exists i :: 0 <= i < |ignore.value| && fnmatch(name, ignore.value[i]))
  }

  /** The entries that survive the filter, in `iterdir` order. */
  function Kept(fs: Fs, ops: PathOps, dir: string, names: seq<string>, ignore: Option<seq<string>>, fnmatch: Matcher): (items: seq<Item>)
    ensures |items| <= |names|
    ensures forall k :: 0 <= k < |items| ==>
      && items[k].name in names && !Skipped(items[k].name, ignore, fnmatch)
      && items[k].path == ops.join(dir, items[k].name)
      && (items[k].isDir <==> items[k].path in fs && fs[items[k].path].Directory?)
    decreases |names|
  {
    if names == [] then []
    else
      var rest := Kept(fs, ops, dir, names[1..], ignore, fnmatch);
      var name := names[0];
      if Skipped(name, ignore, fnmatch) then rest
      else
        var path := ops.join(dir, name);
        [Item(name, path in fs && fs[path].Directory?, path)] + rest
  }

  /** Every entry that is not skipped is listed. */
  lemma {:induction false} KeptComplete(fs: Fs, ops: PathOps, dir: string, names: seq<string>, ignore: Option<seq<string>>, fnmatch: Matcher, k: int)
    requires 0 <= k < |names| && !Skipped(names[k], ignore, fnmatch)
    ensures exists j :: 0 <= j < |Kept(fs, ops, dir, names, ignore, fnmatch)| && Kept(fs, ops, dir, names, ignore, fnmatch)[j].name == names[k]
    decreases |names|
  {
    var items := Kept(fs, ops, dir, names, ignore, fnmatch);
    if k == 0 {
      assert items[0].name == names[0];
    } else {
      KeptComplete(fs, ops, dir, names[1..], ignore, fnmatch, k - 1);
      var rest := Kept(fs, ops, dir, names[1..], ignore, fnmatch);
      var j :| 0 <= j < |rest| && rest[j].name == names[1..][k - 1];
      if Skipped(names[0], ignore, fnmatch) {
        assert items[j].name == names[k];
      } else {
        assert items[j + 1].name == names[k];
      }
    }
  }

  /** The listing: kept entries, directories first, then by name. */
  function Listing(fs: Fs, ops: PathOps, dir: string, names: seq<string>, ignore: Option<seq<string>>, fnmatch: Matcher): seq<Item>
  {
    Sorting.SortByKey(Kept(fs, ops, dir, names, ignore, fnmatch), ItemKey)
  }

  /** The listing holds exactly the kept entries, and orders them: no file before a
      directory, and names ascending within each kind. */
  lemma ListingOrder(fs: Fs, ops: PathOps, dir: string, names: seq<string>, ignore: Option<seq<string>>, fnmatch: Matcher)
    ensures var out := Listing(fs, ops, dir, names, ignore, fnmatch);
      && multiset(out) == multiset(Kept(fs, ops, dir, names, ignore, fnmatch))
      && (forall i, j :: 0 <= i < j < |out| ==> (out[j].isDir ==> out[i].isDir))
      && (forall i, j :: 0 <= i < j < |out| && out[i].isDir == out[j].isDir ==>
            Sorting.LexLe(Sorting.CodePoints(out[i].name), Sorting.CodePoints(out[j].name)))
  {
    var kept := Kept(fs, ops, dir, names, ignore, fnmatch);
    var out := Listing(fs, ops, dir, names, ignore, fnmatch);
    Sorting.SortByKeyPermutes(kept, ItemKey);
    Sorting.SortByKeySorted(kept, ItemKey);
    forall i, j | 0 <= i < j < |out|
      ensures out[j].isDir ==> out[i].isDir
      ensures out[i].isDir == out[j].isDir ==> Sorting.LexLe(Sorting.CodePoints(out[i].name), Sorting.CodePoints(out[j].name))
    {
      assert Sorting.LexLe(ItemKey(out[i]), ItemKey(out[j]));
      assert ItemKey(out[i])[1..] == Sorting.CodePoints(out[i].name);
      assert ItemKey(out[j])[1..] == Sorting.CodePoints(out[j].name);
    }
  }

  /** `list_directory(directory_path, ignore_patterns)`; `iterdir` gives the names in
      a directory in the order the operating system yields them. */
  function ListDirectory(fs: Fs, ops: PathOps, workspace: string, dirPath: string, ignore: Option<seq<string>>,
                         iterdir: string -> seq<string>, fnmatch: Matcher): (r: Reply)
    ensures var path := Resolve(ops, workspace, dirPath);
      && (path !in fs ==> r == Failure("Directory not found: " + dirPath))
      && (path in fs && fs[path].File? ==> r == Failure("Path is not a directory: " + dirPath))
      && (r.Success? <==> path in fs && fs[path].Directory?)
      && (r.Success? ==>
            var out := Listing(fs, ops, path, iterdir(path), ignore, fnmatch);
            r.result == map["directory" := Str(path),
                            "items" := Arr(seq(|out|, i requires 0 <= i < |out| => ItemToValue(out[i])))])
  {
    var path := Resolve(ops, workspace, dirPath);
    if path !in fs then Failure("Directory not found: " + dirPath)
    else if fs[path].File? then Failure("Path is not a directory: " + dirPath)
    else
      var out := Listing(fs, ops, path, iterdir(path), ignore, fnmatch);
      Success(map["directory" := Str(path), "items" := Arr(seq(|out|, i requires 0 <= i < |out| => ItemToValue(out[i])))])
  }
}

=== FILE: filesystem.dfy ===
/** The file system the leaf tools act on, and the shape of a tool's reply. Paths are
    the strings `str(path)` gives; how `pathlib` joins and splits them is supplied. */
module FileSystem {
  import opened Json

  /** A file with its decoded text, line ends as stored, or a directory. */
  datatype Node = File(content: string) | Directory

  /** What a text-mode read (`open(path, 'r')`) yields for stored text: universal
      newlines turn every `\r\n` and every lone `\r` into `\n`. */
  function Translated(s: string): (r: string)
    ensures |r| <= |s|
    ensures forall i :: 0 <= i < |r| ==> r[i] != '\r'
    decreases |s|
  {
    if s == "" then ""
    else if s[0] == '\r' then
      "\n" + Translated(if |s| >= 2 && s[1] == '\n' then s[2..] else s[1..])
    else [s[0]] + Translated(s[1..])
  }

  /** Text without a carriage return reads back unchanged, and only such text does. */
  lemma {:induction false} TranslatedIdentity(s: string)
    ensures Translated(s) == s <==> forall i :: 0 <= i < |s| ==> s[i] != '\r'
    decreases |s|
  {
    if s != "" && s[0] != '\r' {
      TranslatedIdentity(s[1..]);
      if forall i :: 0 <= i < |s| ==> s[i] != '\r' {
        assert forall i :: 0 <= i < |s[1..]| ==> s[1..][i] != '\r' by {
          forall i | 0 <= i < |s[1..]| ensures s[1..][i] != '\r' {
            assert s[1..][i] == s[i + 1];
          }
        }
        assert s == [s[0]] + s[1..];
      }
    } else if s != "" {
      assert Translated(s)[0] == '\n' != s[0];
    }
  }

  /** A Windows line end and an old Macintosh line end both read as `\n`. */
  lemma LineEndsTranslated()
    ensures Translated("a\r\nb") == "a\nb"
    ensures Translated("a\rb") == "a\nb"
    ensures Translated("a\r\r\nb") == "a\n\nb"
  {
    assert "a\r\nb"[1..] == "\r\nb" && "\r\nb"[2..] == "b";
    assert "a\rb"[1..] == "\rb" && "\rb"[1..] == "b";
    assert "a\r\r\nb"[1..] == "\r\r\nb" && "\r\r\nb"[1..] == "\r\nb";
  }

  /** Reading what a read produced changes nothing more. */
  lemma TranslatedIdempotent(s: string)
    ensures Translated(Translated(s)) == Translated(s)
  {
    TranslatedIdentity(Translated(s));
  }

  /** Every existing path and what is there. */
  type Fs = map<string, Node>

  /** The `pathlib` operations the tools use: `a / b`, `is_absolute()`, `.parent`,
      `.stem`. */
  datatype PathOps = PathOps(
    join: (string, string) -> string,
    isAbsolute: string -> bool,
    parent: string -> string,
    stem: string -> string)

  /** A tool argument resolved against the workspace: absolute paths stay, relative
      ones are taken under the workspace. */
  function Resolve(ops: PathOps, workspace: string, p: string): (r: string)
    ensures ops.isAbsolute(p) ==> r == p
    ensures !ops.isAbsolute(p) ==> r == ops.join(workspace, p)
  {
    if ops.isAbsolute(p) then p else ops.join(workspace, p)
  }

  /** What a tool answers: `{"success": True, "result": …}` or
      `{"success": False, "error": …}`. */
  datatype Reply = Success(result: Dict) | Failure(error: string)

  function ReplyToDict(r: Reply): (d: Dict)
    ensures "success" in d && d["success"] == Bool(r.Success?)
    ensures r.Success? ==> "result" in d && d["result"] == Obj(r.result) && "error" !in d
    ensures r.Failure? ==> "error" in d && d["error"] == Str(r.error) && "result" !in d
  {
    match r
    case Success(result) => map["success" := Bool(true), "result" := Obj(result)]
    case Failure(error) => map["success" := Bool(false), "error" := Str(error)]
  }
}

=== FILE: generator.dfy ===
/** The action generator: turns a generation response into zero or one actions. */
module Generator {
  import opened Common
  import opened Json
  import opened Actions
  import Text

  /** `LLMResponse`: the text and, for a function call, `metadata["function_call"]`.
      Usage and finish reason are not consulted by the generator. */
  datatype LlmResponse = LlmResponse(content: string, model: string, metadata: Option<Dict>)

  /** `json.loads` on a string: the decoded value, or `None` for a decode error. */
  type Decoder = string -> Option<Value>

  predicate HasFunctionCall(r: LlmResponse)
  {
    r.metadata.Some? && "function_call" in r.metadata.value
  }

  /** `_parse_function_args`: decode failures give `{}`; a non-string argument payload
      makes `json.loads` raise, which is not caught. */
  function ParseFunctionArgs(args: Value, decode: Decoder): (r: Outcome<Value>)
    ensures args.Str? <==> r.Returned?
    ensures args.Str? && decode(args.s).None? ==> r == Returned(Obj(map[]))
    ensures args.Str? && decode(args.s).Some? ==> r == Returned(decode(args.s).value)
  {
    if !args.Str? then Raised("the JSON object must be str, bytes or bytearray")
    else match decode(args.s)
      case None => Returned(Obj(map[]))
      case Some(v) => Returned(v)
  }

  /** `_parse_action_from_content`: stripped content opening with `{` or `[` that
      decodes to an object with a `"type"` key and validates; anything else is `None`. */
  function ParseActionFromContent(content: string, decode: Decoder): (r: Option<Action>)
    ensures r.Some? ==> var s := Text.Strip(content);
      && (Text.StartsWith(s, "{") || Text.StartsWith(s, "["))
      && decode(s).Some? && decode(s).value.Obj? && "type" in decode(s).value.fields
      && ValidateAction(decode(s).value.fields) == r
  {
    var s := Text.Strip(content);
    if Text.StartsWith(s, "{") || Text.StartsWith(s, "[") then
      match decode(s)
      case Some(Obj(d)) => if "type" in d then ValidateAction(d) else None
      case _ => None
    else None
  }

  /** The pass-through action for plain content. */
  function GenerateAction(content: string): (a: Action)
    ensures a.kind == LlmGenerate && a.name == "generate"
    ensures a.parameters == map["content" := Str(content)]
  {
    Action(LlmGenerate, "generate", map["content" := Str(content)], Some("LLM generated content"), map[])
  }

  /** The `arguments` entry of a function call, `"{}"` when absent. */
  function Arguments(call: Dict): Value
  {
    Get(call, "arguments", Str("{}"))
  }

  /** The action a function call becomes, or the exception building it raises: a call
      that is not a dictionary or has no string `"name"`, arguments that are not a
      string, or arguments that decode to something other than an object. */
  function FunctionCallAction(call: Value, decode: Decoder): (r: Outcome<Action>)
    ensures r.Raised? <==>
      || !call.Obj? || "name" !in call.fields || !call.fields["name"].Str?
      || ParseFunctionArgs(Arguments(call.fields), decode).Raised?
      || !ParseFunctionArgs(Arguments(call.fields), decode).value.Obj?
    ensures r.Returned? ==> call.Obj? && "name" in call.fields && call.fields["name"] == Str(r.value.name)
    ensures r.Returned? ==> ParseFunctionArgs(Arguments(call.fields), decode) == Returned(Obj(r.value.parameters))
    ensures r.Returned? ==> r.value.kind == ToolCall && r.value.description == Some("Call tool: " + r.value.name)
    ensures r.Returned? ==> r.value.metadata == map[]
  {
    if !call.Obj? || "name" !in call.fields then Raised("function_call has no 'name'")
    else match ParseFunctionArgs(Arguments(call.fields), decode)
      case Raised(m) => Raised(m)
      case Returned(params) =>
        if call.fields["name"].Str? && params.Obj? then
          var name := call.fields["name"].s;
          Returned(Action(ToolCall, name, params.fields, Some("Call tool: " + name), map[]))
        else Raised("validation error for Action")
  }

  /** `generate_from_llm_response`. Precedence: a function call, then a JSON action in
      the content, then a `generate` echo of non-empty content; otherwise nothing. */
  function GenerateFromResponse(resp: LlmResponse, decode: Decoder): (r: Outcome<seq<Action>>)
    ensures r.Returned? ==> |r.value| <= 1
    ensures HasFunctionCall(resp) && r.Returned? ==>
      var call := resp.metadata.value["function_call"];
      && |r.value| == 1 && r.value[0].kind == ToolCall
      && call.Obj? && "name" in call.fields && call.fields["name"] == Str(r.value[0].name)
      && r.value[0].description == Some("Call tool: " + r.value[0].name)
    ensures HasFunctionCall(resp) ==>
      var call := FunctionCallAction(resp.metadata.value["function_call"], decode);
      && (r.Returned? <==> call.Returned?)
      && (r.Returned? ==> r.value == [call.value])
    ensures !HasFunctionCall(resp) ==> r.Returned? && (r.value == [] <==> resp.content == "")
    ensures !HasFunctionCall(resp) && resp.content != "" ==>
      r.value == [match ParseActionFromContent(resp.content, decode)
                  case Some(a) => a
                  case None => GenerateAction(resp.content)]
  {
    if HasFunctionCall(resp) then
      match FunctionCallAction(resp.metadata.value["function_call"], decode)
      case Raised(m) => Raised(m)
      case Returned(a) => Returned([a])
    else if resp.content != "" then
      match ParseActionFromContent(resp.content, decode)
      case Some(a) => Returned([a])
      case None => Returned([GenerateAction(resp.content)])
    else Returned([])
  }

  /** A function call wins over whatever the content says. */
  lemma FunctionCallWins(resp: LlmResponse, other: string, decode: Decoder)
    requires HasFunctionCall(resp)
    ensures GenerateFromResponse(resp, decode) == GenerateFromResponse(resp.(content := other), decode)
  {
  }

  /** Missing arguments mean `"{}"`, and undecodable arguments give empty parameters
      rather than an error. */
  lemma ArgumentsDefaultToEmpty(resp: LlmResponse, decode: Decoder)
    requires HasFunctionCall(resp)
    requires var call := resp.metadata.value["function_call"];
      call.Obj? && "name" in call.fields && call.fields["name"].Str?
      && ("arguments" !in call.fields || (call.fields["arguments"].Str? && decode(call.fields["arguments"].s).None?))
    requires decode("{}") == Some(Obj(map[]))
    ensures GenerateFromResponse(resp, decode).Returned?
    ensures GenerateFromResponse(resp, decode).value[0].parameters == map[]
  {
  }

  /** Content of whitespace only is still echoed as a `generate` action. */
  lemma WhitespaceContentIsEchoed(resp: LlmResponse, decode: Decoder)
    requires !HasFunctionCall(resp)
    requires resp.content != "" && Text.AllSpace(resp.content)
    ensures GenerateFromResponse(resp, decode) == Returned([GenerateAction(resp.content)])
  {
  }

  /** A JSON object with a `"type"` key that validates becomes that action. */
  lemma JsonContentBecomesAction(resp: LlmResponse, decode: Decoder, d: Dict, a: Action)
    requires !HasFunctionCall(resp)
    requires Text.StartsWith(Text.Strip(resp.content), "{")
    requires decode(Text.Strip(resp.content)) == Some(Obj(d)) && "type" in d
    requires ValidateAction(d) == Some(a)
    ensures GenerateFromResponse(resp, decode) == Returned([a])
  {
  }

  /** A top-level JSON array is not an action: the content is echoed verbatim. */
  lemma JsonArrayFallsThrough(resp: LlmResponse, decode: Decoder, items: seq<Value>)
    requires !HasFunctionCall(resp) && resp.content != ""
    requires decode(Text.Strip(resp.content)) == Some(Arr(items))
    ensures GenerateFromResponse(resp, decode) == Returned([GenerateAction(resp.content)])
    ensures GenerateFromResponse(resp, decode).value[0].parameters["content"] == Str(resp.content)
  {
  }

  /** `generate_tool_action(tool_name, **kwargs)`. */
  function GenerateToolAction(toolName: string, kwargs: Dict): (a: Action)
    ensures a.kind == ToolCall && a.name == toolName && a.parameters == kwargs
    ensures a.description == Some("Call tool: " + toolName)
  {
    Action(ToolCall, toolName, kwargs, Some("Call tool: " + toolName), map[])
  }

  /** `generate_mcp_action(method, params)`. */
  function GenerateMcpAction(methodName: string, params: Dict): (a: Action)
    ensures a.kind == McpRequest && a.name == methodName && a.parameters == params
    ensures a.description == Some("MCP request: " + methodName)
  {
    Action(McpRequest, methodName, params, Some("MCP request: " + methodName), map[])
  }
}

=== FILE: json.dfy ===
/** The Python values that flow through the agent as JSON-compatible data, with the
    dictionary lookup, truthiness and `str()` the code applies to them. */
module Json {
  import opened Common
  import Text

  /** A JSON-compatible Python value; `Null` is Python's `None`. A float is held as
      the exact real it denotes. Dictionaries are keyed by strings. */
  datatype Value =
    | Null
    | Bool(b: bool)
    | Int(i: int)
    | Float(f: real)
    | Str(s: string)
    | Arr(items: seq<Value>)
    | Obj(fields: map<string, Value>)

  /** A Python `Dict[str, Any]`. */
  type Dict = map<string, Value>

  /** `d.get(key, default)`. */
  function Get(d: Dict, key: string, default: Value): Value
  {
    if key in d then d[key] else default
  }

  /** Python truthiness (`if v:`): `None`, `False`, `0`, empty strings and empty
      containers are false. */
  predicate Truthy(v: Value)
  {
    match v
    case Null => false
    case Bool(b) => b
    case Int(i) => i != 0
    case Float(f) => f != 0.0
    case Str(s) => s != ""
    case Arr(items) => |items| > 0
    case Obj(fields) => |fields| > 0
  }

  /** `str(v)`. `None`, booleans, integers and strings render exactly as Python
      renders them; the rendering of a float, list or dict (Python's shortest
      round-trip digits, and `repr` of the elements) is supplied as `repr`. */
  function PyStr(v: Value, repr: Value -> string): (s: string)
    ensures v.Str? ==> s == v.s
    ensures v.Null? ==> s == "None"
    ensures v.Int? && v.i >= 0 ==> Text.ParseNat(s) == Some(v.i)
    ensures v.Float? || v.Arr? || v.Obj? ==> s == repr(v)
  {
    match v
    case Null => "None"
    case Bool(b) => if b then "True" else "False"
    case Int(i) => Text.ParseNatToString(if i >= 0 then i else 0); Text.IntToString(i)
    case Str(s) => s
    case _ => repr(v)
  }
}

=== FILE: mcp_client.dfy ===
/** The MCP client: request ids drawn from a counter, transport selection, and the
    five request wrappers with the part of the response each one returns. */
module McpClient {
  import opened Common
  import opened Json
  import opened McpProtocol
  import Text

  /** `transport.send(request.dict())`: what the custom transport answers. */
  type Transport = Dict -> Outcome<Value>

  /** `MCPClient`: the configured server URL and transport, and the id counter. */
  datatype Client = Client(serverUrl: Option<string>, transport: Option<Transport>, counter: nat)

  /** `MCPClient(server_url, transport)`: the counter starts at 0. */
  function NewClient(serverUrl: Option<string>, transport: Option<Transport>): (c: Client)
    ensures c.serverUrl == serverUrl && c.transport == transport && c.counter == 0
  {
    Client(serverUrl, transport, 0)
  }

  /** `_next_id`: increments the counter, then renders it in decimal. */
  function NextId(c: Client): (r: (Client, string))
    ensures r.0 == c.(counter := c.counter + 1)
    ensures Text.ParseNat(r.1) == Some(c.counter + 1)
  {
    Text.ParseNatToString(c.counter + 1);
    (c.(counter := c.counter + 1), Text.NatToString(c.counter + 1))
  }

  /** The placeholder answer when only a server URL is configured. */
  function HttpPlaceholder(): Value
  {
    Obj(map["result" := Null, "error" := Str("HTTP transport not implemented")])
  }

  /** `send_request`: the transport wins over a (non-empty) server URL; with neither
      it raises `ValueError`. */
  function SendRequest(c: Client, req: Request): (r: Outcome<Value>)
    ensures c.transport.Some? ==> r == c.transport.value(RequestToValue(req))
    ensures c.transport.None? ==> (r.Returned? <==> c.serverUrl.Some? && c.serverUrl.value != "")
    ensures c.transport.None? && r.Returned? ==> r.value == HttpPlaceholder()
  {
    if c.transport.Some? then c.transport.value(RequestToValue(req))
    else if c.serverUrl.Some? && c.serverUrl.value != "" then Returned(HttpPlaceholder())
    else Raised("No transport or server URL configured")
  }

  /** `v.get(key, default)` on a value that should be a dict: anything else has no
      `.get` and raises `AttributeError`. */
  function GetAttr(v: Value, key: string, default: Value): (r: Outcome<Value>)
    ensures r.Returned? <==> v.Obj?
    ensures v.Obj? && key !in v.fields ==> r == Returned(default)
    ensures v.Obj? && key in v.fields ==> r == Returned(v.fields[key])
  {
    if v.Obj? then Returned(Get(v.fields, key, default)) else Raised("object has no attribute 'get'")
  }

  // ---------------------------------------------------------------- the wrappers

  /** The five calls a client can make. */
  datatype Call =
    | Initialize
    | ListResources
    | ReadResource(uri: string)
    | ListTools
    | CallTool(name: string, arguments: Dict)

  /** The `params` of `initialize`. */
  function InitializeParams(): Dict
  {
    map[
      "protocolVersion" := Str(ProtocolVersion),
      "capabilities" := Obj(map[]),
      "clientInfo" := Obj(map["name" := Str("coding-agent"), "version" := Str("1.0.0")])]
  }

  /** The request a wrapper builds around the id it drew. */
  function RequestFor(call: Call, id: string): (req: Request)
    ensures req.id == Some(id) && req.jsonrpc == "2.0"
    ensures call.Initialize? <==> req.methodName == "initialize"
    ensures call.ListResources? <==> req.methodName == "resources/list"
    ensures call.ReadResource? <==> req.methodName == "resources/read"
    ensures call.ListTools? <==> req.methodName == "tools/list"
    ensures call.CallTool? <==> req.methodName == "tools/call"
    ensures call.Initialize? ==> req.params == InitializeParams() && req.params["protocolVersion"] == Str(ProtocolVersion)
    ensures call.ReadResource? ==> req.params == map["uri" := Str(call.uri)]
    ensures call.CallTool? ==> req.params == map["name" := Str(call.name), "arguments" := Obj(call.arguments)]
    ensures call.ListResources? || call.ListTools? ==> req.params == map[]
  {
    match call
    case Initialize => NewRequest(Some(id), "initialize", InitializeParams())
    case ListResources => NewRequest(Some(id), "resources/list")
    case ReadResource(uri) => NewRequest(Some(id), "resources/read", map["uri" := Str(uri)])
    case ListTools => NewRequest(Some(id), "tools/list")
    case CallTool(name, arguments) =>
      NewRequest(Some(id), "tools/call", map["name" := Str(name), "arguments" := Obj(arguments)])
  }

  /** What a wrapper makes of the response: `initialize` returns it whole; the list
      calls take `result`, then its `resources` or `tools`, defaulting to `{}` and
      `[]`; `read_resource` and `call_tool` take `result`, defaulting to `{}`. */
  function Extract(call: Call, response: Value): (r: Outcome<Value>)
    ensures call.Initialize? ==> r == Returned(response)
    ensures !call.Initialize? ==> (r.Raised? <== !response.Obj?)
    ensures (call.ReadResource? || call.CallTool?) && response.Obj? ==>
      r == Returned(Get(response.fields, "result", Obj(map[])))
    ensures (call.ListResources? || call.ListTools?) && response.Obj? ==>
      var result := Get(response.fields, "result", Obj(map[]));
      (r.Returned? <==> result.Obj?)
      && (result.Obj? ==> r.value == Get(result.fields, if call.ListTools? then "tools" else "resources", Arr([])))
  {
    match call
    case Initialize => Returned(response)
    case ReadResource(_) => GetAttr(response, "result", Obj(map[]))
    case CallTool(_, _) => GetAttr(response, "result", Obj(map[]))
    case ListResources =>
      (match GetAttr(response, "result", Obj(map[]))
       case Raised(m) => Raised(m)
       case Returned(result) => GetAttr(result, "resources", Arr([])))
    case ListTools =>
      (match GetAttr(response, "result", Obj(map[]))
       case Raised(m) => Raised(m)
       case Returned(result) => GetAttr(result, "tools", Arr([])))
  }

  /** One wrapper call: the client after it, the request it built and its outcome. */
  datatype Exchange = Exchange(client: Client, request: Request, outcome: Outcome<Value>)

  /** A wrapper call: the id is drawn before anything is sent, so it is consumed even
      when sending raises. */
  function Perform(c: Client, call: Call): (e: Exchange)
    ensures e.client == c.(counter := c.counter + 1)
    ensures e.request == RequestFor(call, Text.NatToString(c.counter + 1))
    ensures SendRequest(c, e.request).Raised? ==> e.outcome == Raised(SendRequest(c, e.request).message)
    ensures SendRequest(c, e.request).Returned? ==> e.outcome == Extract(call, SendRequest(c, e.request).value)
  {
    var (c', id) := NextId(c);
    var req := RequestFor(call, id);
    match SendRequest(c', req)
    case Raised(m) => Exchange(c', req, Raised(m))
    case Returned(response) => Exchange(c', req, Extract(call, response))
  }

  /** A sequence of wrapper calls on one client, in call order: the k-th call (from
      0) finds the counter moved k times, once by each earlier call whatever its
      outcome. */
  function Session(c: Client, calls: seq<Call>): (es: seq<Exchange>)
    ensures |es| == |calls|
  {
    seq(|calls|, k requires 0 <= k < |calls| => Perform(c.(counter := c.counter + k), calls[k]))
  }

  /** A session is the calls made one after another: the first on the client as
      given, each later one on the client the previous call left behind. */
  lemma SessionChained(c: Client, calls: seq<Call>)
    ensures var es := Session(c, calls);
      && (|calls| > 0 ==> es[0] == Perform(c, calls[0]))
      && (forall k :: 0 < k < |calls| ==> es[k] == Perform(es[k - 1].client, calls[k]))
  {
    var es := Session(c, calls);
    if |calls| > 0 {
      assert c.(counter := c.counter + 0) == c;
    }
    forall k | 0 < k < |calls|
      ensures es[k] == Perform(es[k - 1].client, calls[k])
    {
      ChainStep(c, es[k - 1].client, k);
    }
  }

  /** The client left by call k - 1 is the one call k is made on. */
  lemma ChainStep(c: Client, prev: Client, k: nat)
    requires 0 < k && prev == c.(counter := c.counter + (k - 1) + 1)
    ensures prev == c.(counter := c.counter + k)
  {
  }

  /** The k-th call of a session carries id `str(counter + k + 1)` and the method of
      its wrapper, and leaves the counter at `counter + k + 1`. */
  lemma SessionIds(c: Client, calls: seq<Call>)
    ensures forall k :: 0 <= k < |calls| ==>
      && Session(c, calls)[k].request == RequestFor(calls[k], Text.NatToString(c.counter + k + 1))
      && Session(c, calls)[k].client.counter == c.counter + k + 1
  {
  }

  /** An id drawn from the counter parses back to the counter. */
  lemma IdParses(id: Option<string>, n: nat)
    requires id == Some(Text.NatToString(n))
    ensures id.Some? && Text.ParseNat(id.value) == Some(n)
  {
    Text.ParseNatToString(n);
  }

  /** Ids drawn at different counter values differ. */
  lemma IdsDiffer(a: Option<string>, b: Option<string>, m: nat, n: nat)
    requires a == Some(Text.NatToString(m)) && b == Some(Text.NatToString(n)) && m != n
    ensures a != b
  {
    Text.NatToStringInjective(m, n);
  }

  /** Exchanges whose ids are drawn from `base + 1` upwards: each id parses to its
      counter value, and no two coincide. */
  lemma CountedIds(es: seq<Exchange>, base: nat)
    requires forall k :: 0 <= k < |es| ==> es[k].request.id == Some(Text.NatToString(base + k + 1))
    ensures forall k :: 0 <= k < |es| ==> es[k].request.id.Some? && Text.ParseNat(es[k].request.id.value) == Some(base + k + 1)
    ensures forall j, k :: 0 <= j < k < |es| ==> es[j].request.id != es[k].request.id
  {
    forall k | 0 <= k < |es|
      ensures es[k].request.id.Some? && Text.ParseNat(es[k].request.id.value) == Some(base + k + 1)
    {
      IdParses(es[k].request.id, base + k + 1);
    }
    forall j, k | 0 <= j < k < |es|
      ensures es[j].request.id != es[k].request.id
    {
      IdsDiffer(es[j].request.id, es[k].request.id, base + j + 1, base + k + 1);
    }
  }

  /** Within one client's session the ids follow the counter and never repeat. */
  lemma SessionIdsDistinct(c: Client, calls: seq<Call>)
    ensures var es := Session(c, calls);
      && (forall k :: 0 <= k < |calls| ==> es[k].request.id.Some? && Text.ParseNat(es[k].request.id.value) == Some(c.counter + k + 1))
      && (forall j, k :: 0 <= j < k < |calls| ==> es[j].request.id != es[k].request.id)
  {
    SessionIds(c, calls);
    CountedIds(Session(c, calls), c.counter);
  }

  /** From a fresh client, ids run "1", "2", "3", … across all wrappers. */
  lemma FreshSessionIds(serverUrl: Option<string>, transport: Option<Transport>, calls: seq<Call>)
    ensures var es := Session(NewClient(serverUrl, transport), calls);
      forall k :: 0 <= k < |calls| ==> es[k].request.id.Some? && Text.ParseNat(es[k].request.id.value) == Some(k + 1)
  {
    SessionIdsDistinct(NewClient(serverUrl, transport), calls);
  }

  /** With neither transport nor URL every call raises, yet the counter still moves. */
  lemma UnconfiguredRaises(c: Client, call: Call)
    requires c.transport.None? && (c.serverUrl.None? || c.serverUrl.value == "")
    ensures Perform(c, call).outcome.Raised?
    ensures Perform(c, call).client.counter == c.counter + 1
  {
  }

  /** Over the URL placeholder, the list wrappers raise (`None.get`), while
      `read_resource` and `call_tool` return `None` and `initialize` the placeholder. */
  lemma PlaceholderResults(c: Client, call: Call)
    requires c.transport.None? && c.serverUrl.Some? && c.serverUrl.value != ""
    ensures call.ListResources? || call.ListTools? ==> Perform(c, call).outcome.Raised?
    ensures call.ReadResource? || call.CallTool? ==> Perform(c, call).outcome == Returned(Null)
    ensures call.Initialize? ==> Perform(c, call).outcome == Returned(HttpPlaceholder())
  {
  }
}

=== FILE: mcp_loopback.dfy ===
/** The client and the server wired together: a transport that validates the request
    dict, lets the server handle it and answers with the response's dict. What each
    client wrapper returns against this server follows from the two halves. */
module McpLoopback {
  import opened Common
  import opened Json
  import opened McpProtocol
  import McpServer
  import opened McpClient
  import Text

  /** The server's outcome as the transport hands it back: the response's dict, or
      the exception. */
  function Wire(o: Outcome<Response>): (r: Outcome<Value>)
    ensures o.Raised? ==> r == Raised(o.message)
    ensures o.Returned? ==> r == Returned(Obj(ResponseToValue(o.value)))
  {
    match o
    case Raised(m) => Raised(m)
    case Returned(resp) => Returned(Obj(ResponseToValue(resp)))
  }

  /** A transport whose far end is `s`. */
  function ServerTransport(s: McpServer.Server, repr: Value -> string): Transport
  {
    (d: Dict) =>
      match ParseRequest(d)
      case None => Raised("validation error for MCPRequest")
      case Some(req) => Wire(McpServer.HandleRequest(s, req, repr))
  }

  /** The response the server gives to a request the client built. */
  lemma ServerSeesClientRequest(s: McpServer.Server, repr: Value -> string, req: Request)
    ensures ServerTransport(s, repr)(RequestToValue(req)) == Wire(McpServer.HandleRequest(s, req, repr))
  {
    ParseRequestToValue(req);
  }

  function Connected(s: McpServer.Server, repr: Value -> string, counter: nat): (c: Client)
    ensures c.transport.Some? && c.counter == counter
  {
    Client(None, Some(ServerTransport(s, repr)), counter)
  }

  /** What a wrapper makes of the server's outcome: an exception passes through, a
      response is turned into its dict and extracted from. */
  function Relay(call: Call, o: Outcome<Response>): (r: Outcome<Value>)
    ensures o.Raised? ==> r == Raised(o.message)
    ensures o.Returned? ==> r == Extract(call, Obj(ResponseToValue(o.value)))
  {
    match o
    case Raised(m) => Raised(m)
    case Returned(resp) => Extract(call, Obj(ResponseToValue(resp)))
  }

  /** Any wrapper call over the loopback: the server handles exactly the request the
      wrapper built, and the wrapper extracts from the server's response. */
  lemma LoopbackPerform(s: McpServer.Server, repr: Value -> string, counter: nat, call: Call)
    ensures Perform(Connected(s, repr, counter), call).outcome
         == Relay(call, McpServer.HandleRequest(s, RequestFor(call, Text.NatToString(counter + 1)), repr))
  {
    var req := RequestFor(call, Text.NatToString(counter + 1));
    ServerSeesClientRequest(s, repr, req);
    PerformRelayed(Connected(s, repr, counter), call, McpServer.HandleRequest(s, req, repr));
  }

  /** A wrapper call whose request the transport answers with the wire form of `o`. */
  lemma PerformRelayed(c: Client, call: Call, o: Outcome<Response>)
    requires c.transport.Some?
    requires c.transport.value(RequestToValue(RequestFor(call, Text.NatToString(c.counter + 1)))) == Wire(o)
    ensures Perform(c, call).outcome == Relay(call, o)
  {
    PerformAnswered(c, call, Wire(o));
    RelayWire(call, o);
  }

  /** A wrapper call whose request the transport answers with `answer`. */
  lemma PerformAnswered(c: Client, call: Call, answer: Outcome<Value>)
    requires c.transport.Some?
    requires c.transport.value(RequestToValue(RequestFor(call, Text.NatToString(c.counter + 1)))) == answer
    ensures answer.Raised? ==> Perform(c, call).outcome == Raised(answer.message)
    ensures answer.Returned? ==> Perform(c, call).outcome == Extract(call, answer.value)
  {
  }

  /** Relaying is extracting from what the wire carries. */
  lemma RelayWire(call: Call, o: Outcome<Response>)
    ensures Wire(o).Raised? ==> Relay(call, o) == Raised(Wire(o).message)
    ensures Wire(o).Returned? ==> Relay(call, o) == Extract(call, Wire(o).value)
  {
  }

  /** A result response read back by a wrapper that takes `result`, then `key`. */
  lemma ResultField(call: Call, id: Option<string>, key: string, v: Value)
    requires call.ListTools? || call.ListResources?
    requires key == if call.ListTools? then "tools" else "resources"
    ensures Extract(call, Obj(ResponseToValue(ResultResponse(id, Obj(map[key := v]))))) == Returned(v)
  {
  }

  /** An error response read back by `read_resource` or `call_tool`: its `result`
      key holds `None`, and `.get` returns it. */
  lemma ErrorResult(call: Call, id: Option<string>, code: int, message: Value)
    requires call.ReadResource? || call.CallTool?
    ensures Extract(call, Obj(ResponseToValue(ErrorResponse(id, code, message)))) == Returned(Null)
  {
  }

  /** `initialize` against the server: the reply echoes the request's id and carries the
      protocol revision the client asked for. */
  lemma InitializeRoundTrip(s: McpServer.Server, repr: Value -> string, counter: nat)
    ensures var e := Perform(Connected(s, repr, counter), Initialize);
      && e.outcome.Returned? && e.outcome.value.Obj?
      && e.outcome.value.fields["id"] == Str(Text.NatToString(counter + 1))
      && e.outcome.value.fields["error"] == Null
      && e.outcome.value.fields["result"] == McpServer.InitializeResult()
      && McpServer.InitializeResult().fields["protocolVersion"] == InitializeParams()["protocolVersion"]
  {
    var id := Text.NatToString(counter + 1);
    LoopbackPerform(s, repr, counter, Initialize);
    assert McpServer.HandleRequest(s, RequestFor(Initialize, id), repr)
        == Returned(ResultResponse(Some(id), McpServer.InitializeResult()));
  }

  /** `list_tools` against the server returns the registered tools' dicts, in
      registration order. */
  lemma ListToolsRoundTrip(s: McpServer.Server, repr: Value -> string, counter: nat)
    ensures Perform(Connected(s, repr, counter), ListTools).outcome == Returned(Arr(McpServer.ToolList(s.tools)))
  {
    var id := Text.NatToString(counter + 1);
    var v := Arr(McpServer.ToolList(s.tools));
    LoopbackPerform(s, repr, counter, ListTools);
    assert McpServer.HandleRequest(s, RequestFor(ListTools, id), repr)
        == Returned(ResultResponse(Some(id), Obj(map["tools" := v])));
    ResultField(ListTools, Some(id), "tools", v);
  }

  /** `list_resources` against the server returns the registered resources' dicts,
      in registration order. */
  lemma ListResourcesRoundTrip(s: McpServer.Server, repr: Value -> string, counter: nat)
    ensures Perform(Connected(s, repr, counter), ListResources).outcome == Returned(Arr(McpServer.ResourceList(s.resources)))
  {
    var id := Text.NatToString(counter + 1);
    var v := Arr(McpServer.ResourceList(s.resources));
    LoopbackPerform(s, repr, counter, ListResources);
    assert McpServer.HandleRequest(s, RequestFor(ListResources, id), repr)
        == Returned(ResultResponse(Some(id), Obj(map["resources" := v])));
    ResultField(ListResources, Some(id), "resources", v);
  }

  /** `read_resource` against this server returns `None`: the server does not handle
      "resources/read", and its error response carries an explicit `"result": None`,
      which `.get("result", {})` returns as is. */
  lemma ReadResourceRoundTrip(s: McpServer.Server, repr: Value -> string, counter: nat, uri: string)
    ensures Perform(Connected(s, repr, counter), ReadResource(uri)).outcome == Returned(Null)
  {
    var req := RequestFor(ReadResource(uri), Text.NatToString(counter + 1));
    LoopbackPerform(s, repr, counter, ReadResource(uri));
    McpServer.ReadIsNotFound(s, req.id, req.params, repr);
    ErrorResult(ReadResource(uri), req.id, MethodNotFound, Str("Method not found: " + "resources/read"));
  }

  /** `call_tool` against a server without a registry returns `None` for the same
      reason. */
  lemma CallToolWithoutRegistry(s: McpServer.Server, repr: Value -> string, counter: nat, name: string, arguments: Dict)
    requires s.registry.None?
    ensures Perform(Connected(s, repr, counter), CallTool(name, arguments)).outcome == Returned(Null)
  {
    var req := RequestFor(CallTool(name, arguments), Text.NatToString(counter + 1));
    LoopbackPerform(s, repr, counter, CallTool(name, arguments));
    assert McpServer.HandleRequest(s, req, repr)
        == Returned(ErrorResponse(req.id, InternalError, Str("Tool registry not available")));
    ErrorResult(CallTool(name, arguments), req.id, InternalError, Str("Tool registry not available"));
  }
}

=== FILE: mcp_protocol.dfy ===
/** Model Context Protocol messages (revision "2024-11-05") carried as JSON-RPC 2.0
    requests and responses, with the dict form `.dict()` gives them and the
    validation that reads them back. */
module McpProtocol {
  import opened Common
  import opened Json

  /** The protocol revision both ends announce. */
  const ProtocolVersion: string := "2024-11-05"

  /** JSON-RPC 2.0 error codes (section 5.1 of the JSON-RPC 2.0 Specification). */
  const MethodNotFound: int := -32601
  const InternalError: int := -32603

  // ---------------------------------------------------------------- optional strings

  /** An `Optional[str]` field as it appears in a dict. */
  function OptStr(o: Option<string>): Value
  {
    if o.Some? then Str(o.value) else Null
  }

  /** Validation of an `Optional[str]` field: `None` or a string. */
  function ReadOptStr(v: Value): Option<Option<string>>
  {
    match v
    case Null => Some(None)
    case Str(s) => Some(Some(s))
    case _ => None
  }

  lemma ReadOptStrInverse(o: Option<string>)
    ensures ReadOptStr(OptStr(o)) == Some(o)
  {
  }

  // ---------------------------------------------------------------- requests

  datatype Request = Request(jsonrpc: string, id: Option<string>, methodName: string, params: Dict)

  /** `MCPRequest(id=…, method=…, params=…)`; `jsonrpc` is always the default. */
  function NewRequest(id: Option<string>, methodName: string, params: Dict := map[]): (r: Request)
    ensures r.jsonrpc == "2.0" && r.id == id && r.methodName == methodName && r.params == params
  {
    Request("2.0", id, methodName, params)
  }

  /** `request.dict()`. */
  function RequestToValue(r: Request): Dict
  {
    map["jsonrpc" := Str(r.jsonrpc), "id" := OptStr(r.id), "method" := Str(r.methodName), "params" := Obj(r.params)]
  }

  /** `MCPRequest(**d)`: `method` is required; the other fields take their defaults
      when absent and must have their declared types when present. */
  function ParseRequest(d: Dict): (r: Option<Request>)
    ensures r.Some? ==> "method" in d && d["method"] == Str(r.value.methodName)
    ensures "method" !in d ==> r.None?
    ensures r.Some? && "id" !in d ==> r.value.id.None?
    ensures r.Some? && "params" !in d ==> r.value.params == map[]
    ensures r.Some? && "jsonrpc" !in d ==> r.value.jsonrpc == "2.0"
  {
    var jsonrpc := Get(d, "jsonrpc", Str("2.0"));
    var id := ReadOptStr(Get(d, "id", Null));
    var params := Get(d, "params", Obj(map[]));
    if "method" in d && d["method"].Str? && jsonrpc.Str? && id.Some? && params.Obj? then
      Some(Request(jsonrpc.s, id.value, d["method"].s, params.fields))
    else None
  }

  /** Validation reads back what `.dict()` wrote. */
  lemma ParseRequestToValue(r: Request)
    ensures ParseRequest(RequestToValue(r)) == Some(r)
  {
    ReadOptStrInverse(r.id);
  }

  // ---------------------------------------------------------------- responses

  datatype Response = Response(jsonrpc: string, id: Option<string>, result: Value, error: Option<Dict>)

  /** `MCPResponse(id=…, result=…)`. */
  function ResultResponse(id: Option<string>, result: Value): (r: Response)
    ensures r.jsonrpc == "2.0" && r.id == id && r.result == result && r.error.None?
  {
    Response("2.0", id, result, None)
  }

  /** `MCPResponse(id=…, error={"code": code, "message": message})`. */
  function ErrorResponse(id: Option<string>, code: int, message: Value): (r: Response)
    ensures r.jsonrpc == "2.0" && r.id == id && r.result == Null
    ensures r.error == Some(map["code" := Int(code), "message" := message])
  {
    Response("2.0", id, Null, Some(map["code" := Int(code), "message" := message]))
  }

  /** Section 5 of the JSON-RPC 2.0 Specification: a response carries a result or an
      error, never both and never neither. */
  predicate WellFormed(r: Response)
  {
    (r.error.Some? <==> r.result == Null) && r.jsonrpc == "2.0"
  }

  /** The record's defaults do not make a well-formed response: only the two
      constructors above do, and only for a non-`None` result. */
  lemma DefaultResponseNotWellFormed()
    ensures !WellFormed(Response("2.0", None, Null, None))
    ensures !WellFormed(Response("2.0", None, Int(1), Some(map[])))
    ensures forall id, code, message :: WellFormed(ErrorResponse(id, code, message))
    ensures forall id, v :: v != Null ==> WellFormed(ResultResponse(id, v))
  {
  }

  /** `response.dict()`. */
  function ResponseToValue(r: Response): Dict
  {
    map["jsonrpc" := Str(r.jsonrpc), "id" := OptStr(r.id), "result" := r.result,
        "error" := if r.error.Some? then Obj(r.error.value) else Null]
  }

  /** `MCPResponse(**d)`: every field is optional. */
  function ParseResponse(d: Dict): (r: Option<Response>)
    ensures r.Some? && "result" !in d ==> r.value.result == Null
    ensures r.Some? && "error" !in d ==> r.value.error.None?
    ensures r.Some? && "error" in d ==> (d["error"].Null? <==> r.value.error.None?)
  {
    var jsonrpc := Get(d, "jsonrpc", Str("2.0"));
    var id := ReadOptStr(Get(d, "id", Null));
    var error := Get(d, "error", Null);
    if jsonrpc.Str? && id.Some? && (error.Null? || error.Obj?) then
      Some(Response(jsonrpc.s, id.value, Get(d, "result", Null), if error.Obj? then Some(error.fields) else None))
    else None
  }

  lemma ParseResponseToValue(r: Response)
    ensures ParseResponse(ResponseToValue(r)) == Some(r)
  {
    ReadOptStrInverse(r.id);
  }

  // ---------------------------------------------------------------- resources and tools

  datatype Resource = Resource(uri: string, name: string, description: Option<string>, mimeType: Option<string>)

  /** `MCPResource(uri=…, name=…)`. */
  function NewResource(uri: string, name: string): (r: Resource)
    ensures r.uri == uri && r.name == name && r.description.None? && r.mimeType.None?
  {
    Resource(uri, name, None, None)
  }

  function ResourceToValue(r: Resource): Value
  {
    Obj(map["uri" := Str(r.uri), "name" := Str(r.name),
            "description" := OptStr(r.description), "mimeType" := OptStr(r.mimeType)])
  }

  /** `MCPResource(**d)`: `uri` and `name` are required strings. */
  function ParseResource(d: Dict): (r: Option<Resource>)
    ensures "uri" !in d || "name" !in d ==> r.None?
    ensures r.Some? ==> d["uri"] == Str(r.value.uri) && d["name"] == Str(r.value.name)
  {
    var description := ReadOptStr(Get(d, "description", Null));
    var mimeType := ReadOptStr(Get(d, "mimeType", Null));
    if "uri" in d && d["uri"].Str? && "name" in d && d["name"].Str? && description.Some? && mimeType.Some? then
      Some(Resource(d["uri"].s, d["name"].s, description.value, mimeType.value))
    else None
  }

  lemma ParseResourceToValue(r: Resource)
    ensures ResourceToValue(r).Obj? && ParseResource(ResourceToValue(r).fields) == Some(r)
  {
    ReadOptStrInverse(r.description);
    ReadOptStrInverse(r.mimeType);
  }

  datatype McpTool = McpTool(name: string, description: string, inputSchema: Dict)

  /** `MCPTool(name=…, description=…)`. */
  function NewTool(name: string, description: string): (t: McpTool)
    ensures t.name == name && t.description == description && t.inputSchema == map[]
  {
    McpTool(name, description, map[])
  }

  function ToolToValue(t: McpTool): Value
  {
    Obj(map["name" := Str(t.name), "description" := Str(t.description), "inputSchema" := Obj(t.inputSchema)])
  }

  /** `MCPTool(**d)`: `name` and `description` are required strings. */
  function ParseTool(d: Dict): (r: Option<McpTool>)
    ensures "name" !in d || "description" !in d ==> r.None?
    ensures r.Some? ==> d["name"] == Str(r.value.name) && d["description"] == Str(r.value.description)
    ensures r.Some? && "inputSchema" !in d ==> r.value.inputSchema == map[]
  {
    var schema := Get(d, "inputSchema", Obj(map[]));
    if "name" in d && d["name"].Str? && "description" in d && d["description"].Str? && schema.Obj? then
      Some(McpTool(d["name"].s, d["description"].s, schema.fields))
    else None
  }

  lemma ParseToolToValue(t: McpTool)
    ensures ToolToValue(t).Obj? && ParseTool(ToolToValue(t).fields) == Some(t)
  {
  }
}

=== FILE: mcp_server.dfy ===
/** The MCP server: registered resources and tools, and dispatch of a request on its
    method string. */
module McpServer {
  import opened Common
  import opened Json
  import opened McpProtocol
  import ToolBase

  /** `MCPServer`: an optional tool registry plus the registered resources and tools,
      in registration order. */
  datatype Server = Server(registry: Option<ToolBase.Registry>, resources: seq<Resource>, tools: seq<McpTool>)

  /** `MCPServer(tool_registry)`: nothing registered yet. */
  function NewServer(registry: Option<ToolBase.Registry>): (s: Server)
    ensures s.registry == registry && s.resources == [] && s.tools == []
  {
    Server(registry, [], [])
  }

  /** `register_resource`: appends, keeping duplicates. */
  function RegisterResource(s: Server, r: Resource): (s': Server)
    ensures s'.resources == s.resources + [r]
    ensures s'.registry == s.registry && s'.tools == s.tools
  {
    s.(resources := s.resources + [r])
  }

  /** `register_tool`: appends, keeping duplicates. */
  function RegisterTool(s: Server, t: McpTool): (s': Server)
    ensures s'.tools == s.tools + [t]
    ensures s'.registry == s.registry && s'.resources == s.resources
  {
    s.(tools := s.tools + [t])
  }

  /** The methods the server answers; everything else is "Method not found". */
  predicate Handled(m: string)
  {
    m in {"initialize", "resources/list", "tools/list", "tools/call"}
  }

  /** The fixed `initialize` result. */
  function InitializeResult(): Value
  {
    Obj(map[
      "protocolVersion" := Str(ProtocolVersion),
      "capabilities" := Obj(map["resources" := Obj(map[]), "tools" := Obj(map[])]),
      "serverInfo" := Obj(map["name" := Str("coding-agent"), "version" := Str("1.0.0")])])
  }

  function ResourceList(rs: seq<Resource>): (v: seq<Value>)
    ensures |v| == |rs|
    ensures forall i :: 0 <= i < |rs| ==> v[i] == ResourceToValue(rs[i])
  {
    seq(|rs|, i requires 0 <= i < |rs| => ResourceToValue(rs[i]))
  }

  function ToolList(ts: seq<McpTool>): (v: seq<Value>)
    ensures |v| == |ts|
    ensures forall i :: 0 <= i < |ts| ==> v[i] == ToolToValue(ts[i])
  {
    seq(|ts|, i requires 0 <= i < |ts| => ToolToValue(ts[i]))
  }

  /** The result of a successful tool call: one text item holding `str(result)`. */
  function TextContent(text: string): Value
  {
    Obj(map["content" := Arr([Obj(map["type" := Str("text"), "text" := Str(text)])])])
  }

  /** `registry.execute_tool(name, **arguments)` with a name taken from the request:
      a string name is looked up; an unhashable one makes the lookup raise; any other
      is never registered, so it is reported as not found under its `str()`. Passing
      `**arguments` raises unless they are a dict, and raises when they carry a
      `"self"` or `"name"` key, which collides with the method's own parameters. */
  function CallRegistry(reg: ToolBase.Registry, name: Value, arguments: Value, repr: Value -> string): (r: Outcome<Dict>)
    ensures r.Returned? <==>
      arguments.Obj? && "self" !in arguments.fields && "name" !in arguments.fields && !name.Arr? && !name.Obj?
    ensures r.Returned? && name.Str? ==> r.value == ToolBase.ExecuteTool(reg, name.s, arguments.fields)
    ensures r.Returned? && !name.Str? ==> r.value == ToolBase.NotFound(PyStr(name, repr))
  {
    if !arguments.Obj? then Raised("execute_tool() argument after ** must be a mapping")
    else if "self" in arguments.fields then Raised("execute_tool() got multiple values for argument 'self'")
    else if "name" in arguments.fields then Raised("execute_tool() got multiple values for argument 'name'")
    else match name
      case Str(s) => Returned(ToolBase.ExecuteTool(reg, s, arguments.fields))
      case Arr(_) => Raised("unhashable type: 'list'")
      case Obj(_) => Raised("unhashable type: 'dict'")
      case _ => Returned(ToolBase.NotFound(PyStr(name, repr)))
  }

  /** `_handle_tool_call`. */
  function HandleToolCall(s: Server, req: Request, repr: Value -> string): (r: Outcome<Response>)
    ensures s.registry.None? ==> r == Returned(ErrorResponse(req.id, InternalError, Str("Tool registry not available")))
    ensures r.Returned? ==> WellFormed(r.value) && r.value.id == req.id
  {
    var name := Get(req.params, "name", Null);
    var arguments := Get(req.params, "arguments", Obj(map[]));
    if s.registry.None? then
      Returned(ErrorResponse(req.id, InternalError, Str("Tool registry not available")))
    else
      match CallRegistry(s.registry.value, name, arguments, repr)
      case Raised(m) => Raised(m)
      case Returned(result) =>
        if Truthy(Get(result, "success", Null)) then
          Returned(ResultResponse(req.id, TextContent(PyStr(Get(result, "result", Null), repr))))
        else
          Returned(ErrorResponse(req.id, InternalError, Get(result, "error", Str("Tool execution failed"))))
  }

  /** `handle_request`. `repr` renders containers for `str()`. */
  function HandleRequest(s: Server, req: Request, repr: Value -> string): (r: Outcome<Response>)
    ensures r.Raised? ==> req.methodName == "tools/call" && s.registry.Some?
    ensures r.Returned? ==> WellFormed(r.value) && r.value.id == req.id
    ensures (r.Returned? && r.value.error.Some? && Get(r.value.error.value, "code", Null) == Int(MethodNotFound))
            <==> !Handled(req.methodName)
    ensures !Handled(req.methodName) ==>
      r == Returned(ErrorResponse(req.id, MethodNotFound, Str("Method not found: " + req.methodName)))
  {
    match req.methodName
    case "initialize" => Returned(ResultResponse(req.id, InitializeResult()))
    case "resources/list" => Returned(ResultResponse(req.id, Obj(map["resources" := Arr(ResourceList(s.resources))])))
    case "tools/list" => Returned(ResultResponse(req.id, Obj(map["tools" := Arr(ToolList(s.tools))])))
    case "tools/call" => HandleToolCall(s, req, repr)
    case _ => Returned(ErrorResponse(req.id, MethodNotFound, Str("Method not found: " + req.methodName)))
  }

  /** `resources/read` is requested by the client but not answered by the server. */
  lemma ReadIsNotFound(s: Server, id: Option<string>, params: Dict, repr: Value -> string)
    ensures HandleRequest(s, NewRequest(id, "resources/read", params), repr)
         == Returned(ErrorResponse(id, MethodNotFound, Str("Method not found: " + "resources/read")))
  {
    assert "resources/read"[10] != "resources/list"[10];
  }

  /** The server announces the same protocol revision the client asks for. */
  lemma InitializeAnnouncesVersion(s: Server, req: Request, repr: Value -> string)
    requires req.methodName == "initialize"
    ensures HandleRequest(s, req, repr).Returned?
    ensures var r := HandleRequest(s, req, repr).value.result;
      r.Obj? && r.fields["protocolVersion"] == Str(ProtocolVersion)
      && r.fields["serverInfo"] == Obj(map["name" := Str("coding-agent"), "version" := Str("1.0.0")])
  {
  }

  /** Registers a sequence of resources in order. */
  function RegisterResources(s: Server, rs: seq<Resource>): (s': Server)
    ensures s'.registry == s.registry && s'.tools == s.tools
    decreases |rs|
  {
    if rs == [] then s else RegisterResources(RegisterResource(s, rs[0]), rs[1..])
  }

  lemma {:induction false} RegisterResourcesAppends(s: Server, rs: seq<Resource>)
    ensures RegisterResources(s, rs).resources == s.resources + rs
    decreases |rs|
  {
    if rs != [] {
      RegisterResourcesAppends(RegisterResource(s, rs[0]), rs[1..]);
      assert s.resources + [rs[0]] + rs[1..] == s.resources + rs;
    }
  }

  /** `resources/list` on a fresh server returns the registered resources' dicts in
      registration order, duplicates kept, and `[]` before any registration. */
  lemma ListedInRegistrationOrder(registry: Option<ToolBase.Registry>, rs: seq<Resource>, id: Option<string>, repr: Value -> string)
    ensures var r := HandleRequest(RegisterResources(NewServer(registry), rs), NewRequest(id, "resources/list"), repr);
      && r.Returned?
      && r.value.result == Obj(map["resources" := Arr(ResourceList(rs))])
      && (rs == [] ==> r.value.result == Obj(map["resources" := Arr([])]))
  {
    RegisterResourcesAppends(NewServer(registry), rs);
    assert [] + rs == rs;
  }

  /** Missing `arguments` mean `{}`: the tool runs on no arguments. */
  lemma MissingArgumentsAreEmpty(s: Server, id: Option<string>, name: string, repr: Value -> string)
    requires s.registry.Some?
    ensures HandleToolCall(s, NewRequest(id, "tools/call", map["name" := Str(name)]), repr)
         == HandleToolCall(s, NewRequest(id, "tools/call", map["name" := Str(name), "arguments" := Obj(map[])]), repr)
  {
  }

  /** A registered tool called through the server: its success becomes a text item
      holding `str(result)`, and its failure an internal error carrying the tool's
      error, or "Tool execution failed" when it gives none. Arguments named `self` or
      `name` make the call itself raise. */
  lemma ToolCallThroughServer(s: Server, reg: ToolBase.Registry, t: ToolBase.Tool, id: Option<string>, args: Dict, repr: Value -> string)
    requires s.registry == Some(ToolBase.Register(reg, t))
    requires t.execute(args).Returned?
    ensures var d := t.execute(args).value;
      var r := HandleRequest(s, NewRequest(id, "tools/call", map["name" := Str(t.name), "arguments" := Obj(args)]), repr);
      && (r.Returned? <==> "self" !in args && "name" !in args)
      && (r.Returned? && Truthy(Get(d, "success", Null)) ==> r.value.result == TextContent(PyStr(Get(d, "result", Null), repr)))
      && (r.Returned? && !Truthy(Get(d, "success", Null)) ==>
            r.value.error == Some(map["code" := Int(InternalError), "message" := Get(d, "error", Str("Tool execution failed"))]))
  {
    var req := NewRequest(id, "tools/call", map["name" := Str(t.name), "arguments" := Obj(args)]);
    assert HandleRequest(s, req, repr) == HandleToolCall(s, req, repr);
    ToolCallHandled(s, reg, t, req, args, repr);
  }

  /** `_handle_tool_call` on a request naming a registered tool. */
  lemma ToolCallHandled(s: Server, reg: ToolBase.Registry, t: ToolBase.Tool, req: Request, args: Dict, repr: Value -> string)
    requires s.registry == Some(ToolBase.Register(reg, t))
    requires t.execute(args).Returned?
    requires Get(req.params, "name", Null) == Str(t.name) && Get(req.params, "arguments", Obj(map[])) == Obj(args)
    ensures var d := t.execute(args).value;
      var r := HandleToolCall(s, req, repr);
      && (r.Returned? <==> "self" !in args && "name" !in args)
      && (r.Returned? && Truthy(Get(d, "success", Null)) ==> r.value.result == TextContent(PyStr(Get(d, "result", Null), repr)))
      && (r.Returned? && !Truthy(Get(d, "success", Null)) ==>
            r.value.error == Some(map["code" := Int(InternalError), "message" := Get(d, "error", Str("Tool execution failed"))]))
  {
    if "self" !in args && "name" !in args {
      RegisteredCall(reg, t, args, repr);
    }
  }

  /** The registry lookup behind `tools/call` reaches the registered tool. */
  lemma RegisteredCall(reg: ToolBase.Registry, t: ToolBase.Tool, args: Dict, repr: Value -> string)
    requires "self" !in args && "name" !in args
    requires t.execute(args).Returned?
    ensures CallRegistry(ToolBase.Register(reg, t), Str(t.name), Obj(args), repr) == Returned(t.execute(args).value)
  {
    ToolBase.ExecuteRegistered(reg, t, args);
  }

  /** A name that is not a string is never registered: it is reported as not found
      under its `str()`, a float by its `repr`. */
  lemma FloatNameNotFound(s: Server, id: Option<string>, f: real, repr: Value -> string)
    requires s.registry.Some?
    ensures var r := HandleRequest(s, NewRequest(id, "tools/call", map["name" := Float(f), "arguments" := Obj(map[])]), repr);
      r == Returned(ErrorResponse(id, InternalError, Str("Tool '" + repr(Float(f)) + "' not found")))
  {
  }

  /** Arguments carrying `self` collide with the bound method's own parameter. */
  lemma SelfArgumentRaises(s: Server, id: Option<string>, name: string, args: Dict, repr: Value -> string)
    requires s.registry.Some? && "self" in args
    ensures HandleRequest(s, NewRequest(id, "tools/call", map["name" := Str(name), "arguments" := Obj(args)]), repr).Raised?
  {
  }
}

=== FILE: profiling_tools.dfy ===
/** The nsys profiling tool up to the point where it runs the profiler: where the
    report and the database go, the command line, and the environment. Running the
    commands is not modelled. Also the rules that turn an analysis into optimisation
    suggestions. */
module ProfilingTools {
  import opened Common
  import opened Json
  import opened FileSystem
  import Text

  // ---------------------------------------------------------------- inputs

  /** The arguments of `profile_with_nsys`. */
  datatype ProfileRequest = ProfileRequest(
    scriptPath: string,
    outputName: Option<string>,
    nsysArgs: string,
    scriptArgs: string,
    launcher: string,
    launcherArgs: string,
    nprocPerNode: int,
    cudaVisibleDevices: Option<string>,
    envVars: string)

  /** The default `nsys_args`. */
  const DefaultTrace := "--trace=cuda,nvtx,osrt"

  /** The request with every optional argument at its default. */
  function DefaultRequest(scriptPath: string): (q: ProfileRequest)
    ensures q.scriptPath == scriptPath && q.outputName.None?
    ensures q.launcher == "python" && q.nprocPerNode == 1
  {
    ProfileRequest(scriptPath, None, DefaultTrace, "", "python", "", 1, None, "")
  }

  /** What the tool asks of its host: `pathlib`, whether a path exists, whether
      `nsys --version` succeeds, `shlex.split` (which raises on an unclosed quote),
      `json.loads` (`None` when the text is not JSON), the `repr` of containers, and
      `os.environ`. */
  datatype Host = Host(
    ops: PathOps,
    pathExists: string -> bool,
    nsysInstalled: bool,
    split: string -> Outcome<seq<string>>,
    decode: string -> Option<Value>,
    repr: Value -> string,
    environ: map<string, string>)

  // ---------------------------------------------------------------- command line

  /** `shlex.split(s)` when `s` is non-empty; an empty string adds nothing. */
  function SplitIfAny(h: Host, s: string): (r: Outcome<seq<string>>)
    ensures s == "" ==> r == Returned([])
    ensures s != "" ==> r == h.split(s)
  {
    if s == "" then Returned([]) else h.split(s)
  }

  /** `--nproc_per_node=` with at least one process. */
  function NprocFlag(n: int): string
  {
    "--nproc_per_node=" + Text.IntToString(if n < 1 then 1 else n)
  }

  /** The flag always asks for a positive number of processes, and for exactly `n`
      when `n` is positive. */
  lemma NprocAtLeastOne(n: int)
    ensures var f := NprocFlag(n);
      && |f| > 17 && f[..17] == "--nproc_per_node="
      && Text.ParseNat(f[17..]) == Some(if n < 1 then 1 else n)
  {
    var m := if n < 1 then 1 else n;
    Text.ParseNatToString(m);
    assert NprocFlag(n)[17..] == Text.NatToString(m);
  }

  /** The launcher part of the command: a stripped empty launcher means `python`;
      `python` and `python3` stand alone; `torchrun` gets the process count; anything
      else is split like a shell line. */
  function LauncherCmd(h: Host, launcher: string, nproc: int): (r: Outcome<seq<string>>)
    ensures Text.AllSpace(launcher) ==> r == Returned(["python"])
    ensures Text.Strip(launcher) in {"python", "python3"} ==> r == Returned([Text.Strip(launcher)])
    ensures Text.Strip(launcher) == "torchrun" ==> r == Returned(["torchrun", NprocFlag(nproc)])
    ensures Text.Strip(launcher) !in {"", "python", "python3", "torchrun"} ==> r == h.split(Text.Strip(launcher))
    ensures r.Raised? ==> r == h.split(Text.Strip(launcher))
  {
    var l := if Text.Strip(launcher) == "" then "python" else Text.Strip(launcher);
    if l == "python" || l == "python3" then Returned([l])
    else if l == "torchrun" then Returned(["torchrun", NprocFlag(nproc)])
    else h.split(l)
  }

  /** The command line from its already split pieces. */
  function Assemble(report: string, nsysExtra: seq<string>, launcherCmd: seq<string>,
                    launcherExtra: seq<string>, script: string, scriptExtra: seq<string>): (argv: seq<string>)
    ensures |argv| == 5 + |nsysExtra| + |launcherCmd| + |launcherExtra| + |scriptExtra|
    ensures argv[..4] == ["nsys", "profile", "--output", report]
    ensures argv[|argv| - |scriptExtra| - 1] == script
    ensures argv[|argv| - |scriptExtra|..] == scriptExtra
  {
    var head := ["nsys", "profile", "--output", report] + nsysExtra + launcherCmd + launcherExtra;
    var argv := head + [script] + scriptExtra;
    assert argv[..4] == head[..4];
    assert argv[|argv| - |scriptExtra|..] == scriptExtra;
    argv
  }

  /** `nsys profile --output <report> [nsys args] <launcher> [launcher args] <script>
      [script args]`; a split that raises aborts the whole command. */
  function Command(h: Host, q: ProfileRequest, report: string, script: string): (r: Outcome<seq<string>>)
    ensures r.Returned? <==>
      SplitIfAny(h, q.nsysArgs).Returned? && LauncherCmd(h, q.launcher, q.nprocPerNode).Returned?
      && SplitIfAny(h, q.launcherArgs).Returned? && SplitIfAny(h, q.scriptArgs).Returned?
    ensures r.Returned? ==>
      r.value == Assemble(report, SplitIfAny(h, q.nsysArgs).value, LauncherCmd(h, q.launcher, q.nprocPerNode).value,
                          SplitIfAny(h, q.launcherArgs).value, script, SplitIfAny(h, q.scriptArgs).value)
  {
    match SplitIfAny(h, q.nsysArgs)
    case Raised(m) => Raised(m)
    case Returned(na) =>
      match LauncherCmd(h, q.launcher, q.nprocPerNode)
      case Raised(m) => Raised(m)
      case Returned(lc) =>
        match SplitIfAny(h, q.launcherArgs)
        case Raised(m) => Raised(m)
        case Returned(la) =>
          match SplitIfAny(h, q.scriptArgs)
          case Raised(m) => Raised(m)
          case Returned(sa) => Returned(Assemble(report, na, lc, la, script, sa))
  }

  // ---------------------------------------------------------------- environment

  /** The entries of a decoded `env_vars` object, every value passed through `str()`. */
  function Stringified(h: Host, fields: map<string, Value>): (m: map<string, string>)
    ensures m.Keys == fields.Keys
    ensures forall k :: k in m ==> m[k] == PyStr(fields[k], h.repr)
  {
    map k | k in fields :: PyStr(fields[k], h.repr)
  }

  /** The entries `env_vars` adds: none when it is empty. */
  function Extra(h: Host, q: ProfileRequest): map<string, string>
  {
    if q.envVars != "" && h.decode(q.envVars).Some? && h.decode(q.envVars).value.Obj?
    then Stringified(h, h.decode(q.envVars).value.fields) else map[]
  }

  /** Whether CUDA_VISIBLE_DEVICES is to be set. */
  predicate SetsCuda(q: ProfileRequest)
  {
    q.cudaVisibleDevices.Some? && q.cudaVisibleDevices.value != ""
  }

  /** The child's environment: `os.environ`, then `CUDA_VISIBLE_DEVICES` when one is
      given, then the `env_vars` object's entries; `None` when `env_vars` is non-empty
      but not a JSON object. The object's entries win over everything;
      `CUDA_VISIBLE_DEVICES` is set unless the object sets it too; every other
      inherited variable is passed through unchanged, and no other variable appears. */
  function Environment(h: Host, q: ProfileRequest): (r: Option<map<string, string>>)
    ensures r.None? <==> q.envVars != "" && !(h.decode(q.envVars).Some? && h.decode(q.envVars).value.Obj?)
    ensures r.Some? ==>
      var env := r.value;
      && (forall k :: k in Extra(h, q) ==> k in env && env[k] == Extra(h, q)[k])
      && (SetsCuda(q) && "CUDA_VISIBLE_DEVICES" !in Extra(h, q) ==>
            "CUDA_VISIBLE_DEVICES" in env && env["CUDA_VISIBLE_DEVICES"] == q.cudaVisibleDevices.value)
      && (forall k :: k in h.environ && k !in Extra(h, q) && !(SetsCuda(q) && k == "CUDA_VISIBLE_DEVICES") ==>
            k in env && env[k] == h.environ[k])
      && (forall k :: k in env ==> k in h.environ || k in Extra(h, q) || (SetsCuda(q) && k == "CUDA_VISIBLE_DEVICES"))
  {
    var base := if SetsCuda(q) then h.environ["CUDA_VISIBLE_DEVICES" := q.cudaVisibleDevices.value] else h.environ;
    if q.envVars == "" then Some(base)
    else
      match h.decode(q.envVars)
      case Some(Obj(fields)) => Some(base + Stringified(h, fields))
      case _ => None
  }

  // ---------------------------------------------------------------- the tool up to the run

  /** Everything the profiler run needs: the command line, the environment, and the
      files it is to produce. */
  datatype Plan = Plan(
    argv: seq<string>,
    env: map<string, string>,
    script: string,
    outputName: string,
    report: string,
    database: string)

  /** Either the run is prepared or the tool has already answered with an error. */
  datatype Prepared = Ready(plan: Plan) | Stopped(error: string)

  const NsysMissing := "nsys command not found. Please install NVIDIA Nsight Systems."
  const EnvVarsNotObject := "env_vars must be a JSON object string"

  /** The script argument resolved against the workspace. */
  function ScriptOf(h: Host, workspace: string, q: ProfileRequest): string
  {
    Resolve(h.ops, workspace, q.scriptPath)
  }

  /** `output_name`, or the script's stem when none is given. */
  function NameOf(h: Host, workspace: string, q: ProfileRequest): string
  {
    q.outputName.GetOr(h.ops.stem(ScriptOf(h, workspace, q)))
  }

  function ReportOf(h: Host, workspace: string, q: ProfileRequest): string
  {
    h.ops.join(h.ops.parent(ScriptOf(h, workspace, q)), NameOf(h, workspace, q) + ".nsys-rep")
  }

  function DatabaseOf(h: Host, workspace: string, q: ProfileRequest): string
  {
    h.ops.join(h.ops.parent(ScriptOf(h, workspace, q)), NameOf(h, workspace, q) + ".sqlite")
  }

  /** `profile_with_nsys` up to the profiler run. The checks come in order: the script
      must exist, then `nsys` must be installed, then the command line must split, then
      `env_vars` must be an object. */
  function Prepare(h: Host, workspace: string, q: ProfileRequest): (r: Prepared)
    ensures var script := ScriptOf(h, workspace, q);
      var cmd := Command(h, q, ReportOf(h, workspace, q), script);
      && (!h.pathExists(script) ==> r == Stopped("Script not found: " + q.scriptPath))
      && (h.pathExists(script) && !h.nsysInstalled ==> r == Stopped(NsysMissing))
      && (h.pathExists(script) && h.nsysInstalled && cmd.Raised? ==> r == Stopped("Profiling failed: " + cmd.message))
      && (h.pathExists(script) && h.nsysInstalled && cmd.Returned? && Environment(h, q).None? ==> r == Stopped(EnvVarsNotObject))
      && (r.Ready? <==> h.pathExists(script) && h.nsysInstalled && cmd.Returned? && Environment(h, q).Some?)
      && (r.Ready? ==>
            && r.plan.argv == cmd.value && r.plan.env == Environment(h, q).value
            && r.plan.script == script && r.plan.outputName == NameOf(h, workspace, q)
            && r.plan.report == ReportOf(h, workspace, q) && r.plan.database == DatabaseOf(h, workspace, q))
  {
    var script := ScriptOf(h, workspace, q);
    if !h.pathExists(script) then Stopped("Script not found: " + q.scriptPath)
    else
      var name := NameOf(h, workspace, q);
      var report := ReportOf(h, workspace, q);
      var database := DatabaseOf(h, workspace, q);
      if !h.nsysInstalled then Stopped(NsysMissing)
      else
        match Command(h, q, report, script)
        case Raised(m) => Stopped("Profiling failed: " + m)
        case Returned(argv) =>
          match Environment(h, q)
          case None => Stopped(EnvVarsNotObject)
          case Some(env) => Ready(Plan(argv, env, script, name, report, database))
  }

  /** The report and the database sit next to the script, named after `output_name`
      or, without one, after the script's stem; the command writes the report and
      runs the script. */
  lemma OutputBesideScript(h: Host, workspace: string, q: ProfileRequest)
    requires Prepare(h, workspace, q).Ready?
    ensures var p := Prepare(h, workspace, q).plan;
      && p.script == Resolve(h.ops, workspace, q.scriptPath)
      && p.outputName == (if q.outputName.Some? then q.outputName.value else h.ops.stem(p.script))
      && p.report == h.ops.join(h.ops.parent(p.script), p.outputName + ".nsys-rep")
      && p.database == h.ops.join(h.ops.parent(p.script), p.outputName + ".sqlite")
      && p.argv[..4] == ["nsys", "profile", "--output", p.report]
      && p.script in p.argv
  {
    var p := Prepare(h, workspace, q).plan;
    var sa := SplitIfAny(h, q.scriptArgs).value;
    assert p.argv[|p.argv| - |sa| - 1] == p.script;
  }

  /** With every argument at its default (and a shell split that keeps a single word),
      the command is `nsys profile --output <report> --trace=cuda,nvtx,osrt python
      <script>` and the environment is inherited unchanged. */
  lemma DefaultInvocation(h: Host, workspace: string, scriptPath: string)
    requires h.pathExists(Resolve(h.ops, workspace, scriptPath)) && h.nsysInstalled
    requires h.split(DefaultTrace) == Returned([DefaultTrace])
    ensures var r := Prepare(h, workspace, DefaultRequest(scriptPath));
      && r.Ready?
      && r.plan.argv == ["nsys", "profile", "--output", r.plan.report, DefaultTrace, "python", r.plan.script]
      && r.plan.env == h.environ
  {
    var q := DefaultRequest(scriptPath);
    var script := ScriptOf(h, workspace, q);
    var report := ReportOf(h, workspace, q);
    DefaultCommand(h, q, report, script);
    assert Environment(h, q) == Some(h.environ);
  }

  /** The command line of the default request. */
  lemma DefaultCommand(h: Host, q: ProfileRequest, report: string, script: string)
    requires q == DefaultRequest(q.scriptPath)
    requires h.split(DefaultTrace) == Returned([DefaultTrace])
    ensures Command(h, q, report, script) == Returned(["nsys", "profile", "--output", report, DefaultTrace, "python", script])
  {
    assert DefaultTrace != "" by { assert DefaultTrace[0] == '-'; }
    assert SplitIfAny(h, q.nsysArgs) == Returned([DefaultTrace]);
    PythonIsStripped();
    assert LauncherCmd(h, q.launcher, q.nprocPerNode) == Returned(["python"]);
    var argv := Assemble(report, [DefaultTrace], ["python"], [], script, []);
    assert argv == ["nsys", "profile", "--output", report, DefaultTrace, "python", script];
  }

  lemma PythonIsStripped()
    ensures Text.Strip("python") == "python"
  {
    assert !Text.IsSpace('p') && !Text.IsSpace('n');
    assert Text.TrimStart("python") == "python";
    assert Text.TrimEnd("python") == "python";
  }

  // ---------------------------------------------------------------- suggestions

  /** One entry of the computation or communication bottleneck lists, longest first:
      its kernel or operation name and its duration in milliseconds. */
  datatype Timing = Timing(name: string, durationMs: real)

  /** The `overlap_analysis` entry: a list of overlaps (their `overlap_duration_s`), a
      dict of total kernel and communication times, or anything else. */
  datatype Overlap = Overlaps(durationsS: seq<real>) | Totals(kernelMs: real, commMs: real) | OtherOverlap

  /** The analysis the suggestions are drawn from; `None` when its key is missing or
      does not hold a list. */
  datatype Analysis = Analysis(
    computation: Option<seq<Timing>>,
    communication: Option<seq<Timing>>,
    overlap: Option<Overlap>)

  /** How a float is shown with a given number of decimals (`f"{x:.2f}"`). */
  type Formatter = (real, nat) -> string

  function Sum(xs: seq<real>): real
    decreases |xs|
  {
    if xs == [] then 0.0 else xs[0] + Sum(xs[1..])
  }

  /** The all-clear message, as its two sentences. */
  const AllGood := "No specific bottlenecks identified." + " Profile looks good!"

  /** A rule that fired, with what its message reports. */
  datatype Advice =
    | LongKernel(kernel: Timing)
    | LongComm(operation: Timing)
    | NoOverlap
    | Overlapping(count: nat, totalS: real)
    | Sequential(kernelMs: real, commMs: real)

  /** A kernel over 100 ms heads the computation list. */
  function KernelRule(a: Analysis): (s: seq<Advice>)
    ensures |s| <= 1
    ensures s != [] <==> a.computation.Some? && a.computation.value != [] && a.computation.value[0].durationMs > 100.0
  {
    if a.computation.Some? && a.computation.value != [] && a.computation.value[0].durationMs > 100.0
    then [LongKernel(a.computation.value[0])] else []
  }

  /** A communication operation over 50 ms heads the communication list. */
  function CommRule(a: Analysis): (s: seq<Advice>)
    ensures |s| <= 1
    ensures s != [] <==> a.communication.Some? && a.communication.value != [] && a.communication.value[0].durationMs > 50.0
  {
    if a.communication.Some? && a.communication.value != [] && a.communication.value[0].durationMs > 50.0
    then [LongComm(a.communication.value[0])] else []
  }

  /** No overlap at all, some overlap, or a compute and a communication total that
      could overlap. */
  function OverlapRule(a: Analysis): (s: seq<Advice>)
    ensures |s| <= 1
    ensures a.overlap.None? || a.overlap.value.OtherOverlap? ==> s == []
    ensures a.overlap == Some(Overlaps([])) ==> s == [NoOverlap]
  {
    match a.overlap
    case Some(Overlaps(ds)) =>
      if ds == [] then [NoOverlap]
      else if Sum(ds) > 0.0 then [Overlapping(|ds|, Sum(ds))] else []
    case Some(Totals(k, c)) =>
      if k > 0.0 && c > 0.0 then [Sequential(k, c)] else []
    case _ => []
  }

  /** The rules that fire, in rule order. */
  function Fired(a: Analysis): (s: seq<Advice>)
    ensures |s| <= 3
  {
    KernelRule(a) + CommRule(a) + OverlapRule(a)
  }

  /** The fixed advice that closes each suggestion. */
  const KernelHint := "ms. Consider: kernel fusion, better memory access patterns, or reducing problem size."
  const CommHint := "ms. Consider: overlapping communication with computation using CUDA streams, or using gradient compression."
  const NoOverlapMessage := "No overlap detected between computation and communication. "
    + "Consider implementing pipelined execution with separate CUDA streams for compute and communication."
  const OverlapHint := "ms. This is good! Consider increasing overlap by chunking operations and using async communication."

  function KernelText(t: Timing, fmt: Formatter): (m: string)
    ensures |m| >= 4 && m[..4] == "Long"
  {
    "Longest kernel '" + t.name + "' takes " + fmt(t.durationMs, 2) + KernelHint
  }

  function CommText(t: Timing, fmt: Formatter): (m: string)
    ensures |m| >= 4 && m[..4] == "Long"
  {
    "Long communication operation '" + t.name + "' takes " + fmt(t.durationMs, 2) + CommHint
  }

  function OverlappingText(count: nat, totalS: real, fmt: Formatter): (m: string)
    ensures |m| >= 4 && m[..4] == "Foun"
  {
    "Found " + Text.NatToString(count) + " overlapping operations totaling " + fmt(totalS * 1000.0, 2) + OverlapHint
  }

  function SequentialText(k: real, c: real, fmt: Formatter): (m: string)
    ensures |m| >= 4 && m[..4] == "Sequ"
  {
    var sequential := k + c;
    var savings := if k < c then k else c;
    var percent := if sequential == 0.0 then 0.0 else savings / sequential * 100.0;
    var times := "Sequential execution time: " + fmt(sequential, 2) + "ms (compute: " + fmt(k, 2)
      + "ms, comm: " + fmt(c, 2) + "ms). ";
    var potential := "Potential savings with full overlap: " + fmt(savings, 2) + "ms (" + fmt(percent, 1) + "% reduction).";
    assert (times + potential)[..4] == times[..4];
    times + potential
  }

  /** The all-clear message opens with "No s". */
  lemma AllGoodOpening()
    ensures |AllGood| >= 4 && AllGood[..4] == "No s"
  {
  }

  /** The text of a rule's suggestion; none is the all-clear message. */
  function Render(x: Advice, fmt: Formatter): (m: string)
    ensures m != AllGood
  {
    AllGoodOpening();
    match x
    case LongKernel(t) => KernelText(t, fmt)
    case LongComm(t) => CommText(t, fmt)
    case NoOverlap => NoOverlapMessage
    case Overlapping(count, totalS) => OverlappingText(count, totalS, fmt)
    case Sequential(k, c) => SequentialText(k, c, fmt)
  }

  /** `_generate_suggestions`: never empty, one suggestion per rule that fired, and
      the all-clear message, alone, exactly when none did. */
  function Suggestions(a: Analysis, fmt: Formatter): (s: seq<string>)
    ensures 1 <= |s| <= 3
    ensures s == [AllGood] <==> Fired(a) == []
    ensures Fired(a) != [] ==> AllGood !in s && |s| == |Fired(a)|
  {
    var fired := Fired(a);
    if fired == [] then [AllGood]
    else
      var s := seq(|fired|, i requires 0 <= i < |fired| => Render(fired[i], fmt));
      assert s[0] != AllGood;
      s
  }
}

=== FILE: search_tools.dfy ===
/** The search tools: the keyword search of `semantic_search` (keyword extraction,
    hit test, relevance, ranking) and the result shape of `find_files`. Walking the
    directory tree is supplied as a scanner. */
module SearchTools {
  import opened Common
  import opened Json
  import opened FileSystem
  import Text
  import Sorting

  // ---------------------------------------------------------------- keywords

  /** The words longer than three characters, lower-cased, in order, duplicates kept. */
  function LongWords(ws: seq<string>): (ks: seq<string>)
    ensures |ks| <= |ws|
    ensures forall k :: 0 <= k < |ks| ==> |ks[k]| > 3 && Text.Lower(ks[k]) == ks[k]
    decreases |ws|
  {
    if ws == [] then []
    else
      Text.LowerIsLower(ws[0]);
      (if |ws[0]| > 3 then [Text.Lower(ws[0])] else []) + LongWords(ws[1..])
  }

  /** `[q.lower() for q in query.split() if len(q) > 3]`. */
  function Keywords(query: string): (ks: seq<string>)
    ensures forall k :: 0 <= k < |ks| ==> |ks[k]| > 3 && Text.Lower(ks[k]) == ks[k]
  {
    LongWords(Text.Words(query))
  }

  /** For a query written as words separated by single spaces, the keywords are the
      long words in order: a repeated word is a repeated keyword. */
  lemma KeywordsOfWords(ws: seq<string>)
    requires forall k :: 0 <= k < |ws| ==> Text.IsWord(ws[k])
    ensures Keywords(Text.Join(" ", ws)) == LongWords(ws)
  {
    Text.WordsOfJoin(ws);
  }

  lemma RepeatedWordTwice(w: string)
    requires |w| > 3
    ensures LongWords([w, w]) == [Text.Lower(w), Text.Lower(w)]
  {
    assert [w, w][1..] == [w];
    assert [w][1..] == [];
  }

  // ---------------------------------------------------------------- relevance

  /** `any(kw in content for kw in keywords)`. */
  predicate AnyContained(ks: seq<string>, text: string)
  {
    exists i :: 0 <= i < |ks| && Text.Contains(text, ks[i])
  }

  /** `sum(1 for kw in keywords if kw in content)`: duplicates count each time. */
  function Relevance(ks: seq<string>, text: string): (n: nat)
    ensures n <= |ks|
    ensures n > 0 <==> AnyContained(ks, text)
    decreases |ks|
  {
    if ks == [] then 0
    else
      var rest := Relevance(ks[1..], text);
      assert AnyContained(ks, text) <==> Text.Contains(text, ks[0]) || AnyContained(ks[1..], text) by {
        if AnyContained(ks[1..], text) {
          var i :| 0 <= i < |ks[1..]| && Text.Contains(text, ks[1..][i]);
          assert Text.Contains(text, ks[i + 1]);
        }
        if AnyContained(ks, text) && !Text.Contains(text, ks[0]) {
          var i :| 0 <= i < |ks| && Text.Contains(text, ks[i]);
          assert Text.Contains(text, ks[1..][i - 1]);
        }
      }
      (if Text.Contains(text, ks[0]) then 1 else 0) + rest
  }

  /** A `*.py` match under a search directory: its path relative to the workspace and
      its text, or `None` when it is skipped (not a file, unreadable, or not under the
      workspace, each of which the tool passes over). */
  datatype Found = Found(file: string, content: Option<string>)

  /** `(workspace / d).rglob("*.py")` for a search directory `d`, or `None` when the
      directory does not exist. */
  type Scanner = string -> Option<seq<Found>>

  datatype Hit = Hit(file: string, relevance: nat)

  function HitToValue(h: Hit): Value
  {
    Obj(map["file" := Str(h.file), "relevance" := Int(h.relevance)])
  }

  /** A readable match in whose lower-cased text some keyword occurs. */
  predicate IsHit(ks: seq<string>, f: Found)
  {
    f.content.Some? && AnyContained(ks, Text.Lower(f.content.value))
  }

  function HitOf(ks: seq<string>, f: Found): Hit
    requires f.content.Some?
  {
    Hit(f.file, Relevance(ks, Text.Lower(f.content.value)))
  }

  /** The hits among the matches of one directory, in discovery order. */
  function Hits(ks: seq<string>, found: seq<Found>): (hs: seq<Hit>)
    ensures |hs| <= |found|
    ensures forall k :: 0 <= k < |hs| ==> 1 <= hs[k].relevance <= |ks|
    decreases |found|
  {
    if found == [] then []
    else (if IsHit(ks, found[0]) then [HitOf(ks, found[0])] else []) + Hits(ks, found[1..])
  }

  lemma {:induction false} HitsAppend(ks: seq<string>, a: seq<Found>, b: seq<Found>)
    ensures Hits(ks, a + b) == Hits(ks, a) + Hits(ks, b)
    decreases |a|
  {
    if a == [] {
      assert a + b == b;
    } else {
      assert (a + b)[0] == a[0] && (a + b)[1..] == a[1..] + b;
      HitsAppend(ks, a[1..], b);
    }
  }

  /** Each match contributes its own hit, in place, exactly when it is a hit: the
      matches before it and after it contribute the rest. */
  lemma HitInPlace(ks: seq<string>, found: seq<Found>, k: int)
    requires 0 <= k < |found|
    ensures Hits(ks, found) ==
      Hits(ks, found[..k]) + (if IsHit(ks, found[k]) then [HitOf(ks, found[k])] else []) + Hits(ks, found[k + 1..])
  {
    assert found == found[..k] + ([found[k]] + found[k + 1..]);
    HitsAppend(ks, found[..k], [found[k]] + found[k + 1..]);
    assert ([found[k]] + found[k + 1..])[1..] == found[k + 1..];
  }

  /** No keywords, no hits. */
  lemma {:induction false} NoKeywordsNoHits(found: seq<Found>)
    ensures Hits([], found) == []
    decreases |found|
  {
    if found != [] {
      NoKeywordsNoHits(found[1..]);
    }
  }

  // ---------------------------------------------------------------- search directories and ranking

  /** `target_directories or ["."]`. */
  function SearchDirs(targets: Option<seq<string>>): (ds: seq<string>)
    ensures |ds| >= 1
    ensures targets.Some? && targets.value != [] ==> ds == targets.value
  {
    if targets.Some? && targets.value != [] then targets.value else ["."]
  }

  /** The hits of every search directory in turn; a directory that does not exist
      contributes nothing. */
  function Discover(ks: seq<string>, dirs: seq<string>, scan: Scanner): (hs: seq<Hit>)
    ensures forall k :: 0 <= k < |hs| ==> 1 <= hs[k].relevance <= |ks|
    decreases |dirs|
  {
    if dirs == [] then []
    else
      (match scan(dirs[0]) case None => [] case Some(found) => Hits(ks, found)) + Discover(ks, dirs[1..], scan)
  }

  lemma {:induction false} DiscoverAppend(ks: seq<string>, a: seq<string>, b: seq<string>, scan: Scanner)
    ensures Discover(ks, a + b, scan) == Discover(ks, a, scan) + Discover(ks, b, scan)
    decreases |a|
  {
    if a == [] {
      assert a + b == b;
    } else {
      assert (a + b)[0] == a[0] && (a + b)[1..] == a[1..] + b;
      DiscoverAppend(ks, a[1..], b, scan);
    }
  }

  /** Dropping a directory that does not exist changes nothing. */
  lemma MissingDirectorySkipped(ks: seq<string>, dirs: seq<string>, i: int, scan: Scanner)
    requires 0 <= i < |dirs| && scan(dirs[i]).None?
    ensures Discover(ks, dirs[..i] + dirs[i + 1..], scan) == Discover(ks, dirs, scan)
  {
    var pre, post := dirs[..i], dirs[i + 1..];
    assert dirs == pre + ([dirs[i]] + post);
    DiscoverAppend(ks, pre, [dirs[i]] + post, scan);
    DiscoverSkip(ks, dirs[i], post, scan);
    DiscoverAppend(ks, pre, post, scan);
  }

  /** A missing directory at the front contributes nothing. */
  lemma DiscoverSkip(ks: seq<string>, d: string, rest: seq<string>, scan: Scanner)
    requires scan(d).None?
    ensures Discover(ks, [d] + rest, scan) == Discover(ks, rest, scan)
  {
    assert ([d] + rest)[0] == d && ([d] + rest)[1..] == rest;
  }

  /** The sort key of `results.sort(key=relevance, reverse=True)`: ascending on the
      negated relevance, which is stable in the same way. */
  function RelevanceKey(h: Hit): seq<int>
  {
    [-(h.relevance as int)]
  }

  /** Sorted by relevance, highest first, then cut to `max_results`. */
  function Ranked(hs: seq<Hit>, maxResults: int): seq<Hit>
  {
    Text.PySlice(Sorting.SortByKey(hs, RelevanceKey), 0, maxResults)
  }

  /** The ranked hits are among the discovered ones, highest relevance first, and
      `results[:max_results]` keeps the first `max_results` of them, or all but the
      last `-max_results` when that is negative. */
  lemma RankedDescending(hs: seq<Hit>, maxResults: int)
    ensures var out := Ranked(hs, maxResults);
      && |out| == (if maxResults >= 0 then (if maxResults < |hs| then maxResults else |hs|)
                   else if |hs| + maxResults < 0 then 0 else |hs| + maxResults)
      && (forall i, j :: 0 <= i < j < |out| ==> out[i].relevance >= out[j].relevance)
      && (forall i :: 0 <= i < |out| ==> out[i] in hs)
  {
    var sorted := Sorting.SortByKey(hs, RelevanceKey);
    Sorting.SortByKeySorted(hs, RelevanceKey);
    Sorting.SortByKeyPermutes(hs, RelevanceKey);
    var out := Ranked(hs, maxResults);
    assert out == sorted[..|out|];
    forall i, j | 0 <= i < j < |out| ensures out[i].relevance >= out[j].relevance {
      assert out[i] == sorted[i] && out[j] == sorted[j];
      assert Sorting.LexLe(RelevanceKey(sorted[i]), RelevanceKey(sorted[j]));
    }
    forall i | 0 <= i < |out| ensures out[i] in hs {
      assert out[i] == sorted[i];
      assert sorted[i] in multiset(sorted);
    }
  }

  /** Hits of equal relevance stay in discovery order. */
  lemma RankedStable(hs: seq<Hit>)
    ensures forall k :: Sorting.WithKey(Sorting.SortByKey(hs, RelevanceKey), RelevanceKey, k)
                     == Sorting.WithKey(hs, RelevanceKey, k)
  {
    forall k ensures Sorting.WithKey(Sorting.SortByKey(hs, RelevanceKey), RelevanceKey, k) == Sorting.WithKey(hs, RelevanceKey, k) {
      Sorting.SortByKeyStable(hs, RelevanceKey, k);
    }
  }

  /** The hit a result entry records, read back; `Hit("", 0)` for any other value. */
  function HitOfValue(v: Value): Hit
  {
    if && v.Obj? && "file" in v.fields && v.fields["file"].Str?
       && "relevance" in v.fields && v.fields["relevance"].Int? && v.fields["relevance"].i >= 0
    then Hit(v.fields["file"].s, v.fields["relevance"].i as nat)
    else Hit("", 0)
  }

  /** The hits the entries of a result list record, in order. */
  function ReadHits(items: seq<Value>): (hs: seq<Hit>)
    ensures |hs| == |items|
    ensures forall i :: 0 <= i < |items| ==> hs[i] == HitOfValue(items[i])
  {
    seq(|items|, i requires 0 <= i < |items| => HitOfValue(items[i]))
  }

  /** A result entry reads back as the hit it was made from. */
  lemma HitRoundTrip(h: Hit)
    ensures HitOfValue(HitToValue(h)) == h
  {
  }

  /** The number of entries `results[:max_results]` keeps out of `n`. */
  function Kept(n: nat, maxResults: int): nat
  {
    if maxResults >= 0 then (if maxResults < n then maxResults else n)
    else if n + maxResults < 0 then 0 else n + maxResults
  }

  /** The result entries of a list of hits, in order. */
  function HitValues(hs: seq<Hit>): (vs: seq<Value>)
    ensures |vs| == |hs|
    ensures forall i :: 0 <= i < |hs| ==> vs[i] == HitToValue(hs[i])
    ensures ReadHits(vs) == hs
  {
    seq(|hs|, i requires 0 <= i < |hs| => HitToValue(hs[i]))
  }

  /** `items` is the result list of the hits `hs` sorted and cut to `maxResults`:
      every entry a hit record of a discovered hit with relevance between one and
      `nk`, highest relevance first. */
  ghost predicate RankedList(items: seq<Value>, hs: seq<Hit>, maxResults: int, nk: nat)
  {
    && |items| == Kept(|hs|, maxResults)
    && (forall i :: 0 <= i < |items| ==> items[i] == HitToValue(HitOfValue(items[i])))
    && (forall i :: 0 <= i < |items| ==> HitOfValue(items[i]) in hs)
    && (forall i :: 0 <= i < |items| ==> 1 <= HitOfValue(items[i]).relevance <= nk)
    && (forall i, j :: 0 <= i < j < |items| ==> HitOfValue(items[i]).relevance >= HitOfValue(items[j]).relevance)
    && ReadHits(items) == Ranked(hs, maxResults)
  }

  lemma RankedListOfRanked(hs: seq<Hit>, maxResults: int, nk: nat)
    requires forall k :: 0 <= k < |hs| ==> 1 <= hs[k].relevance <= nk
    ensures RankedList(HitValues(Ranked(hs, maxResults)), hs, maxResults, nk)
  {
    var out := Ranked(hs, maxResults);
    var items := HitValues(out);
    RankedDescending(hs, maxResults);
    forall i | 0 <= i < |items| ensures HitOfValue(items[i]) == out[i] {
      HitRoundTrip(out[i]);
    }
    forall i | 0 <= i < |items| ensures 1 <= HitOfValue(items[i]).relevance <= nk {
      var k :| 0 <= k < |hs| && hs[k] == out[i];
    }
  }

  /** The success reply of a search: the query, the result entries and their count. */
  function SearchReply(query: string, items: seq<Value>): (r: Reply)
    ensures r.Success? && r.result.Keys == {"query", "results", "count"}
    ensures r.result["query"] == Str(query) && r.result["results"] == Arr(items)
    ensures r.result["count"] == Int(|items|)
  {
    Success(map["query" := Str(query), "results" := Arr(items), "count" := Int(|items|)])
  }

  /** `semantic_search(query, target_directories, max_results)`: a success whose
      `results` are hit records, `count` of them, and which read back as the discovered
      hits sorted by relevance, highest first, and cut to `max_results`; every relevance
      is between one and the number of keywords. */
  function SemanticSearch(query: string, targets: Option<seq<string>>, maxResults: int, scan: Scanner): (r: Reply)
    ensures r.Success? && r.result.Keys == {"query", "results", "count"}
    ensures r.result["query"] == Str(query) && r.result["results"].Arr?
    ensures var items := r.result["results"].items;
            var hs := Discover(Keywords(query), SearchDirs(targets), scan);
      && r.result["count"] == Int(|items|)
      && |items| == Kept(|hs|, maxResults)
      && (forall i :: 0 <= i < |items| ==> items[i] == HitToValue(HitOfValue(items[i])))
      && (forall i :: 0 <= i < |items| ==> HitOfValue(items[i]) in hs)
      && (forall i :: 0 <= i < |items| ==> 1 <= HitOfValue(items[i]).relevance <= |Keywords(query)|)
      && (forall i, j :: 0 <= i < j < |items| ==> HitOfValue(items[i]).relevance >= HitOfValue(items[j]).relevance)
      && ReadHits(items) == Ranked(hs, maxResults)
  {
    var hs := Discover(Keywords(query), SearchDirs(targets), scan);
    var items := HitValues(Ranked(hs, maxResults));
    RankedListOfRanked(hs, maxResults, |Keywords(query)|);
    SearchReply(query, items)
  }

  /** When `max_results` cuts nothing, the results hold every discovered hit, and hits
      of equal relevance appear in the order they were discovered. */
  lemma SearchKeepsDiscoveryOrder(query: string, targets: Option<seq<string>>, maxResults: int, scan: Scanner)
    requires maxResults >= |Discover(Keywords(query), SearchDirs(targets), scan)|
    ensures var hs := Discover(Keywords(query), SearchDirs(targets), scan);
            var found := ReadHits(SemanticSearch(query, targets, maxResults, scan).result["results"].items);
      forall k :: Sorting.WithKey(found, RelevanceKey, k) == Sorting.WithKey(hs, RelevanceKey, k)
  {
    var hs := Discover(Keywords(query), SearchDirs(targets), scan);
    var sorted := Sorting.SortByKey(hs, RelevanceKey);
    Sorting.SortByKeyPermutes(hs, RelevanceKey);
    assert |sorted| == |hs| by { assert |multiset(sorted)| == |multiset(hs)|; }
    Text.PrefixSlice(sorted, maxResults);
    assert Ranked(hs, maxResults) == sorted;
    RankedStable(hs);
  }

  /** A query without a word longer than three characters finds nothing. */
  lemma {:induction false} NoKeywordsNoResults(query: string, targets: Option<seq<string>>, maxResults: int, scan: Scanner)
    requires Keywords(query) == []
    ensures SemanticSearch(query, targets, maxResults, scan).result["count"] == Int(0)
  {
    var dirs := SearchDirs(targets);
    EmptyDiscover(dirs, scan);
  }

  lemma {:induction false} EmptyDiscover(dirs: seq<string>, scan: Scanner)
    ensures Discover([], dirs, scan) == []
    decreases |dirs|
  {
    if dirs != [] {
      EmptyDiscover(dirs[1..], scan);
      if scan(dirs[0]).Some? {
        NoKeywordsNoHits(scan(dirs[0]).value);
      }
    }
  }

  // ---------------------------------------------------------------- find_files

  /** A match of the glob pattern: its path relative to the workspace, and whether it
      is a file. */
  datatype Match = Match(shown: string, isFile: bool)

  /** `search_dir.rglob(pattern)` with each match's `is_file()` and `relative_to`,
      or `None` when `search_dir` does not exist. Any of them may raise: `rglob`
      refuses an absolute pattern, and `relative_to` a match outside the workspace. */
  type Globber = (string, string) -> Option<Outcome<seq<Match>>>

  /** The matches that are files, in order. */
  function FilesOnly(ms: seq<Match>): (fs: seq<string>)
    ensures |fs| <= |ms|
    decreases |ms|
  {
    if ms == [] then [] else (if ms[0].isFile then [ms[0].shown] else []) + FilesOnly(ms[1..])
  }

  /** A name is listed exactly when some match that is a file shows it. */
  lemma {:induction false} FilesOnlyMembers(ms: seq<Match>, name: string)
    ensures name in FilesOnly(ms) <==> exists i :: 0 <= i < |ms| && ms[i].isFile && ms[i].shown == name
    decreases |ms|
  {
    if ms != [] {
      FilesOnlyMembers(ms[1..], name);
      if exists i :: 0 <= i < |ms| && ms[i].isFile && ms[i].shown == name {
        var i :| 0 <= i < |ms| && ms[i].isFile && ms[i].shown == name;
        if i > 0 {
          assert ms[1..][i - 1] == ms[i];
        }
      }
      if name in FilesOnly(ms[1..]) {
        var i :| 0 <= i < |ms[1..]| && ms[1..][i].isFile && ms[1..][i].shown == name;
        assert ms[i + 1] == ms[1..][i];
      }
    }
  }

  /** Directories among the matches are not counted. */
  lemma {:induction false} FilesOnlyAppend(a: seq<Match>, b: seq<Match>)
    ensures FilesOnly(a + b) == FilesOnly(a) + FilesOnly(b)
    decreases |a|
  {
    if a == [] {
      assert a + b == b;
    } else {
      assert (a + b)[0] == a[0] && (a + b)[1..] == a[1..] + b;
      FilesOnlyAppend(a[1..], b);
    }
  }

  /** `find_files(pattern, directory)`. An exception from the walk becomes a failure
      reply with its message. */
  function FindFiles(ops: PathOps, workspace: string, pattern: string, directory: Option<string>, glob: Globber): (r: Reply)
    ensures var dir := if directory.Some? && directory.value != "" then ops.join(workspace, directory.value) else workspace;
      && (glob(dir, pattern).None? ==> r == Failure("Directory not found: " + dir))
      && (glob(dir, pattern).Some? && glob(dir, pattern).value.Raised? ==> r == Failure(glob(dir, pattern).value.message))
      && (r.Success? <==> glob(dir, pattern).Some? && glob(dir, pattern).value.Returned?)
      && (r.Success? ==> var files := FilesOnly(glob(dir, pattern).value.value);
            && r.result.Keys == {"pattern", "files", "count"}
            && r.result["pattern"] == Str(pattern)
            && r.result["files"].Arr? && |r.result["files"].items| == |files|
            && (forall i :: 0 <= i < |files| ==> r.result["files"].items[i] == Str(files[i]))
            && r.result["count"] == Int(|files|))
  {
    var dir := if directory.Some? && directory.value != "" then ops.join(workspace, directory.value) else workspace;
    match glob(dir, pattern)
    case None => Failure("Directory not found: " + dir)
    case Some(Raised(m)) => Failure(m)
    case Some(Returned(ms)) => FoundReply(pattern, FilesOnly(ms))
  }

  /** The success reply of `find_files` for the listed files. */
  function FoundReply(pattern: string, files: seq<string>): (r: Reply)
    ensures r.Success? && r.result.Keys == {"pattern", "files", "count"}
    ensures r.result["pattern"] == Str(pattern) && r.result["count"] == Int(|files|)
    ensures r.result["files"].Arr? && |r.result["files"].items| == |files|
    ensures forall i :: 0 <= i < |files| ==> r.result["files"].items[i] == Str(files[i])
  {
    Success(map[
      "pattern" := Str(pattern),
      "files" := Arr(seq(|files|, i requires 0 <= i < |files| => Str(files[i]))),
      "count" := Int(|files|)])
  }

  /** An exception from the walk, such as `rglob` refusing an absolute pattern, is
      reported as a failure carrying its message. */
  lemma WalkErrorReported(ops: PathOps, workspace: string, pattern: string, directory: Option<string>, glob: Globber, message: string)
    requires glob(if directory.Some? && directory.value != "" then ops.join(workspace, directory.value) else workspace, pattern)
          == Some(Raised(message))
    ensures FindFiles(ops, workspace, pattern, directory, glob) == Failure(message)
  {
  }
}

=== FILE: sorting.dfy ===
/** Python's `sorted`/`list.sort` with a key: a stable sort. Keys are integer sequences
    compared lexicographically, a proper prefix first, which is how Python compares a
    tuple of small integers or a string by code points. */
module Sorting {

  /** Lexicographic `<=` on integer sequences. */
  predicate LexLe(a: seq<int>, b: seq<int>)
    decreases |a|
  {
    a == [] || (b != [] && (a[0] < b[0] || (a[0] == b[0] && LexLe(a[1..], b[1..]))))
  }

  lemma {:induction false} LexLeRefl(a: seq<int>)
    ensures LexLe(a, a)
    decreases |a|
  {
    if a != [] {
      LexLeRefl(a[1..]);
    }
  }

  lemma {:induction false} LexLeTotal(a: seq<int>, b: seq<int>)
    ensures LexLe(a, b) || LexLe(b, a)
    decreases |a|
  {
    if a != [] && b != [] && a[0] == b[0] {
      LexLeTotal(a[1..], b[1..]);
    }
  }

  lemma {:induction false} LexLeTrans(a: seq<int>, b: seq<int>, c: seq<int>)
    requires LexLe(a, b) && LexLe(b, c)
    ensures LexLe(a, c)
    decreases |a|
  {
    if a != [] && a[0] == b[0] && b[0] == c[0] {
      LexLeTrans(a[1..], b[1..], c[1..]);
    }
  }

  lemma {:induction false} LexLeAntisym(a: seq<int>, b: seq<int>)
    requires LexLe(a, b) && LexLe(b, a)
    ensures a == b
    decreases |a|
  {
    if a != [] {
      LexLeAntisym(a[1..], b[1..]);
      assert a == [a[0]] + a[1..] && b == [b[0]] + b[1..];
    }
  }

  /** A string's code points, for comparing strings as Python does. */
  function CodePoints(s: string): (k: seq<int>)
    ensures |k| == |s|
    ensures forall i :: 0 <= i < |s| ==> k[i] == s[i] as int
  {
    seq(|s|, i requires 0 <= i < |s| => s[i] as int)
  }

  /** Different strings have different code-point keys. */
  lemma CodePointsInjective(s: string, t: string)
    requires CodePoints(s) == CodePoints(t)
    ensures s == t
  {
    assert |s| == |t|;
    forall i | 0 <= i < |s| ensures s[i] == t[i] {
      assert CodePoints(s)[i] == CodePoints(t)[i];
    }
  }

  /** Keys never decrease along `xs`. */
  predicate SortedBy<T>(xs: seq<T>, key: T -> seq<int>)
  {
    forall i, j :: 0 <= i < j < |xs| ==> LexLe(key(xs[i]), key(xs[j]))
  }

  /** Inserts `x` before the first element whose key is not smaller. */
  function Insert<T>(x: T, ys: seq<T>, key: T -> seq<int>): (r: seq<T>)
    ensures |r| == |ys| + 1
    ensures forall e :: e in r ==> e == x || e in ys
    decreases |ys|
  {
    if ys == [] || LexLe(key(x), key(ys[0])) then [x] + ys
    else [ys[0]] + Insert(x, ys[1..], key)
  }

  /** `sorted(xs, key=key)`: insertion sort, taking elements from the back so that an
      earlier element lands before a later one of equal key. */
  function SortByKey<T>(xs: seq<T>, key: T -> seq<int>): (r: seq<T>)
    ensures |r| == |xs|
    decreases |xs|
  {
    if xs == [] then [] else Insert(xs[0], SortByKey(xs[1..], key), key)
  }

  lemma {:induction false} InsertSorted<T>(x: T, ys: seq<T>, key: T -> seq<int>)
    requires SortedBy(ys, key)
    ensures SortedBy(Insert(x, ys, key), key)
    decreases |ys|
  {
    var r := Insert(x, ys, key);
    if ys == [] {
    } else if LexLe(key(x), key(ys[0])) {
      forall i, j | 0 <= i < j < |r| ensures LexLe(key(r[i]), key(r[j])) {
        if i == 0 {
          if j > 1 {
            LexLeTrans(key(x), key(ys[0]), key(ys[j - 1]));
          }
        } else {
          assert r[i] == ys[i - 1] && r[j] == ys[j - 1];
        }
      }
    } else {
      LexLeTotal(key(x), key(ys[0]));
      var tail := Insert(x, ys[1..], key);
      InsertSorted(x, ys[1..], key);
      assert r == [ys[0]] + tail;
      forall i, j | 0 <= i < j < |r| ensures LexLe(key(r[i]), key(r[j])) {
        if i == 0 {
          assert r[j] == tail[j - 1];
          assert tail[j - 1] in tail;
          if tail[j - 1] != x {
            var k :| 0 <= k < |ys[1..]| && ys[1..][k] == tail[j - 1];
            assert ys[k + 1] == tail[j - 1];
          }
        } else {
          assert r[i] == tail[i - 1] && r[j] == tail[j - 1];
        }
      }
    }
  }

  /** The result of a sort is sorted by the key. */
  lemma {:induction false} SortByKeySorted<T>(xs: seq<T>, key: T -> seq<int>)
    ensures SortedBy(SortByKey(xs, key), key)
    decreases |xs|
  {
    if xs != [] {
      SortByKeySorted(xs[1..], key);
      InsertSorted(xs[0], SortByKey(xs[1..], key), key);
    }
  }

  lemma {:induction false} InsertPermutes<T>(x: T, ys: seq<T>, key: T -> seq<int>)
    ensures multiset(Insert(x, ys, key)) == multiset{x} + multiset(ys)
    decreases |ys|
  {
    if ys != [] && !LexLe(key(x), key(ys[0])) {
      InsertPermutes(x, ys[1..], key);
      assert ys == [ys[0]] + ys[1..];
    }
  }

  /** The result of a sort is a permutation of its input. */
  lemma {:induction false} SortByKeyPermutes<T>(xs: seq<T>, key: T -> seq<int>)
    ensures multiset(SortByKey(xs, key)) == multiset(xs)
    decreases |xs|
  {
    if xs != [] {
      SortByKeyPermutes(xs[1..], key);
      InsertPermutes(xs[0], SortByKey(xs[1..], key), key);
      assert xs == [xs[0]] + xs[1..];
    }
  }

  /** The elements of `xs` whose key is `k`, in their order in `xs`. */
  function WithKey<T>(xs: seq<T>, key: T -> seq<int>, k: seq<int>): seq<T>
    decreases |xs|
  {
    if xs == [] then [] else (if key(xs[0]) == k then [xs[0]] else []) + WithKey(xs[1..], key, k)
  }

  lemma {:induction false} InsertWithKey<T>(x: T, ys: seq<T>, key: T -> seq<int>, k: seq<int>)
    ensures WithKey(Insert(x, ys, key), key, k) ==
      (if key(x) == k then [x] else []) + WithKey(ys, key, k)
    decreases |ys|
  {
    var r := Insert(x, ys, key);
    if ys == [] || LexLe(key(x), key(ys[0])) {
      assert r[0] == x && r[1..] == ys;
    } else {
      InsertWithKey(x, ys[1..], key, k);
      assert r[0] == ys[0] && r[1..] == Insert(x, ys[1..], key);
      var hx := if key(x) == k then [x] else [];
      var hy := if key(ys[0]) == k then [ys[0]] else [];
      var rest := WithKey(ys[1..], key, k);
      assert WithKey(r, key, k) == hy + (hx + rest);
      assert WithKey(ys, key, k) == hy + rest;
      if key(x) == k && key(ys[0]) == k {
        LexLeRefl(k);
      }
      assert hx == [] || hy == [];
    }
  }

  /** Stability: the elements of any one key keep their relative order. */
  lemma {:induction false} SortByKeyStable<T>(xs: seq<T>, key: T -> seq<int>, k: seq<int>)
    ensures WithKey(SortByKey(xs, key), key, k) == WithKey(xs, key, k)
    decreases |xs|
  {
    if xs != [] {
      SortByKeyStable(xs[1..], key, k);
      InsertWithKey(xs[0], SortByKey(xs[1..], key), key, k);
    }
  }
}

=== FILE: text.dfy ===
/** Python string behaviour the agent relies on: decimal `str(int)`, `sep.join`,
    `str.strip`, `str.split()`, ASCII `lower`, `in`, `count`, `replace`, `split(sep)`,
    `readlines` and slicing with Python's index normalisation. */
module Text {
  import opened Common

  // ---------------------------------------------------------------- decimal

  predicate IsDigit(c: char) {
    '0' <= c <= '9'
  }

  predicate AllDigits(s: string) {
    forall i :: 0 <= i < |s| ==> IsDigit(s[i])
  }

  function DigitChar(d: nat): (c: char)
    requires d < 10
    ensures IsDigit(c) && c as int - '0' as int == d
  {
    (d + '0' as int) as char
  }

  /** `str(n)` for a non-negative integer: decimal digits, no leading zero. */
  function NatToString(n: nat): (s: string)
    ensures |s| >= 1 && AllDigits(s)
    ensures s[0] == '0' ==> n == 0
    decreases n
  {
    if n < 10 then [DigitChar(n)] else NatToString(n / 10) + [DigitChar(n % 10)]
  }

  /** `str(i)` for any integer. */
  function IntToString(i: int): (s: string)
    ensures |s| >= 1
    ensures s[0] == '-' <==> i < 0
  {
    if i < 0 then "-" + NatToString(-i) else NatToString(i)
  }

  function DigitsValue(s: string): nat
    requires AllDigits(s)
  {
    if s == [] then 0 else 10 * DigitsValue(s[..|s| - 1]) + (s[|s| - 1] as int - '0' as int)
  }

  /** Reads back a plain run of decimal digits (no sign, blanks or underscores). */
  function ParseNat(s: string): Option<nat>
  {
    if |s| > 0 && AllDigits(s) then Some(DigitsValue(s)) else None
  }

  /** Decimal rendering is read back exactly. */
  lemma {:induction false} ParseNatToString(n: nat)
    ensures ParseNat(NatToString(n)) == Some(n)
  {
    if n >= 10 {
      var p := NatToString(n / 10);
      ParseNatToString(n / 10);
      var s := NatToString(n);
      assert s == p + [DigitChar(n % 10)];
      assert s[..|s| - 1] == p;
      assert DigitsValue(s) == 10 * DigitsValue(p) + n % 10;
    }
  }

  /** Distinct numbers render to distinct strings. */
  lemma NatToStringInjective(a: nat, b: nat)
    ensures NatToString(a) == NatToString(b) ==> a == b
  {
    ParseNatToString(a);
    ParseNatToString(b);
  }

  // ---------------------------------------------------------------- join

  /** `sep.join(parts)`. */
  function Join(sep: string, parts: seq<string>): (r: string)
    ensures |parts| == 1 ==> r == parts[0]
  {
    if |parts| == 0 then ""
    else if |parts| == 1 then parts[0]
    else parts[0] + sep + Join(sep, parts[1..])
  }

  lemma JoinCons(sep: string, x: string, rest: seq<string>)
    requires |rest| >= 1
    ensures Join(sep, [x] + rest) == x + sep + Join(sep, rest)
  {
    assert ([x] + rest)[1..] == rest;
  }

  lemma JoinHeadConcat(sep: string, x: string, y: string, rest: seq<string>)
    ensures Join(sep, [x + y] + rest) == x + Join(sep, [y] + rest)
  {
    if |rest| >= 1 {
      JoinCons(sep, x + y, rest);
      JoinCons(sep, y, rest);
    }
  }

  /** Joining a concatenation joins the two halves with one more separator. */
  lemma {:induction false} JoinAppend(sep: string, a: seq<string>, b: seq<string>)
    requires |a| >= 1 && |b| >= 1
    ensures Join(sep, a + b) == Join(sep, a) + sep + Join(sep, b)
  {
    if |a| == 1 {
      assert a + b == [a[0]] + b;
      JoinCons(sep, a[0], b);
    } else {
      assert a + b == [a[0]] + (a[1..] + b);
      JoinCons(sep, a[0], a[1..] + b);
      JoinAppend(sep, a[1..], b);
      assert a == [a[0]] + a[1..];
      JoinCons(sep, a[0], a[1..]);
    }
  }

  /** `''.join(parts)` puts the parts one after another. */
  lemma {:induction false} ConcatCons(x: string, rest: seq<string>)
    ensures Join("", [x] + rest) == x + Join("", rest)
  {
    if |rest| >= 1 {
      JoinCons("", x, rest);
    } else {
      assert [x] + rest == [x];
    }
  }

  lemma {:induction false} ConcatAppend(a: seq<string>, b: seq<string>)
    ensures Join("", a + b) == Join("", a) + Join("", b)
  {
    if |a| == 0 {
      assert a + b == b;
    } else {
      assert a + b == [a[0]] + (a[1..] + b);
      ConcatCons(a[0], a[1..] + b);
      ConcatAppend(a[1..], b);
      assert a == [a[0]] + a[1..];
      ConcatCons(a[0], a[1..]);
    }
  }

  // ---------------------------------------------------------------- whitespace

  /** Python's `str.isspace` for one character: the characters `strip()` and
      `split()` treat as whitespace. */
  predicate IsSpace(c: char) {
    || c == ' '
    || ('\t' <= c <= '\r')
    || ('\U{1C}' <= c <= '\U{1F}')
    || c == '\U{85}'
    || c == '\U{A0}'
    || c == '\U{1680}'
    || ('\U{2000}' <= c <= '\U{200A}')
    || c == '\U{2028}'
    || c == '\U{2029}'
    || c == '\U{202F}'
    || c == '\U{205F}'
    || c == '\U{3000}'
  }

  predicate AllSpace(s: string) {
    forall i :: 0 <= i < |s| ==> IsSpace(s[i])
  }

  function TrimStart(s: string): (r: string)
    ensures |r| <= |s| && r == s[|s| - |r|..]
    ensures AllSpace(s[..|s| - |r|])
    ensures r != [] ==> !IsSpace(r[0])
    decreases |s|
  {
    if s != [] && IsSpace(s[0]) then TrimStart(s[1..]) else s
  }

  function TrimEnd(s: string): (r: string)
    ensures |r| <= |s| && r == s[..|r|]
    ensures AllSpace(s[|r|..])
    ensures r != [] ==> !IsSpace(r[|r| - 1])
    decreases |s|
  {
    if s != [] && IsSpace(s[|s| - 1]) then TrimEnd(s[..|s| - 1]) else s
  }

  /** `s.strip()`: the text between the leading and the trailing whitespace. */
  function Strip(s: string): (r: string)
    ensures r == "" <==> AllSpace(s)
    ensures r != "" ==> !IsSpace(r[0]) && !IsSpace(r[|r| - 1])
    ensures r != "" ==> exists k :: 0 <= k < |s| && r[0] == s[k] && AllSpace(s[..k])
  {
    TrimBoth(s);
    TrimEnd(TrimStart(s))
  }

  lemma TrimBoth(s: string)
    ensures TrimEnd(TrimStart(s)) == "" <==> AllSpace(s)
    ensures TrimEnd(TrimStart(s)) != "" ==>
      var k := |s| - |TrimStart(s)|; 0 <= k < |s| && TrimEnd(TrimStart(s))[0] == s[k] && AllSpace(s[..k])
  {
    var t := TrimStart(s);
    var r := TrimEnd(t);
    var k := |s| - |t|;
    if r == "" {
      assert AllSpace(t[|r|..]);
      assert s == s[..k] + t;
    } else {
      assert r[0] == t[0] == s[k];
    }
  }

  /** Number of characters before the first whitespace character. */
  function WordLength(s: string): (n: nat)
    ensures n <= |s|
    ensures forall i :: 0 <= i < n ==> !IsSpace(s[i])
    ensures n < |s| ==> IsSpace(s[n])
  {
    if s == [] || IsSpace(s[0]) then 0 else 1 + WordLength(s[1..])
  }

  /** `s.split()` with no separator: the maximal runs of non-whitespace characters. */
  function Words(s: string): (ws: seq<string>)
    ensures forall k :: 0 <= k < |ws| ==> IsWord(ws[k])
    decreases |s|
  {
    var t := TrimStart(s);
    if t == "" then []
    else
      var n := WordLength(t);
      FirstWord(t, n);
      AllWordsCons(t[..n], Words(t[n..]));
      [t[..n]] + Words(t[n..])
  }

  /** A word in front of words gives words. */
  lemma AllWordsCons(w: string, rest: seq<string>)
    requires IsWord(w) && forall k :: 0 <= k < |rest| ==> IsWord(rest[k])
    ensures forall k :: 0 <= k < |[w] + rest| ==> IsWord(([w] + rest)[k])
  {
  }

  /** The leading run of a string that starts with a non-space is a word. */
  lemma FirstWord(t: string, n: nat)
    requires t != "" && !IsSpace(t[0]) && n == WordLength(t)
    ensures 1 <= n <= |t| && IsWord(t[..n])
  {
    assert forall i :: 0 <= i < n ==> t[..n][i] == t[i];
  }

  predicate HasSpace(s: string) {
    exists i :: 0 <= i < |s| && IsSpace(s[i])
  }

  /** What `split()` yields: a non-empty run without whitespace. */
  predicate IsWord(w: string) {
    w != "" && !HasSpace(w)
  }

  lemma WordsAfterSpace(c: char, s: string)
    requires IsSpace(c)
    ensures Words([c] + s) == Words(s)
  {
    assert ([c] + s)[1..] == s;
  }

  lemma WordLengthOfWord(w: string, rest: string)
    requires !HasSpace(w)
    requires rest == [] || IsSpace(rest[0])
    ensures WordLength(w + rest) == |w|
  {
    WordLengthPrefix(w, rest, 0);
  }

  /** From position `k` of a word on, the word's remaining characters are counted. */
  lemma {:induction false} WordLengthPrefix(w: string, rest: string, k: nat)
    requires k <= |w|
    requires forall i :: 0 <= i < |w| ==> !IsSpace(w[i])
    requires rest == [] || IsSpace(rest[0])
    ensures WordLength((w + rest)[k..]) == |w| - k
    decreases |w| - k
  {
    var s := (w + rest)[k..];
    if k == |w| {
      assert s == rest;
    } else {
      assert s[0] == w[k];
      assert s[1..] == (w + rest)[k + 1..];
      WordLengthPrefix(w, rest, k + 1);
    }
  }

  /** A word followed by whitespace (or nothing) is split off as the first word. */
  lemma WordsCons(w: string, rest: string)
    requires IsWord(w)
    requires rest == [] || IsSpace(rest[0])
    ensures Words(w + rest) == [w] + Words(rest)
  {
    var s := w + rest;
    assert s[0] == w[0];
    assert TrimStart(s) == s;
    WordLengthOfWord(w, rest);
    assert s[..|w|] == w;
    assert s[|w|..] == rest;
  }

  /** A word, a space, then more text: the word comes off first. */
  lemma WordThenSpace(w: string, tail: string)
    requires IsWord(w)
    ensures Words(w + " " + tail) == [w] + Words(tail)
  {
    assert w + " " + tail == w + (" " + tail);
    WordsCons(w, " " + tail);
    WordsAfterSpace(' ', tail);
  }

  /** `' '.join(ws).split() == ws` for words without whitespace. */
  lemma {:induction false} WordsOfJoin(ws: seq<string>)
    requires forall k :: 0 <= k < |ws| ==> IsWord(ws[k])
    ensures Words(Join(" ", ws)) == ws
  {
    if |ws| == 1 {
      WordsCons(ws[0], "");
      assert ws[0] + "" == ws[0];
    } else if |ws| > 1 {
      var w, rest := ws[0], ws[1..];
      assert ws == [w] + rest;
      assert forall k :: 0 <= k < |rest| ==> rest[k] == ws[k + 1];
      WordsOfJoin(rest);
      JoinCons(" ", w, rest);
      WordThenSpace(w, Join(" ", rest));
    }
  }

  // ---------------------------------------------------------------- case

  /** ASCII part of `str.lower` for one character. */
  function LowerChar(c: char): char {
    if 'A' <= c <= 'Z' then (c as int + 32) as char else c
  }

  /** `s.lower()` on ASCII letters. */
  function Lower(s: string): (r: string)
    ensures |r| == |s|
    ensures forall i :: 0 <= i < |s| ==> r[i] == LowerChar(s[i])
  {
    seq(|s|, i requires 0 <= i < |s| => LowerChar(s[i]))
  }

  /** Lowering leaves no upper-case ASCII letter and is idempotent. */
  lemma LowerIsLower(s: string)
    ensures forall i :: 0 <= i < |s| ==> !('A' <= Lower(s)[i] <= 'Z')
    ensures Lower(Lower(s)) == Lower(s)
  {
  }

  // ---------------------------------------------------------------- substrings

  predicate StartsWith(s: string, p: string) {
    |p| <= |s| && s[..|p|] == p
  }

  /** Python's `p in s`. */
  predicate Contains(s: string, p: string)
    decreases |s|
  {
    StartsWith(s, p) || (s != [] && Contains(s[1..], p))
  }

  /** `p` occurs in `s` starting at offset `i`. */
  predicate OccursAt(s: string, p: string, i: int) {
    0 <= i <= |s| - |p| && s[i..i + |p|] == p
  }

  /** `p in s` holds exactly when `p` occurs at some offset of `s`. */
  lemma {:induction false} ContainsIff(s: string, p: string)
    ensures Contains(s, p) <==> exists i :: OccursAt(s, p, i)
    decreases |s|
  {
    if StartsWith(s, p) {
      assert OccursAt(s, p, 0);
    } else if s == [] {
    } else {
      ContainsIff(s[1..], p);
      if Contains(s[1..], p) {
        var i :| OccursAt(s[1..], p, i);
        assert s[1..][i..i + |p|] == s[i + 1..i + 1 + |p|];
        assert OccursAt(s, p, i + 1);
      }
      if exists i :: OccursAt(s, p, i) {
        var i :| OccursAt(s, p, i);
        if i != 0 {
          assert s[1..][i - 1..i - 1 + |p|] == s[i..i + |p|];
          assert OccursAt(s[1..], p, i - 1);
        }
      }
    }
  }

  /** `s.count(p)`: non-overlapping occurrences scanned left to right; the empty
      pattern occurs at each of the `|s| + 1` positions. */
  function CountOcc(s: string, p: string): nat
    decreases |s|
  {
    if p == [] then |s| + 1
    else if |s| < |p| then 0
    else if s[..|p|] == p then 1 + CountOcc(s[|p|..], p)
    else CountOcc(s[1..], p)
  }

  /** `p in s` exactly when `s.count(p)` is positive. */
  lemma {:induction false} ContainsIffCounted(s: string, p: string)
    ensures Contains(s, p) <==> CountOcc(s, p) > 0
    decreases |s|
  {
    if p == [] {
      assert StartsWith(s, p);
    } else if |s| < |p| {
      if s != [] {
        ContainsIffCounted(s[1..], p);
      }
    } else if s[..|p|] == p {
    } else {
      ContainsIffCounted(s[1..], p);
    }
  }

  /** `s.replace(p, n)`. */
  function ReplaceAll(s: string, p: string, n: string): string
    decreases |s|
  {
    if p == [] then (if s == [] then n else n + [s[0]] + ReplaceAll(s[1..], p, n))
    else if |s| < |p| then s
    else if s[..|p|] == p then n + ReplaceAll(s[|p|..], p, n)
    else [s[0]] + ReplaceAll(s[1..], p, n)
  }

  /** `s.replace(p, n, 1)`. */
  function ReplaceFirst(s: string, p: string, n: string): string
    decreases |s|
  {
    if p == [] then n + s
    else if |s| < |p| then s
    else if s[..|p|] == p then n + s[|p|..]
    else [s[0]] + ReplaceFirst(s[1..], p, n)
  }

  /** `s.split(p)` for a non-empty separator. */
  function SplitOn(s: string, p: string): (r: seq<string>)
    requires p != []
    ensures |r| >= 1
    decreases |s|
  {
    if |s| < |p| then [s]
    else if s[..|p|] == p then [""] + SplitOn(s[|p|..], p)
    else
      var rest := SplitOn(s[1..], p);
      [[s[0]] + rest[0]] + rest[1..]
  }

  /** `p.join(s.split(p)) == s`. */
  lemma {:induction false} JoinSplitOn(s: string, p: string)
    requires p != []
    ensures Join(p, SplitOn(s, p)) == s
    decreases |s|
  {
    if |s| < |p| {
      assert SplitOn(s, p) == [s];
    } else if s[..|p|] == p {
      var rest := SplitOn(s[|p|..], p);
      assert SplitOn(s, p) == [""] + rest;
      JoinSplitOn(s[|p|..], p);
      JoinCons(p, "", rest);
      assert s == s[..|p|] + s[|p|..];
    } else {
      var rest := SplitOn(s[1..], p);
      assert SplitOn(s, p) == [[s[0]] + rest[0]] + rest[1..];
      JoinSplitOn(s[1..], p);
      JoinHeadConcat(p, [s[0]], rest[0], rest[1..]);
      assert [rest[0]] + rest[1..] == rest;
      assert s == [s[0]] + s[1..];
    }
  }

  /** `s.split(p)` has one piece more than `s.count(p)`. */
  lemma {:induction false} SplitOnCount(s: string, p: string)
    requires p != []
    ensures |SplitOn(s, p)| == CountOcc(s, p) + 1
    decreases |s|
  {
    if |s| < |p| {
    } else if s[..|p|] == p {
      SplitOnCount(s[|p|..], p);
    } else {
      SplitOnCount(s[1..], p);
    }
  }

  /** `s.replace(p, n) == n.join(s.split(p))`: every occurrence is replaced and
      nothing else changes. */
  lemma {:induction false} ReplaceAllIsJoinOfSplit(s: string, p: string, n: string)
    requires p != []
    ensures ReplaceAll(s, p, n) == Join(n, SplitOn(s, p))
    decreases |s|
  {
    if |s| < |p| {
      assert SplitOn(s, p) == [s];
    } else if s[..|p|] == p {
      var rest := SplitOn(s[|p|..], p);
      assert ReplaceAll(s, p, n) == n + ReplaceAll(s[|p|..], p, n);
      assert SplitOn(s, p) == [""] + rest;
      ReplaceAllIsJoinOfSplit(s[|p|..], p, n);
      JoinCons(n, "", rest);
      assert "" + n + Join(n, rest) == n + Join(n, rest);
    } else {
      var rest := SplitOn(s[1..], p);
      assert ReplaceAll(s, p, n) == [s[0]] + ReplaceAll(s[1..], p, n);
      assert SplitOn(s, p) == [[s[0]] + rest[0]] + rest[1..];
      ReplaceAllIsJoinOfSplit(s[1..], p, n);
      JoinHeadConcat(n, [s[0]], rest[0], rest[1..]);
      assert [rest[0]] + rest[1..] == rest;
    }
  }

  /** Without an occurrence, replacing changes nothing. */
  lemma {:induction false} ReplaceAllAbsent(s: string, p: string, n: string)
    requires CountOcc(s, p) == 0
    ensures ReplaceAll(s, p, n) == s
    decreases |s|
  {
    if |s| < |p| {
    } else {
      ReplaceAllAbsent(s[1..], p, n);
      assert s == [s[0]] + s[1..];
    }
  }

  /** With exactly one occurrence, replacing the first one replaces them all. */
  lemma {:induction false} ReplaceFirstSingle(s: string, p: string, n: string)
    requires CountOcc(s, p) == 1
    ensures ReplaceFirst(s, p, n) == ReplaceAll(s, p, n)
    decreases |s|
  {
    if p == [] {
      assert s == [];
    } else if s[..|p|] == p {
      ReplaceAllAbsent(s[|p|..], p, n);
    } else {
      ReplaceFirstSingle(s[1..], p, n);
    }
  }

  // ---------------------------------------------------------------- slicing

  /** Python's normalisation of a slice bound: negative counts from the end,
      then clipped into `0..n`. */
  function ClampIndex(i: int, n: nat): (k: nat)
    ensures k <= n
  {
    if i < 0 then (if i + n < 0 then 0 else i + n) else if i > n then n else i
  }

  /** `s[i:j]`. */
  function PySlice<T>(s: seq<T>, i: int, j: int): (r: seq<T>)
    ensures |r| <= |s|
    ensures 0 <= i <= j ==> r == s[(if i < |s| then i else |s|)..(if j < |s| then j else |s|)]
    ensures 0 <= j <= i ==> r == []
  {
    var a := ClampIndex(i, |s|);
    var b := ClampIndex(j, |s|);
    if a < b then s[a..b] else []
  }

  /** `s[:n]` for `n >= 0` keeps the first `min(n, |s|)` elements. */
  lemma PrefixSlice<T>(s: seq<T>, n: int)
    requires n >= 0
    ensures PySlice(s, 0, n) == s[..if n < |s| then n else |s|]
  {
  }

  // ---------------------------------------------------------------- lines

  /** Index just past the first newline, or the length when there is none. */
  function LineEnd(s: string): (i: nat)
    requires s != ""
    ensures 1 <= i <= |s|
    ensures forall k :: 0 <= k < i - 1 ==> s[k] != '\n'
    ensures i < |s| ==> s[i - 1] == '\n'
  {
    if s[0] == '\n' || |s| == 1 then 1 else 1 + LineEnd(s[1..])
  }

  /** `readlines()`: the text cut after every newline, each piece keeping its newline. */
  function SplitLines(s: string): (ls: seq<string>)
    ensures forall k :: 0 <= k < |ls| ==> ls[k] != ""
    ensures forall k :: 0 <= k < |ls| - 1 ==> ls[k][|ls[k]| - 1] == '\n'
    decreases |s|
  {
    if s == "" then [] else [s[..LineEnd(s)]] + SplitLines(s[LineEnd(s)..])
  }

  /** `''.join(s.readlines()) == s`. */
  lemma {:induction false} ConcatSplitLines(s: string)
    ensures Join("", SplitLines(s)) == s
    decreases |s|
  {
    if s != "" {
      var i := LineEnd(s);
      ConcatSplitLines(s[i..]);
      ConcatAt(s, i, SplitLines(s[i..]));
    }
  }

  /** Gluing `s[..i]` in front of pieces that join to `s[i..]` gives `s`. */
  lemma ConcatAt(s: string, i: nat, pieces: seq<string>)
    requires i <= |s|
    requires Join("", pieces) == s[i..]
    ensures Join("", [s[..i]] + pieces) == s
  {
    ConcatCons(s[..i], pieces);
    assert s[..i] + s[i..] == s;
  }

  lemma CountCharCons(x: char, s: string, c: char)
    ensures CountOcc([x] + s, [c]) == (if x == c then 1 else 0) + CountOcc(s, [c])
  {
    assert ([x] + s)[..1] == [x];
    assert ([x] + s)[1..] == s;
  }

  /** `(a + b).count(c) == a.count(c) + b.count(c)` for a single character. */
  lemma {:induction false} CountCharAppend(a: string, b: string, c: char)
    ensures CountOcc(a + b, [c]) == CountOcc(a, [c]) + CountOcc(b, [c])
  {
    if a != [] {
      assert a + b == [a[0]] + (a[1..] + b);
      assert a == [a[0]] + a[1..];
      CountCharCons(a[0], a[1..] + b, c);
      CountCharCons(a[0], a[1..], c);
      CountCharAppend(a[1..], b, c);
    } else {
      assert a + b == b;
    }
  }

  lemma {:induction false} CountCharAbsent(s: string, c: char)
    requires forall k :: 0 <= k < |s| ==> s[k] != c
    ensures CountOcc(s, [c]) == 0
  {
    if s != [] {
      assert s == [s[0]] + s[1..];
      CountCharCons(s[0], s[1..], c);
      CountCharAbsent(s[1..], c);
    }
  }

  /** A text has one line per newline, plus one unless it is empty or ends with a newline. */
  lemma {:induction false} SplitLinesCount(s: string)
    ensures |SplitLines(s)| == CountOcc(s, "\n") + Unterminated(s)
    decreases |s|
  {
    if s != "" {
      var i := LineEnd(s);
      SplitLinesCount(s[i..]);
      FirstLineCount(s);
      LinesCountStep(s, i, |SplitLines(s[i..])|);
    }
  }

  /** 1 when the text has a last line without a newline, else 0. */
  function Unterminated(s: string): nat {
    if s == "" || s[|s| - 1] == '\n' then 0 else 1
  }

  /** The first line holds a newline exactly when it ends with one. */
  lemma FirstLineCount(s: string)
    requires s != ""
    ensures CountOcc(s[..LineEnd(s)], "\n") == (if s[LineEnd(s) - 1] == '\n' then 1 else 0)
  {
    var i := LineEnd(s);
    var head := s[..i];
    assert head == head[..i - 1] + [s[i - 1]];
    CountCharAppend(head[..i - 1], [s[i - 1]], '\n');
    CountCharAbsent(head[..i - 1], '\n');
    CountCharCons(s[i - 1], [], '\n');
    assert [s[i - 1]] + [] == [s[i - 1]];
  }

  /** One more line in front of the rest accounts for its newline, if any. */
  lemma LinesCountStep(s: string, i: nat, n: nat)
    requires 1 <= i <= |s|
    requires CountOcc(s[..i], "\n") == (if s[i - 1] == '\n' then 1 else 0)
    requires i < |s| ==> s[i - 1] == '\n'
    requires n == CountOcc(s[i..], "\n") + Unterminated(s[i..])
    ensures 1 + n == CountOcc(s, "\n") + Unterminated(s)
  {
    assert s[..i] + s[i..] == s;
    CountCharAppend(s[..i], s[i..], '\n');
    if i < |s| {
      assert s[i..][|s| - i - 1] == s[|s| - 1];
    }
  }
}

=== FILE: tool_base.dfy ===
/** Tools and the tool registry: parameter declarations, JSON schema derivation,
    wrapping a plain function as a tool, and name-keyed registration and dispatch. */
module ToolBase {
  import opened Common
  import opened Json
  import Text

  // ---------------------------------------------------------------- parameters and schemas

  /** A declared tool parameter; `default == Null` means no default. */
  datatype ToolParameter = ToolParameter(
    name: string,
    typ: string,
    description: string,
    required: bool,
    default: Value)

  /** `ToolParameter(name=…, type=…, description=…)` with the declared defaults. */
  function NewParameter(name: string, typ: string, description: string): (p: ToolParameter)
    ensures p.name == name && p.typ == typ && p.description == description
    ensures p.required && p.default == Null
  {
    ToolParameter(name, typ, description, true, Null)
  }

  /** What a tool's `execute(**kwargs)` does: return a dict, or raise. */
  type Handler = Dict -> Outcome<Dict>

  datatype Tool = Tool(
    name: string,
    description: string,
    parameters: seq<ToolParameter>,
    execute: Handler)

  /** One entry of the schema's `properties`. */
  datatype PropertySchema = PropertySchema(typ: string, description: string, default: Option<Value>)

  /** The schema a tool advertises to the generation service. */
  datatype Schema = Schema(
    name: string,
    description: string,
    properties: map<string, PropertySchema>,
    required: seq<string>)

  function PropertyOf(p: ToolParameter): PropertySchema
  {
    PropertySchema(p.typ, p.description, if p.default == Null then None else Some(p.default))
  }

  /** `i` is the last parameter carrying its name (a later one would overwrite it). */
  predicate LastWithName(ps: seq<ToolParameter>, i: int)
  {
    0 <= i < |ps| && forall j :: i < j < |ps| ==> ps[j].name != ps[i].name
  }

  /** The `properties` dict: one entry per parameter name, a later parameter of the
      same name overwriting an earlier one. */
  function Properties(ps: seq<ToolParameter>): (m: map<string, PropertySchema>)
    ensures forall n :: n in m <==> exists i :: 0 <= i < |ps| && ps[i].name == n
    ensures forall i :: LastWithName(ps, i) ==> m[ps[i].name] == PropertyOf(ps[i])
  {
    if ps == [] then map[]
    else
      var init := ps[..|ps| - 1];
      var last := ps[|ps| - 1];
      assert init + [last] == ps;
      PropertiesExtend(init, last, Properties(init));
      Properties(init)[last.name := PropertyOf(last)]
  }

  /** One more parameter: its name enters the domain and it is now the last of its
      name; every other last-of-its-name keeps its entry. */
  lemma PropertiesExtend(init: seq<ToolParameter>, p: ToolParameter, m0: map<string, PropertySchema>)
    requires forall n :: n in m0 <==> exists i :: 0 <= i < |init| && init[i].name == n
    requires forall i :: LastWithName(init, i) ==> m0[init[i].name] == PropertyOf(init[i])
    ensures var ps := init + [p]; var m := m0[p.name := PropertyOf(p)];
      && (forall n :: n in m <==> exists i :: 0 <= i < |ps| && ps[i].name == n)
      && (forall i :: LastWithName(ps, i) ==> m[ps[i].name] == PropertyOf(ps[i]))
  {
    var ps := init + [p];
    var m := m0[p.name := PropertyOf(p)];
    forall n | n in m ensures exists i :: 0 <= i < |ps| && ps[i].name == n {
      if n == p.name {
        assert ps[|ps| - 1].name == n;
      } else {
        var i :| 0 <= i < |init| && init[i].name == n;
        assert ps[i] == init[i];
      }
    }
    forall i | 0 <= i < |ps| ensures ps[i].name in m {
      if i < |init| {
        assert ps[i] == init[i];
      }
    }
    forall i | LastWithName(ps, i) ensures m[ps[i].name] == PropertyOf(ps[i]) {
      if i < |init| {
        assert ps[|ps| - 1] == p;
        assert ps[i] == init[i];
        forall j | i < j < |init| ensures init[j].name != init[i].name {
          assert ps[j] == init[j];
        }
        assert LastWithName(init, i);
      }
    }
  }

  /** The `required` list: names of the required parameters. */
  function Required(ps: seq<ToolParameter>): (r: seq<string>)
    ensures |r| <= |ps|
    ensures forall n :: n in r <==> exists i :: 0 <= i < |ps| && ps[i].required && ps[i].name == n
  {
    if ps == [] then []
    else
      var rest := Required(ps[1..]);
      assert forall i :: 1 <= i < |ps| ==> ps[i] == ps[1..][i - 1];
      (if ps[0].required then [ps[0].name] else []) + rest
  }

  /** `required` keeps declaration order: it distributes over concatenation. */
  lemma {:induction false} RequiredAppend(a: seq<ToolParameter>, b: seq<ToolParameter>)
    ensures Required(a + b) == Required(a) + Required(b)
  {
    if a == [] {
      assert a + b == b;
    } else {
      var head := if a[0].required then [a[0].name] else [];
      assert (a + b)[0] == a[0];
      assert (a + b)[1..] == a[1..] + b;
      assert Required(a + b) == head + Required(a[1..] + b);
      assert Required(a) == head + Required(a[1..]);
      RequiredAppend(a[1..], b);
    }
  }

  /** `Tool.get_schema()`. */
  function GetSchema(t: Tool): (s: Schema)
    ensures s.name == t.name && s.description == t.description
    ensures forall n :: n in s.properties <==> exists i :: 0 <= i < |t.parameters| && t.parameters[i].name == n
    ensures forall n :: n in s.required <==> exists i :: 0 <= i < |t.parameters| && t.parameters[i].required && t.parameters[i].name == n
  {
    Schema(t.name, t.description, Properties(t.parameters), Required(t.parameters))
  }

  /** The schema as the JSON object the generation service receives. */
  function SchemaToValue(s: Schema): Value
  {
    Obj(map["name" := Str(s.name), "description" := Str(s.description), "parameters" := ParametersToValue(s)])
  }

  function ParametersToValue(s: Schema): Value
  {
    Obj(map[
      "type" := Str("object"),
      "properties" := PropertiesToValue(s.properties),
      "required" := Arr(seq(|s.required|, i requires 0 <= i < |s.required| => Str(s.required[i])))])
  }

  function PropertiesToValue(props: map<string, PropertySchema>): Value
  {
    Obj(map k | k in props :: PropertyToValue(props[k]))
  }

  function PropertyToValue(p: PropertySchema): Value
  {
    var base := map["type" := Str(p.typ), "description" := Str(p.description)];
    Obj(if p.default.Some? then base["default" := p.default.value] else base)
  }

  /** A parameter's schema entry carries its type and description, and a `"default"`
      key exactly when its default is not `None`. */
  lemma SchemaEntryOfParameter(t: Tool, i: int)
    requires LastWithName(t.parameters, i)
    ensures var p := t.parameters[i];
      var props := SchemaToValue(GetSchema(t)).fields["parameters"].fields["properties"].fields;
      && p.name in props
      && props[p.name].fields["type"] == Str(p.typ)
      && props[p.name].fields["description"] == Str(p.description)
      && ("default" in props[p.name].fields <==> p.default != Null)
      && (p.default != Null ==> props[p.name].fields["default"] == p.default)
  {
    var p := t.parameters[i];
    var s := GetSchema(t);
    assert s.properties[p.name] == PropertyOf(p);
    PropertiesPath(s);
    PropertyEntry(p);
  }

  /** Where the parameter schemas sit in the JSON object. */
  lemma PropertiesPath(s: Schema)
    ensures SchemaToValue(s).fields["parameters"].fields["properties"] == PropertiesToValue(s.properties)
  {
    assert SchemaToValue(s).fields["parameters"] == ParametersToValue(s);
  }

  /** The JSON object of one parameter's schema entry. */
  lemma PropertyEntry(p: ToolParameter)
    ensures var f := PropertyToValue(PropertyOf(p)).fields;
      && f["type"] == Str(p.typ)
      && f["description"] == Str(p.description)
      && ("default" in f <==> p.default != Null)
      && (p.default != Null ==> f["default"] == p.default)
  {
  }

  // ---------------------------------------------------------------- registry

  /** The registry's dict of tools, in the order names were first registered. */
  datatype Registry = Registry(tools: seq<Tool>)

  function EmptyRegistry(): (r: Registry)
    ensures r.tools == []
  {
    Registry([])
  }

  function Names(reg: Registry): (ns: seq<string>)
    ensures |ns| == |reg.tools|
    ensures forall i :: 0 <= i < |ns| ==> ns[i] == reg.tools[i].name
  {
    seq(|reg.tools|, i requires 0 <= i < |reg.tools| => reg.tools[i].name)
  }

  /** A dict never holds a key twice. */
  ghost predicate UniqueNames(reg: Registry)
  {
    forall i, j :: 0 <= i < j < |reg.tools| ==> reg.tools[i].name != reg.tools[j].name
  }

  /** Position of the first tool with this name. */
  function IndexOf(tools: seq<Tool>, name: string): (k: Option<nat>)
    ensures k.Some? ==> k.value < |tools| && tools[k.value].name == name
    ensures k.Some? ==> forall j :: 0 <= j < k.value ==> tools[j].name != name
    ensures k.None? ==> forall j :: 0 <= j < |tools| ==> tools[j].name != name
  {
    if tools == [] then None
    else if tools[0].name == name then Some(0)
    else match IndexOf(tools[1..], name)
      case None => None
      case Some(k) => Some(k + 1)
  }

  /** `registry.get(name)`. */
  function Get(reg: Registry, name: string): (t: Option<Tool>)
    ensures t.Some? <==> name in Names(reg)
    ensures t.Some? ==> t.value.name == name
  {
    match IndexOf(reg.tools, name)
    case None => None
    case Some(k) => Some(reg.tools[k])
  }

  /** `registry.register(tool)`: the tool is stored under its name; a name already
      present keeps its place and gets the new tool. */
  function Register(reg: Registry, tool: Tool): (r: Registry)
    ensures Get(r, tool.name) == Some(tool)
    ensures forall n :: n != tool.name ==> Get(r, n) == Get(reg, n)
    ensures Names(r) == if tool.name in Names(reg) then Names(reg) else Names(reg) + [tool.name]
    ensures UniqueNames(reg) ==> UniqueNames(r)
  {
    match IndexOf(reg.tools, tool.name)
    case None =>
      IndexOfAppend(reg.tools, tool);
      Registry(reg.tools + [tool])
    case Some(k) =>
      IndexOfUpdate(reg.tools, k, tool);
      assert Names(Registry(reg.tools[k := tool])) == Names(reg);
      Registry(reg.tools[k := tool])
  }

  lemma {:induction false} IndexOfUpdate(tools: seq<Tool>, k: nat, tool: Tool)
    requires k < |tools| && tools[k].name == tool.name
    ensures forall n :: n != tool.name ==> IndexOf(tools[k := tool], n) == IndexOf(tools, n)
  {
    if k > 0 {
      IndexOfUpdate(tools[1..], k - 1, tool);
      assert tools[k := tool][1..] == tools[1..][k - 1 := tool];
    }
    forall n | n != tool.name
      ensures IndexOf(tools[k := tool], n) == IndexOf(tools, n)
    {
      if k == 0 {
        assert tools[k := tool][1..] == tools[1..];
      }
    }
  }

  lemma {:induction false} IndexOfAppend(tools: seq<Tool>, tool: Tool)
    ensures forall n :: n != tool.name ==> IndexOf(tools + [tool], n) == IndexOf(tools, n)
    ensures IndexOf(tools, tool.name).None? ==> IndexOf(tools + [tool], tool.name) == Some(|tools|)
  {
    if tools != [] {
      IndexOfAppend(tools[1..], tool);
      assert (tools + [tool])[1..] == tools[1..] + [tool];
    }
  }

  /** `get_tool_schemas()` / `list_tools()`: the schema of every registered tool, in
      registration order. */
  function ListTools(reg: Registry): (r: seq<Schema>)
    ensures |r| == |reg.tools|
    ensures forall i :: 0 <= i < |r| ==> r[i] == GetSchema(reg.tools[i])
  {
    seq(|reg.tools|, i requires 0 <= i < |reg.tools| => GetSchema(reg.tools[i]))
  }

  /** A registry built only by `register` has exactly one schema per registered name. */
  lemma ListToolsOnePerName(reg: Registry)
    requires UniqueNames(reg)
    ensures forall n :: Get(reg, n).Some? <==> exists i :: 0 <= i < |ListTools(reg)| && ListTools(reg)[i].name == n
    ensures forall i, j :: 0 <= i < j < |ListTools(reg)| ==> ListTools(reg)[i].name != ListTools(reg)[j].name
  {
    var ls := ListTools(reg);
    assert forall i :: 0 <= i < |ls| ==> ls[i].name == Names(reg)[i];
    forall n
      ensures Get(reg, n).Some? <==> exists i :: 0 <= i < |ls| && ls[i].name == n
    {
      if n in Names(reg) {
        var i :| 0 <= i < |Names(reg)| && Names(reg)[i] == n;
        assert ls[i].name == n;
      }
    }
  }

  /** Registering a sequence of tools, one after another. */
  function RegisterAll(reg: Registry, ts: seq<Tool>): Registry
    decreases |ts|
  {
    if ts == [] then reg else RegisterAll(Register(reg, ts[0]), ts[1..])
  }

  /** `ts[i]` is the last tool registered under its name. */
  predicate LastTool(ts: seq<Tool>, i: int)
  {
    0 <= i < |ts| && forall j :: i < j < |ts| ==> ts[j].name != ts[i].name
  }

  /** Any sequence of registrations keeps names unique, and the last registration of
      a name is the one `get` returns. */
  lemma {:induction false} RegisterAllUnique(reg: Registry, ts: seq<Tool>)
    requires UniqueNames(reg)
    ensures UniqueNames(RegisterAll(reg, ts))
    ensures forall i :: LastTool(ts, i) ==> Get(RegisterAll(reg, ts), ts[i].name) == Some(ts[i])
    decreases |ts|
  {
    if ts != [] {
      var r1 := Register(reg, ts[0]);
      var rest := ts[1..];
      assert RegisterAll(reg, ts) == RegisterAll(r1, rest);
      RegisterAllUnique(r1, rest);
      forall i | LastTool(ts, i)
        ensures Get(RegisterAll(r1, rest), ts[i].name) == Some(ts[i])
      {
        if i == 0 {
          LastToolFirst(ts);
          RegisterAllKeeps(r1, rest, ts[0].name);
        } else {
          LastToolTail(ts, i);
        }
      }
    }
  }

  /** When the first tool is the last of its name, no later tool shares its name. */
  lemma LastToolFirst(ts: seq<Tool>)
    requires LastTool(ts, 0)
    ensures forall j :: 0 <= j < |ts[1..]| ==> ts[1..][j].name != ts[0].name
  {
    forall j | 0 <= j < |ts[1..]| ensures ts[1..][j].name != ts[0].name {
      assert ts[1..][j] == ts[j + 1];
    }
  }

  /** Past the first tool, the last of a name stays the last of it. */
  lemma LastToolTail(ts: seq<Tool>, i: int)
    requires LastTool(ts, i) && i > 0
    ensures LastTool(ts[1..], i - 1) && ts[1..][i - 1] == ts[i]
  {
    forall j | i - 1 < j < |ts[1..]| ensures ts[1..][j].name != ts[1..][i - 1].name {
      assert ts[1..][j] == ts[j + 1];
    }
  }

  /** Registrations of other names leave a name's tool alone. */
  lemma {:induction false} RegisterAllKeeps(reg: Registry, ts: seq<Tool>, name: string)
    requires forall j :: 0 <= j < |ts| ==> ts[j].name != name
    ensures Get(RegisterAll(reg, ts), name) == Get(reg, name)
    decreases |ts|
  {
    if ts != [] {
      RegisterAllKeeps(Register(reg, ts[0]), ts[1..], name);
    }
  }

  /** The dict `execute_tool` returns for an unknown name. */
  function NotFound(nameText: string): Dict
  {
    map["success" := Bool(false), "error" := Str("Tool '" + nameText + "' not found")]
  }

  /** `registry.execute_tool(name, **args)`: never raises. */
  function ExecuteTool(reg: Registry, name: string, args: Dict): (r: Dict)
    ensures name !in Names(reg) ==> r == NotFound(name)
    ensures "success" !in r ==> name in Names(reg) && Get(reg, name).value.execute(args) == Returned(r)
  {
    match Get(reg, name)
    case None => NotFound(name)
    case Some(t) =>
      match t.execute(args)
      case Returned(d) => d
      case Raised(m) => map["success" := Bool(false), "error" := Str("Tool execution failed: " + m)]
  }

  /** After `register(t)`, `execute_tool(t.name, …)` runs `t`: its dict is passed
      through unchanged and an exception becomes a failure dict. */
  lemma ExecuteRegistered(reg: Registry, t: Tool, args: Dict)
    ensures t.execute(args).Returned? ==> ExecuteTool(Register(reg, t), t.name, args) == t.execute(args).value
    ensures t.execute(args).Raised? ==>
      ExecuteTool(Register(reg, t), t.name, args) ==
        map["success" := Bool(false), "error" := Str("Tool execution failed: " + t.execute(args).message)]
  {
  }

  /** Registering another tool does not change how a name dispatches. */
  lemma ExecuteOther(reg: Registry, t: Tool, name: string, args: Dict)
    requires name != t.name
    ensures ExecuteTool(Register(reg, t), name, args) == ExecuteTool(reg, name, args)
  {
    assert Get(Register(reg, t), name) == Get(reg, name);
  }

  /** On an empty registry every call is a not-found failure. */
  lemma ExecuteOnEmpty(name: string, args: Dict)
    ensures ExecuteTool(EmptyRegistry(), name, args) == NotFound(name)
    ensures ExecuteTool(EmptyRegistry(), name, args)["error"] == Str("Tool '" + name + "' not found")
  {
  }

  // ---------------------------------------------------------------- tools from functions

  /** A parameter's annotation, as `from_function` distinguishes them. */
  datatype Annotation =
    | Unannotated
    | IntAnnotation
    | FloatAnnotation
    | BoolAnnotation
    | ListAnnotation        // the builtin `list`
    | TypingListAnnotation  // bare `typing.List`
    | OtherAnnotation(text: string)

  datatype SignatureParam = SignatureParam(name: string, annotation: Annotation, default: Option<Value>)

  /** A Python function: its name, docstring, signature and what calling it does. */
  datatype PyFunction = PyFunction(
    name: string,
    doc: Option<string>,
    params: seq<SignatureParam>,
    call: Dict -> Outcome<Value>)

  /** JSON-schema type name for an annotation. */
  function TypeTag(a: Annotation): (tag: string)
    ensures tag == "integer" <==> a.IntAnnotation?
    ensures tag == "number" <==> a.FloatAnnotation?
    ensures tag == "boolean" <==> a.BoolAnnotation?
    ensures tag == "array" <==> a.ListAnnotation? || a.TypingListAnnotation?
    ensures tag == "string" <==> a.Unannotated? || a.OtherAnnotation?
  {
    match a
    case IntAnnotation => "integer"
    case FloatAnnotation => "number"
    case BoolAnnotation => "boolean"
    case ListAnnotation => "array"
    case TypingListAnnotation => "array"
    case _ => "string"
  }

  /** Python's `a or b` on an optional string. */
  function OrElse(a: Option<string>, b: string): string
  {
    if a.Some? && a.value != "" then a.value else b
  }

  /** The `FunctionTool.execute` wrapper: never raises. */
  function FunctionToolExecute(f: PyFunction, args: Dict): (r: Outcome<Dict>)
    ensures r.Returned?
    ensures f.call(args).Returned? ==> r.value == map["success" := Bool(true), "result" := f.call(args).value]
    ensures f.call(args).Raised? ==> r.value == map["success" := Bool(false), "error" := Str(f.call(args).message)]
  {
    match f.call(args)
    case Returned(v) => Returned(map["success" := Bool(true), "result" := v])
    case Raised(m) => Returned(map["success" := Bool(false), "error" := Str(m)])
  }

  function ParameterOf(p: SignatureParam, description: string): ToolParameter
  {
    ToolParameter(p.name, TypeTag(p.annotation), description, p.default.None?, p.default.GetOr(Null))
  }

  /** `Tool.from_function(func, name, description)` with each parameter described as
      `"Parameter <name>"` (see the finding on the as-written version). */
  function FromFunction(f: PyFunction, name: Option<string>, description: Option<string>): (t: Tool)
    ensures t.name == OrElse(name, f.name)
    ensures t.description == OrElse(description, OrElse(f.doc, "Tool: " + t.name))
    ensures |t.parameters| == |f.params|
    ensures forall i :: 0 <= i < |f.params| ==>
      && t.parameters[i].name == f.params[i].name
      && t.parameters[i].typ == TypeTag(f.params[i].annotation)
      && t.parameters[i].description == "Parameter " + f.params[i].name
      && (t.parameters[i].required <==> f.params[i].default.None?)
      && (f.params[i].default.Some? ==> t.parameters[i].default == f.params[i].default.value)
    ensures forall args :: t.execute(args) == FunctionToolExecute(f, args)
  {
    var toolName := OrElse(name, f.name);
    Tool(
      toolName,
      OrElse(description, OrElse(f.doc, "Tool: " + toolName)),
      seq(|f.params|, i requires 0 <= i < |f.params| => ParameterOf(f.params[i], "Parameter " + f.params[i].name)),
      (args: Dict) => FunctionToolExecute(f, args))
  }

  /** `from_function` as written: the description is `param.__doc__ or …`, and
      `param.__doc__` is the docstring of the class `inspect.Parameter`, the same
      non-empty text for every parameter. */
  function FromFunctionAsWritten(f: PyFunction, name: Option<string>, description: Option<string>, parameterClassDoc: string): (t: Tool)
    ensures |t.parameters| == |f.params|
    ensures parameterClassDoc != "" ==> forall i :: 0 <= i < |f.params| ==> t.parameters[i].description == parameterClassDoc
  {
    var toolName := OrElse(name, f.name);
    Tool(
      toolName,
      OrElse(description, OrElse(f.doc, "Tool: " + toolName)),
      seq(|f.params|, i requires 0 <= i < |f.params| =>
        ParameterOf(f.params[i], OrElse(Some(parameterClassDoc), "Parameter " + f.params[i].name))),
      (args: Dict) => FunctionToolExecute(f, args))
  }

  /** As written, two differently named parameters get the same description; the
      corrected version tells them apart. */
  lemma ParameterDescriptionsCollide(f: PyFunction, parameterClassDoc: string)
    requires parameterClassDoc != ""
    requires |f.params| == 2 && f.params[0].name == "a" && f.params[1].name == "b"
    ensures FromFunctionAsWritten(f, None, None, parameterClassDoc).parameters[0].description
         == FromFunctionAsWritten(f, None, None, parameterClassDoc).parameters[1].description
    ensures FromFunction(f, None, None).parameters[0].description
         != FromFunction(f, None, None).parameters[1].description
  {
    var t := FromFunction(f, None, None);
    assert t.parameters[0].description == "Parameter a";
    assert t.parameters[1].description == "Parameter b";
    assert "Parameter a"[10] != "Parameter b"[10];
  }

  /** A function tool reached through the registry reports the function's return
      value or its exception message, never "Tool execution failed". */
  lemma FunctionToolThroughRegistry(reg: Registry, f: PyFunction, args: Dict)
    ensures var t := FromFunction(f, None, None);
      var r := ExecuteTool(Register(reg, t), t.name, args);
      && (f.call(args).Returned? ==> r == map["success" := Bool(true), "result" := f.call(args).value])
      && (f.call(args).Raised? ==> r == map["success" := Bool(false), "error" := Str(f.call(args).message)])
  {
    var t := FromFunction(f, None, None);
    ExecuteRegistered(reg, t, args);
  }
}
